=== FILE: README.md ===
# Fleet management: the rule sets under the microservices

The fleet-management system is a set of Spring microservices. A gateway
authenticates requests. A vehicles service keeps each manager's fleet and
who drives what. An issues service takes the problems carriers report. A
shipments service runs deliveries through a lifecycle. A payments service
keeps subscriptions and payments.

Under the REST and JPA plumbing sit small sequential rule sets. This
project models them as immutable datatypes and pure functions:

- the gateway's public-path match, Bearer-header checks and the identity
  headers it forwards (`JwtFilter`);
- the gateway's role check (`RoleFilter`);
- the header helpers every service repeats (`ServiceHeaders`), with the
  Java string operations they rely on written out (`JavaStrings`);
- the vehicle aggregate, its command service and its controller
  (`Vehicles`, `VehicleService`, `VehiclesController`);
- the issues service's in-memory index of vehicle events
  (`RelationshipIndex`);
- the issue aggregate, its command service and its controller (`Issues`,
  `IssueService`, `IssuesController`);
- the two services composed through the vehicle events (`CrossService`);
- the shipment state machine, its command service and its controller
  (`Shipments`, `ShipmentService`, `ShipmentsController`);
- the subscription plans, subscriptions and payments
  (`SubscriptionPlans`, `Subscriptions`, `Payments`).

Modelling conventions:

- A Java `null` is `None`.
- An exception a handler catches or lets through is `Failure(message)`.
- A repository is a `map` from id to entity. A handler returns the new
  map together with what it answers and the event it would publish.
- The clock (`now`) and the id the database would assign (`freshId`) are
  parameters.
- Amounts are whole cents.
- Each HTTP answer is its status code.

The issues index holds exactly two maps: vehicle to manager and
carrier to vehicle. There is no carrier-to-manager fallback cache. Once
a carrier's entry is removed, the manager lookup fails
(`RelationshipIndex.NoFallbackAfterUnassign`).

## Model

| member | source | states |
|---|---|---|
| JwtFilter.IsPublicPath | gateway-service/src/main/java/com/gateway/service/filter/JwtAuthenticationFilter.java:127-138 | a path is public exactly when some pattern matches it; a pattern ending in `/**` matches by prefix, any other pattern by equality |
| JwtFilter.PrefixMatchIsNotSegmentAware | gateway-service/src/main/java/com/gateway/service/filter/JwtAuthenticationFilter.java:129-131 | `/actuator/**` also matches `/actuatorX`, so that path is public under the default patterns |
| JwtFilter.PrefixMisses | gateway-service/src/main/java/com/gateway/service/filter/JwtAuthenticationFilter.java:129-131 | a `/**` pattern does not match a path that differs from it anywhere inside its prefix |
| JwtFilter.DefaultPatternsMissVehicles | gateway-service/src/main/java/com/gateway/service/filter/JwtAuthenticationFilter.java:40 | none of the four default public patterns matches the vehicles API path |
| JwtFilter.ServicePathsAreNotPublic | gateway-service/src/main/java/com/gateway/service/filter/JwtAuthenticationFilter.java:40 | the vehicles API is not public under the default configuration, so its requests must carry a token |
| JwtFilter.RolesHeader | gateway-service/src/main/java/com/gateway/service/filter/JwtAuthenticationFilter.java:157-169 | the roles header is the claim's roles joined with commas, and empty when the claim is missing, empty or unreadable |
| JwtFilter.Filter | gateway-service/src/main/java/com/gateway/service/filter/JwtAuthenticationFilter.java:44-125 | a request passes untouched exactly when its path is public, so an invalid token or a missing user id on any other path is refused; every refusal is 401; a missing header or one without the case-sensitive `Bearer ` prefix is refused; the request is forwarded with identity headers exactly when the token after the first seven characters verifies and yields a user id |
| JwtFilter.UserIdPrecedence | gateway-service/src/main/java/com/gateway/service/filter/JwtAuthenticationFilter.java:82-94 | the forwarded user id is the `userId` claim, else the numeric `id` claim, else the subject email; a non-numeric `id` gives no id at all |
| JwtFilter.ForwardedIdReadsBack | gateway-service/src/main/java/com/gateway/service/filter/JwtAuthenticationFilter.java:87 | a numeric `id` claim forwarded by the gateway is read back unchanged by the services' user-id parser |
| RoleFilter.Compare | gateway-service/src/main/java/com/gateway/service/filter/RoleAuthorizationFilter.java:35-37 | for ASCII roles, the result is exactly whether the trimmed, `ROLE_`-free names have the same length and are equal once upper-cased |
| RoleFilter.NormalizeKeepsAscii | gateway-service/src/main/java/com/gateway/service/filter/RoleAuthorizationFilter.java:35-36 | trimming and removing `ROLE_` keep an ASCII role ASCII |
| RoleFilter.Search | gateway-service/src/main/java/com/gateway/service/filter/RoleAuthorizationFilter.java:32-43 | the nested loops find a match exactly when some required role matches some held role |
| RoleFilter.Authorize | gateway-service/src/main/java/com/gateway/service/filter/RoleAuthorizationFilter.java:26-47 | a missing roles header is refused; every refusal is 403; the request passes exactly when some required role matches some comma-separated held role |
| RoleFilter.NoRequiredRolesRejectsAll | gateway-service/src/main/java/com/gateway/service/filter/RoleAuthorizationFilter.java:32-44 | with no required roles, no request passes |
| RoleFilter.AdmitsDependsOnlyOnSets | gateway-service/src/main/java/com/gateway/service/filter/RoleAuthorizationFilter.java:33-43 | the decision depends only on which roles appear in each list, not on their order or repetition |
| RoleFilter.PrefixAndCaseAreIgnored | gateway-service/src/main/java/com/gateway/service/filter/RoleAuthorizationFilter.java:35-37 | for every required role without surrounding blanks and every held role, a `ROLE_` prefix on the first and a leading blank on the second do not change whether they match |
| RoleFilter.HeldBlanksAreTrimmed | gateway-service/src/main/java/com/gateway/service/filter/RoleAuthorizationFilter.java:36 | for every role, a leading blank does not change its normal form |
| RoleFilter.RequiredPrefixIsDropped | gateway-service/src/main/java/com/gateway/service/filter/RoleAuthorizationFilter.java:35 | for every role without surrounding blanks, a `ROLE_` prefix does not change its normal form |
| RoleFilter.JoinedHeaderAdmits | gateway-service/src/main/java/com/gateway/service/filter/RoleAuthorizationFilter.java:31 | splitting the roles header the gateway joined gives back the roles, so the filter decides on the token's own roles |
| RoleFilter.GatewayAgreesWithServices | vehicles-service/src/main/java/com/vehicles/service/interfaces/rest/VehiclesController.java:407-421 | for ASCII roles and a trimmed required role, the gateway's match agrees with the services' upper-casing match |
| JavaStrings.Trim | gateway-service/src/main/java/com/gateway/service/filter/RoleAuthorizationFilter.java:35 | the trimmed string is the part of the input after its leading run of characters at or below U+0020, followed only by such characters, and it neither starts nor ends with one |
| JavaStrings.EqualsIgnoreCaseIsUpperEquality | gateway-service/src/main/java/com/gateway/service/filter/RoleAuthorizationFilter.java:37 | on ASCII strings, comparing ignoring case is the same as comparing the upper-cased strings |
| JavaStrings.Split | gateway-service/src/main/java/com/gateway/service/filter/RoleAuthorizationFilter.java:31 | splitting gives the separator-free pieces of the string up to its last non-empty piece, all later pieces being empty; a string without the separator splits into itself |
| JavaStrings.RemoveAll | gateway-service/src/main/java/com/gateway/service/filter/RoleAuthorizationFilter.java:35 | deleting `ROLE_` leaves the string unchanged exactly when it does not occur, and shortens it otherwise |
| JavaStrings.RemoveAllSkipsToFirstOccurrence | gateway-service/src/main/java/com/gateway/service/filter/RoleAuthorizationFilter.java:35 | the text before the first occurrence is kept, the occurrence is deleted, and deletion resumes after it |
| JavaStrings.RemoveAllOnlyDeletes | gateway-service/src/main/java/com/gateway/service/filter/RoleAuthorizationFilter.java:35 | every character left after deleting was in the input |
| JavaStrings.PiecesOfJoin | gateway-service/src/main/java/com/gateway/service/filter/JwtAuthenticationFilter.java:80 | joining separator-free parts and cutting the result at the separator gives the parts back |
| JavaStrings.ParseLong | issues-service/src/main/java/com/issues/service/interfaces/rest/IssuesController.java:291-301 | a string parses exactly when it is an optional sign followed by one or more decimal digits whose signed value fits 64 bits, and the value is that signed value |
| JavaStrings.CharacterDigitFindsTheRun | issues-service/src/main/java/com/issues/service/interfaces/rest/IssuesController.java:295 | a character is a decimal digit for `Long.valueOf` exactly when it lies in one of Unicode's runs of ten decimal digits, and its value is its place in the run |
| JavaStrings.OtherScriptsDigitsParse | issues-service/src/main/java/com/issues/service/interfaces/rest/IssuesController.java:295 | Arabic-Indic digits one and two parse as 12, as `Long.valueOf` reads them |
| JavaStrings.LeadingZeroIsIgnored | issues-service/src/main/java/com/issues/service/interfaces/rest/IssuesController.java:295 | a leading zero does not change the value of a digit string |
| JavaStrings.BelowZeroIsNotADigit | issues-service/src/main/java/com/issues/service/interfaces/rest/IssuesController.java:295 | no character below `0`, a sign in particular, is a digit |
| JavaStrings.LongToStringRoundTrip | gateway-service/src/main/java/com/gateway/service/filter/JwtAuthenticationFilter.java:87 | every 64-bit value printed in decimal parses back to itself |
| ServiceHeaders.UserIdFromHeader | issues-service/src/main/java/com/issues/service/interfaces/rest/IssuesController.java:291-301 | a missing or empty user-id header gives no user; otherwise the user is the header parsed as a 64-bit number (in any script's decimal digits), and no user when it does not parse |
| ServiceHeaders.UserIdHeaderRoundTrip | vehicles-service/src/main/java/com/vehicles/service/interfaces/rest/VehiclesController.java:392-402 | the header carrying a user id's decimal form reads back as that id |
| ServiceHeaders.AnyRoleMatches | vehicles-service/src/main/java/com/vehicles/service/interfaces/rest/VehiclesController.java:410-418 | the loop finds the role exactly when some held role, trimmed, without `ROLE_` and upper-cased (ASCII letters), equals it |
| ServiceHeaders.HasRole | issues-service/src/main/java/com/issues/service/interfaces/rest/IssuesController.java:306-319 | a missing or empty roles header holds no role; otherwise the role is held exactly when some comma-separated entry normalises to it (upper-casing ASCII letters) |
| ServiceHeaders.JoinedRolesAreFound | issues-service/src/main/java/com/issues/service/interfaces/rest/IssuesController.java:306-319 | every role in the header the gateway joined is found by the services' check |
| RelationshipIndex.VehicleForCarrier | issues-service/src/main/java/com/issues/service/application/events/EventsConsumer.java:52-62 | the vehicle for a carrier is its carrier-to-vehicle entry, and nothing for a null carrier or one without an entry |
| RelationshipIndex.ManagerForCarrier | issues-service/src/main/java/com/issues/service/application/events/EventsConsumer.java:29-45 | the manager for a carrier is m exactly when the carrier maps to a vehicle that maps to m; otherwise, and for a null carrier, there is none |
| RelationshipIndex.Unassign | issues-service/src/main/java/com/issues/service/application/events/EventsConsumer.java:141-149 | at most one entry goes, one pointing at the vehicle: the first the scan meets; nothing goes when no entry points at it |
| RelationshipIndex.OnVehicleCreated | issues-service/src/main/java/com/issues/service/application/events/EventsConsumer.java:105-120 | a creation event overwrites the vehicle's manager and leaves the carrier map alone; an event with a null id or manager changes nothing |
| RelationshipIndex.OnVehicleUpdated | issues-service/src/main/java/com/issues/service/application/events/EventsConsumer.java:128-166 | an update with a carrier maps that carrier to the vehicle; one without a carrier runs the unassignment scan; the vehicle-to-manager map is never touched |
| RelationshipIndex.Apply | issues-service/src/main/java/com/issues/service/application/events/EventsConsumer.java:69-97 | null events and user events leave both maps unchanged; vehicle events go to their handlers |
| RelationshipIndex.VehicleCreatedIdempotent | issues-service/src/main/java/com/issues/service/application/events/EventsConsumer.java:117 | delivering the same creation event twice gives the state one delivery gives |
| RelationshipIndex.CreatedAndUpdatedCommute | issues-service/src/main/java/com/issues/service/application/events/EventsConsumer.java:117 | a creation and an update reach the same state in either order, and the carrier then resolves to the created vehicle's manager |
| RelationshipIndex.UnassignLeavesNoManager | issues-service/src/main/java/com/issues/service/application/events/EventsConsumer.java:141-149 | after the carrier's only entry is unassigned, the carrier has neither a vehicle nor a manager |
| RelationshipIndex.NoFallbackAfterUnassign | issues-service/src/main/java/com/issues/service/application/events/EventsConsumer.java:143-146 | a carrier that resolved to a manager resolves to none once its vehicle is unassigned |
| RelationshipIndex.ReassignResolvesThroughNewVehicle | issues-service/src/main/java/com/issues/service/application/events/EventsConsumer.java:150-164 | after an assignment the carrier resolves through the new vehicle, to that vehicle's manager if one is known |
| RelationshipIndex.OtherCarriersUnaffected | issues-service/src/main/java/com/issues/service/application/events/EventsConsumer.java:128-166 | an event about other carriers and vehicles changes nothing a carrier resolves to |
| RelationshipIndex.DirectReassignLeavesStaleCarrier | issues-service/src/main/java/com/issues/service/application/events/EventsConsumer.java:152 | assigning a vehicle to a second carrier keeps the first carrier's entry, so both carriers resolve to the vehicle's manager |
| Vehicles.ValidateCreateVehicle | vehicles-service/src/main/java/com/vehicles/service/interfaces/rest/resources/CreateVehicleResource.java:3-15 | a resource is accepted, unchanged, exactly when licence plate, brand and model are all non-blank; otherwise the first blank field's message is the error |
| Vehicles.FromCommand | vehicles-service/src/main/java/com/vehicles/service/domain/model/aggregates/Vehicle.java:61-67 | a new vehicle is ACTIVE without a carrier and takes its other fields from the command |
| Vehicles.AssignCarrier | vehicles-service/src/main/java/com/vehicles/service/domain/model/aggregates/Vehicle.java:69-72 | assigning sets the carrier, overwriting any previous one, and changes nothing else |
| Vehicles.RemoveCarrier | vehicles-service/src/main/java/com/vehicles/service/domain/model/aggregates/Vehicle.java:74-77 | removing clears the carrier and changes nothing else |
| Vehicles.ChangeStatus | vehicles-service/src/main/java/com/vehicles/service/domain/model/aggregates/Vehicle.java:79-82 | any status is accepted and no other field changes |
| Vehicles.AssignThenRemove | vehicles-service/src/main/java/com/vehicles/service/domain/model/aggregates/Vehicle.java:69-77 | assigning then removing equals removing alone, and restores a vehicle that had no carrier |
| Vehicles.CarrierAndStatusCommute | vehicles-service/src/main/java/com/vehicles/service/domain/model/aggregates/Vehicle.java:69-82 | carrier changes and status changes commute |
| Vehicles.ValidatedVehicleIsWellFormed | vehicles-service/src/main/java/com/vehicles/service/interfaces/rest/resources/CreateVehicleResource.java:3-15 | a vehicle built from an accepted resource has non-blank plate, brand and model and the caller as manager |
| VehicleService.Create | vehicles-service/src/main/java/com/vehicles/service/application/internal/commandservices/VehicleCommandServiceImpl.java:33-50 | the save fails exactly when another vehicle already has the plate (the column is unique); otherwise the new vehicle is stored under the fresh id, ACTIVE and without a carrier, and the creation event carries its id, fields and manager |
| VehicleService.Update | vehicles-service/src/main/java/com/vehicles/service/application/internal/commandservices/VehicleCommandServiceImpl.java:58-79 | an unknown id changes nothing and publishes nothing; otherwise only the non-null brand and model change, and the event carries them with a null carrier |
| VehicleService.Assign | vehicles-service/src/main/java/com/vehicles/service/application/internal/commandservices/VehicleCommandServiceImpl.java:87-106 | a carrier found on two or more vehicles makes the single-result lookup throw; a carrier who holds one vehicle, or an unknown id, changes nothing; otherwise the carrier is set and the event carries only that carrier |
| VehicleService.SetStatus | vehicles-service/src/main/java/com/vehicles/service/application/internal/commandservices/VehicleCommandServiceImpl.java:114-134 | the status is set and the event carries it with a null carrier; an unknown id changes nothing |
| VehicleService.Unassign | vehicles-service/src/main/java/com/vehicles/service/application/internal/commandservices/VehicleCommandServiceImpl.java:141-161 | the carrier is cleared and the event carries a null carrier; an unknown id changes nothing |
| VehicleService.HasReachedVehicleLimit | vehicles-service/src/main/java/com/vehicles/service/application/internal/commandservices/VehicleCommandServiceImpl.java:169-177 | a pro user never reaches the limit; anyone else reaches it exactly when they own ten or more vehicles |
| VehicleService.HandlersTouchOneVehicle | vehicles-service/src/main/java/com/vehicles/service/application/internal/commandservices/VehicleCommandServiceImpl.java:58-161 | each handler changes at most the addressed vehicle and publishes an event about it exactly when it returns it |
| VehicleService.OnlyAssignPublishesACarrier | vehicles-service/src/main/java/com/vehicles/service/application/internal/commandservices/VehicleCommandServiceImpl.java:67-74 | the update, status and removal events all carry a null carrier |
| VehicleService.UpdatesKeepTheCarrier | vehicles-service/src/main/java/com/vehicles/service/application/internal/commandservices/VehicleCommandServiceImpl.java:58-134 | a brand, model or status update leaves the vehicle's carrier in place |
| VehicleService.AssignKeepsOneVehiclePerCarrier | vehicles-service/src/main/java/com/vehicles/service/application/internal/commandservices/VehicleCommandServiceImpl.java:89 | thanks to the held-vehicle check, no carrier ends up holding two vehicles |
| VehicleService.OneVehiclePerCarrierPreventsTheFault | vehicles-service/src/main/java/com/vehicles/service/application/internal/commandservices/VehicleCommandServiceImpl.java:89 | while no carrier holds two vehicles, the carrier lookup finds at most one and assignment never throws |
| VehicleService.HandlersKeepPlatesUnique | vehicles-service/src/main/java/com/vehicles/service/domain/model/aggregates/Vehicle.java:24 | a successful creation, and every update, assignment, status change and removal, keep licence plates unique across the fleet |
| VehicleService.OtherHandlersKeepOneVehiclePerCarrier | vehicles-service/src/main/java/com/vehicles/service/application/internal/commandservices/VehicleCommandServiceImpl.java:33-161 | create, update, status and removal never give a carrier a second vehicle |
| VehicleService.CreateCountsTowardsLimit | vehicles-service/src/main/java/com/vehicles/service/application/internal/commandservices/VehicleCommandServiceImpl.java:169-177 | a creation adds exactly the new vehicle to its manager's count and leaves every other manager's count alone |
| VehiclesController.CanAccessVehicle | vehicles-service/src/main/java/com/vehicles/service/interfaces/rest/VehiclesController.java:426-444 | no user gets no access; an admin always has it; otherwise access is granted exactly when the manager role goes with the vehicle's manager id being the caller's, or the carrier role with its carrier id being the caller's |
| VehiclesController.CreateVehicle | vehicles-service/src/main/java/com/vehicles/service/interfaces/rest/VehiclesController.java:55-76 | 401 without a user, 403 without the manager role or at the ten-vehicle limit, 500 with nothing stored when the plate is taken, otherwise 201 with a vehicle owned by the caller |
| VehiclesController.GetVehicleById | vehicles-service/src/main/java/com/vehicles/service/interfaces/rest/VehiclesController.java:90-104 | 404 for an unknown id; 200 with the vehicle exactly when the caller may access it |
| VehiclesController.Modify | vehicles-service/src/main/java/com/vehicles/service/interfaces/rest/VehiclesController.java:262-283 | the shared gate: 404 for an unknown id, 403 unless the caller may modify, else the handler's answer |
| VehiclesController.UpdateVehicle | vehicles-service/src/main/java/com/vehicles/service/interfaces/rest/VehiclesController.java:262-283 | 200 exactly when the vehicle exists and the caller may modify it; anything else leaves the fleet as it was |
| VehiclesController.AssignCarrierToVehicle | vehicles-service/src/main/java/com/vehicles/service/interfaces/rest/VehiclesController.java:298-318 | 200 exactly when the caller may modify the vehicle and the carrier holds none; a carrier who drives one vehicle gives 404, one found on several gives 500 |
| VehiclesController.ChangeVehicleStatus | vehicles-service/src/main/java/com/vehicles/service/interfaces/rest/VehiclesController.java:333-353 | 200 exactly when the caller may modify the vehicle, with only its status changed |
| VehiclesController.RemoveCarrierFromVehicle | vehicles-service/src/main/java/com/vehicles/service/interfaces/rest/VehiclesController.java:367-386 | 200 exactly when the caller may modify the vehicle, with only its carrier cleared |
| VehiclesController.GetVehicleByCarrierId | vehicles-service/src/main/java/com/vehicles/service/interfaces/rest/VehiclesController.java:203-218 | 404 when the carrier drives nothing; 500 when the carrier holds two vehicles; an admin gets 200; a caller who is neither admin nor manager gets 403; a manager gets 500 for a vehicle without manager, 200 for their own vehicle and 403 for another's |
| VehiclesController.CarrierOnlyCannotModify | vehicles-service/src/main/java/com/vehicles/service/interfaces/rest/VehiclesController.java:272 | a caller who is neither admin nor manager is refused by every modifying endpoint and changes nothing |
| VehiclesController.CarrierReadsButCannotModify | vehicles-service/src/main/java/com/vehicles/service/interfaces/rest/VehiclesController.java:308 | a carrier may read the vehicle they drive but may not modify it |
| VehiclesController.ManagerModifiesOwnVehicles | vehicles-service/src/main/java/com/vehicles/service/interfaces/rest/VehiclesController.java:426-444 | a manager who is not admin may modify exactly the vehicles they own |
| VehiclesController.TenthVehicleIsTheLast | vehicles-service/src/main/java/com/vehicles/service/interfaces/rest/VehiclesController.java:67-70 | a manager who owns ten vehicles cannot create another |
| VehiclesController.CarrierLookupFaultsOnOwnerlessVehicle | vehicles-service/src/main/java/com/vehicles/service/interfaces/rest/VehiclesController.java:212-215 | a manager looking up a carrier whose vehicle has no manager gets a server error, not a refusal |
| CrossService.MirrorResolvesCarriers | issues-service/src/main/java/com/issues/service/application/events/EventsConsumer.java:29-62 | an index that mirrors the fleet resolves each driving carrier to its vehicle and the vehicle's manager |
| CrossService.CreateKeepsMirror | vehicles-service/src/main/java/com/vehicles/service/application/internal/commandservices/VehicleCommandServiceImpl.java:39-47 | delivering a creation's event keeps the index a mirror of the fleet |
| CrossService.AssignFreeVehicleKeepsMirror | vehicles-service/src/main/java/com/vehicles/service/application/internal/commandservices/VehicleCommandServiceImpl.java:92-102 | assigning a vehicle without a carrier, then delivering its event, keeps the index a mirror |
| CrossService.UnassignKeepsMirror | vehicles-service/src/main/java/com/vehicles/service/application/internal/commandservices/VehicleCommandServiceImpl.java:145-157 | removing a carrier, then delivering its event, keeps the index a mirror |
| CrossService.UpdatesDropTheCarrier | vehicles-service/src/main/java/com/vehicles/service/application/internal/commandservices/VehicleCommandServiceImpl.java:122-129 | a brand, model or status update keeps the carrier in the fleet but, once delivered, erases the carrier from the index |
| CrossService.ReassignKeepsStaleCarrier | vehicles-service/src/main/java/com/vehicles/service/application/internal/commandservices/VehicleCommandServiceImpl.java:89 | reassigning a driven vehicle to a new carrier leaves the old carrier pointing at it in the index |
| CrossService.AssignedCarrierCanReport | issues-service/src/main/java/com/issues/service/interfaces/rest/IssuesController.java:75-96 | a carrier driving a managed vehicle files an issue that names the vehicle's manager, and the vehicle for vehicle issues |
| CrossService.StatusChangeStopsReports | issues-service/src/main/java/com/issues/service/interfaces/rest/IssuesController.java:75-81 | after a status change the carrier still drives the vehicle but issue creation answers 400 |
| Issues.ValidateCreateIssue | issues-service/src/main/java/com/issues/service/interfaces/rest/resources/CreateIssueResource.java:5-16 | accepted, unchanged, exactly when title and content are non-blank and a type is given; otherwise the first missing field's message |
| Issues.FromCommand | issues-service/src/main/java/com/issues/service/domain/model/aggregates/Issue.java:61-70 | the command's fields are copied unchanged, and the report date is the command's when given and the clock's otherwise |
| Issues.UpdateTitle | issues-service/src/main/java/com/issues/service/domain/model/aggregates/Issue.java:77-80 | only the title changes |
| Issues.UpdateContent | issues-service/src/main/java/com/issues/service/domain/model/aggregates/Issue.java:72-75 | only the content changes |
| Issues.UpdateType | issues-service/src/main/java/com/issues/service/domain/model/aggregates/Issue.java:82-85 | only the type changes |
| Issues.ApplyUpdate | issues-service/src/main/java/com/issues/service/application/internal/commandservices/IssueCommandServiceImpl.java:51-53 | each non-null field of the command replaces the old value, null fields keep it, and nothing else changes |
| Issues.SettersCommute | issues-service/src/main/java/com/issues/service/domain/model/aggregates/Issue.java:72-85 | the three setters touch different fields, so they commute |
| Issues.ApplyUpdateLaws | issues-service/src/main/java/com/issues/service/application/internal/commandservices/IssueCommandServiceImpl.java:51-53 | an update applied twice equals it applied once, an empty update changes nothing, and a full update forgets the old editable fields |
| IssueService.Create | issues-service/src/main/java/com/issues/service/application/internal/commandservices/IssueCommandServiceImpl.java:26-45 | the issue built from the command is stored under the fresh id, and the event carries its id and its carrier, manager, vehicle and shipment |
| IssueService.Update | issues-service/src/main/java/com/issues/service/application/internal/commandservices/IssueCommandServiceImpl.java:48-67 | an unknown id changes nothing and publishes nothing; otherwise the partial update is stored and its event carries the command's fields |
| IssueService.Delete | issues-service/src/main/java/com/issues/service/application/internal/commandservices/IssueCommandServiceImpl.java:70-79 | the answer is true exactly when the id exists and deletion does not throw, and then the issue is gone |
| IssueService.CreateThenDelete | issues-service/src/main/java/com/issues/service/application/internal/commandservices/IssueCommandServiceImpl.java:26-79 | deleting a just-created issue restores the store |
| IssueService.UpdateIsIdempotent | issues-service/src/main/java/com/issues/service/application/internal/commandservices/IssueCommandServiceImpl.java:48-67 | repeating an update changes nothing more and publishes the same event |
| IssueService.OwnersAreFixed | issues-service/src/main/java/com/issues/service/domain/model/aggregates/Issue.java:72-85 | no update changes an issue's carrier, manager, vehicle, shipment or report date, and a delete touches no other issue |
| Http.Listing | issues-service/src/main/java/com/issues/service/interfaces/rest/IssuesController.java:137-145 | a listing answers 200 with the ids, or 204 when there are none |
| IssuesController.CanAccessIssue | issues-service/src/main/java/com/issues/service/interfaces/rest/IssuesController.java:324-330 | no user gets no access; an admin always has it; otherwise access needs the manager role and being the issue's manager, or the carrier role and being its carrier |
| IssuesController.CreateIssue | issues-service/src/main/java/com/issues/service/interfaces/rest/IssuesController.java:62-102 | 401 without a user, 403 without the carrier role, 400 when no manager resolves; otherwise 201 with the resolved manager, the resolved vehicle for vehicle issues and no vehicle for others |
| IssuesController.GetIssueById | issues-service/src/main/java/com/issues/service/interfaces/rest/IssuesController.java:116-124 | 404 for an unknown id; 200 with the issue exactly when the caller may access it |
| IssuesController.GetMyIssues | issues-service/src/main/java/com/issues/service/interfaces/rest/IssuesController.java:137-145 | a carrier gets exactly the issues they reported; others are refused |
| IssuesController.GetIssuesByCarrierId | issues-service/src/main/java/com/issues/service/interfaces/rest/IssuesController.java:159-176 | the carrier's issues are listed exactly for an admin or that same carrier |
| IssuesController.GetIssuesByManagerId | issues-service/src/main/java/com/issues/service/interfaces/rest/IssuesController.java:190-202 | the manager's issues are listed exactly for an admin or that same manager |
| IssuesController.GetIssuesByType | issues-service/src/main/java/com/issues/service/interfaces/rest/IssuesController.java:216-228 | a signed-in caller gets exactly the issues of the type that they may read |
| IssuesController.UpdateIssue | issues-service/src/main/java/com/issues/service/interfaces/rest/IssuesController.java:243-260 | 200 with the partial update exactly when the caller is the issue's own carrier; nothing changes otherwise |
| IssuesController.DeleteIssue | issues-service/src/main/java/com/issues/service/interfaces/rest/IssuesController.java:274-286 | 204 and the issue gone exactly when an admin or the issue's own carrier deletes an existing issue and deletion does not throw |
| IssuesController.VehicleCheckNeverRefuses | issues-service/src/main/java/com/issues/service/interfaces/rest/IssuesController.java:84-96 | creation answers 400 exactly when no manager resolves: the vehicle check never adds a refusal, since the manager is found through the vehicle |
| IssuesController.TypeListingAgreesWithLookup | issues-service/src/main/java/com/issues/service/interfaces/rest/IssuesController.java:221-223 | an issue is listed by type exactly when it has the type and the caller may read it by id |
| IssuesController.ManagerReadsButCannotListByCarrier | issues-service/src/main/java/com/issues/service/interfaces/rest/IssuesController.java:165-171 | a manager may read an issue of theirs yet is refused the listing of its carrier |
| IssuesController.AdminDeletesButCannotUpdate | issues-service/src/main/java/com/issues/service/interfaces/rest/IssuesController.java:251-254 | an admin may delete an issue but not update it; the reporting carrier may update it |
| IssuesController.DeletedIssueIsNotFound | issues-service/src/main/java/com/issues/service/interfaces/rest/IssuesController.java:274-286 | after a successful delete the issue is not found by anyone |
| Shipments.ValidateCreateShipment | shipments-service/src/main/java/com/shipments/service/interfaces/rest/resources/CreateShipmentResource.java:5-29 | accepted, unchanged, exactly when destination, description, customer name and phone are non-blank and a date is given; otherwise the first failing field's message |
| Shipments.FromCommand | shipments-service/src/main/java/com/shipments/service/domain/model/aggregates/Shipment.java:75-83 | a new shipment is PENDING, without carrier or dates, with the command's fields |
| Shipments.AssignCarrier | shipments-service/src/main/java/com/shipments/service/domain/model/aggregates/Shipment.java:85-91 | the carrier is set, PENDING becomes ASSIGNED, every other status stays |
| Shipments.RemoveCarrier | shipments-service/src/main/java/com/shipments/service/domain/model/aggregates/Shipment.java:93-99 | the carrier is cleared, ASSIGNED becomes PENDING, every other status stays |
| Shipments.StartShipment | shipments-service/src/main/java/com/shipments/service/domain/model/aggregates/Shipment.java:101-109 | starting succeeds exactly from PENDING or ASSIGNED with a carrier, giving IN_PROGRESS started now |
| Shipments.CompleteShipment | shipments-service/src/main/java/com/shipments/service/domain/model/aggregates/Shipment.java:111-116 | completing succeeds exactly from IN_PROGRESS, giving COMPLETED now |
| Shipments.CancelShipment | shipments-service/src/main/java/com/shipments/service/domain/model/aggregates/Shipment.java:118-122 | cancelling fails only from COMPLETED and otherwise gives CANCELLED |
| Shipments.TableRows | shipments-service/src/main/java/com/shipments/service/domain/model/aggregates/Shipment.java:125-166 | the transition table allows exactly the listed moves, self-loops included, and nothing out of COMPLETED or CANCELLED |
| Shipments.Refusal | shipments-service/src/main/java/com/shipments/service/domain/model/aggregates/Shipment.java:125-166 | there is no refusal exactly when the table allows the move and it is not ASSIGNED to PENDING with a carrier |
| Shipments.ChangeStatus | shipments-service/src/main/java/com/shipments/service/domain/model/aggregates/Shipment.java:124-177 | a permitted move sets the status, fills a start or completion date only when it was unset, and changes nothing else; a refused one gives its message |
| Shipments.CarrierChangesKeepCoherence | shipments-service/src/main/java/com/shipments/service/domain/model/aggregates/Shipment.java:85-99 | setting or clearing the carrier leaves the dates alone, so a coherent shipment stays coherent at the same stage |
| Shipments.OperationsKeepCoherence | shipments-service/src/main/java/com/shipments/service/domain/model/aggregates/Shipment.java:75-122 | the lifecycle operations keep carrier, dates and status consistent and never move a shipment back a stage |
| Shipments.ChangeStatusKeepsCoherence | shipments-service/src/main/java/com/shipments/service/domain/model/aggregates/Shipment.java:124-177 | a permitted status change keeps the shipment consistent and never moves it back a stage |
| Shipments.TerminalStatesAreFinal | shipments-service/src/main/java/com/shipments/service/domain/model/aggregates/Shipment.java:85-166 | no operation moves a COMPLETED or CANCELLED shipment elsewhere |
| Shipments.StartOnlyFromAssigned | shipments-service/src/main/java/com/shipments/service/domain/model/aggregates/Shipment.java:101-109 | on a consistent shipment, starting succeeds only from ASSIGNED |
| Shipments.AssignedWithoutCarrier | shipments-service/src/main/java/com/shipments/service/domain/model/aggregates/Shipment.java:126-131 | the status table lets a new shipment become ASSIGNED without a carrier, and such a shipment cannot start |
| Shipments.HappyPath | shipments-service/src/main/java/com/shipments/service/domain/model/aggregates/Shipment.java:85-116 | assign, start and complete take a new shipment to COMPLETED with both dates and the carrier recorded |
| Shipments.ChangeStatusKeepsStartDate | shipments-service/src/main/java/com/shipments/service/domain/model/aggregates/Shipment.java:168-173 | moving an IN_PROGRESS shipment to IN_PROGRESS again keeps its original start date |
| ShipmentService.Commit | shipments-service/src/main/java/com/shipments/service/application/internal/commandservices/ShipmentCommandServiceImpl.java:181-203 | a refused aggregate step stores and publishes nothing; an accepted one is stored and its event published |
| ShipmentService.Create | shipments-service/src/main/java/com/shipments/service/application/internal/commandservices/ShipmentCommandServiceImpl.java:31-50 | the new PENDING shipment is stored under the fresh id and the event carries its id and fields |
| ShipmentService.ApplyUpdate | shipments-service/src/main/java/com/shipments/service/application/internal/commandservices/ShipmentCommandServiceImpl.java:62-66 | each non-null field of the command replaces the old value and nothing else changes |
| ShipmentService.Update | shipments-service/src/main/java/com/shipments/service/application/internal/commandservices/ShipmentCommandServiceImpl.java:58-85 | an unknown id changes nothing; otherwise the partial update is stored and its event has null status and carrier |
| ShipmentService.Assign | shipments-service/src/main/java/com/shipments/service/application/internal/commandservices/ShipmentCommandServiceImpl.java:93-115 | the assigned shipment is stored and the event carries the carrier and the new status |
| ShipmentService.Unassign | shipments-service/src/main/java/com/shipments/service/application/internal/commandservices/ShipmentCommandServiceImpl.java:122-144 | the shipment without carrier is stored and the event carries a null carrier and the new status |
| ShipmentService.UpdateStatus | shipments-service/src/main/java/com/shipments/service/application/internal/commandservices/ShipmentCommandServiceImpl.java:152-174 | the status changes exactly when the table permits it; a refused change stores and publishes nothing |
| ShipmentService.Start | shipments-service/src/main/java/com/shipments/service/application/internal/commandservices/ShipmentCommandServiceImpl.java:181-203 | the IN_PROGRESS event is published only when the start guard passes |
| ShipmentService.Complete | shipments-service/src/main/java/com/shipments/service/application/internal/commandservices/ShipmentCommandServiceImpl.java:210-232 | the COMPLETED event is published only from IN_PROGRESS |
| ShipmentService.Cancel | shipments-service/src/main/java/com/shipments/service/application/internal/commandservices/ShipmentCommandServiceImpl.java:239-261 | the CANCELLED event is published for anything but a completed shipment |
| ShipmentService.Delete | shipments-service/src/main/java/com/shipments/service/application/internal/commandservices/ShipmentCommandServiceImpl.java:263-270 | the answer is true exactly when the id existed, and the shipment is gone |
| ShipmentService.OnlyAssignPublishesACarrier | shipments-service/src/main/java/com/shipments/service/application/internal/commandservices/ShipmentCommandServiceImpl.java:97-111 | only the assignment event carries a carrier; every other event's carrier is null |
| ShipmentService.HandlersKeepCoherence | shipments-service/src/main/java/com/shipments/service/application/internal/commandservices/ShipmentCommandServiceImpl.java:58-261 | update, assign, unassign, start, complete and cancel keep every stored shipment consistent |
| ShipmentService.StatusUpdateKeepsCoherence | shipments-service/src/main/java/com/shipments/service/application/internal/commandservices/ShipmentCommandServiceImpl.java:152-174 | a status update keeps every stored shipment consistent |
| ShipmentService.StoreKeepsCoherence | shipments-service/src/main/java/com/shipments/service/application/internal/commandservices/ShipmentCommandServiceImpl.java:152-174 | storing a consistent shipment keeps the whole store consistent |
| ShipmentService.CreateKeepsCoherence | shipments-service/src/main/java/com/shipments/service/application/internal/commandservices/ShipmentCommandServiceImpl.java:31-50 | creation keeps every stored shipment consistent |
| ShipmentsController.CanAccessShipment | shipments-service/src/main/java/com/shipments/service/interfaces/rest/ShipmentsController.java:309-315 | user 0 gets no access; an admin always has it; otherwise access needs the manager role on one's own shipment or the carrier role on the one assigned to oneself |
| ShipmentsController.CreateShipment | shipments-service/src/main/java/com/shipments/service/interfaces/rest/ShipmentsController.java:58-66 | 401 for user 0, 403 without the manager role, otherwise 201 with a PENDING shipment managed by the caller |
| ShipmentsController.GetShipmentById | shipments-service/src/main/java/com/shipments/service/interfaces/rest/ShipmentsController.java:79-85 | 404 for an unknown id; 200 with the shipment exactly when the caller may access it |
| ShipmentsController.GetShipmentsForManager | shipments-service/src/main/java/com/shipments/service/interfaces/rest/ShipmentsController.java:99-107 | a manager gets exactly the shipments they manage; others are refused |
| ShipmentsController.GetShipmentsForCarrier | shipments-service/src/main/java/com/shipments/service/interfaces/rest/ShipmentsController.java:121-129 | a carrier gets exactly the shipments assigned to them; others are refused |
| ShipmentsController.GetShipmentsByStatus | shipments-service/src/main/java/com/shipments/service/interfaces/rest/ShipmentsController.java:143-153 | user 0 is refused; others get exactly the shipments with the status that they may read |
| ShipmentsController.Answer | shipments-service/src/main/java/com/shipments/service/interfaces/rest/ShipmentsController.java:169-178 | an empty handler result is 404, a thrown guard is 500, a result is 200 |
| ShipmentsController.ManagerGate | shipments-service/src/main/java/com/shipments/service/interfaces/rest/ShipmentsController.java:173 | the managing endpoints pass exactly when the shipment exists and the caller may access it with a null carrier: 404 and 403 otherwise |
| ShipmentsController.CarrierGate | shipments-service/src/main/java/com/shipments/service/interfaces/rest/ShipmentsController.java:220 | start and complete pass exactly when the shipment's carrier is the caller: 404 and 403 otherwise |
| ShipmentsController.UpdateShipment | shipments-service/src/main/java/com/shipments/service/interfaces/rest/ShipmentsController.java:169-178 | past the manager gate, 200 with the partial update; the gate's answer otherwise |
| ShipmentsController.AssignCarrierToShipment | shipments-service/src/main/java/com/shipments/service/interfaces/rest/ShipmentsController.java:193-201 | past the manager gate, 200 with the carrier set; the gate's answer otherwise |
| ShipmentsController.StartShipmentEndpoint | shipments-service/src/main/java/com/shipments/service/interfaces/rest/ShipmentsController.java:215-224 | past the carrier gate, 200 with IN_PROGRESS exactly from PENDING or ASSIGNED; nothing changes otherwise |
| ShipmentsController.CompleteShipmentEndpoint | shipments-service/src/main/java/com/shipments/service/interfaces/rest/ShipmentsController.java:238-247 | past the carrier gate, 200 with COMPLETED exactly from IN_PROGRESS; nothing changes otherwise |
| ShipmentsController.CancelShipmentEndpoint | shipments-service/src/main/java/com/shipments/service/interfaces/rest/ShipmentsController.java:261-269 | past the manager gate, 200 with CANCELLED for anything but a completed shipment; nothing changes otherwise |
| ShipmentsController.DeleteShipment | shipments-service/src/main/java/com/shipments/service/interfaces/rest/ShipmentsController.java:284-295 | past the manager gate, 409 for IN_PROGRESS or COMPLETED and 204 otherwise, the shipment then gone; never 500 |
| ShipmentsController.AnonymousCallerIsTurnedAway | shipments-service/src/main/java/com/shipments/service/interfaces/rest/ShipmentsController.java:297-302 | user 0 is refused by every endpoint that consults canAccessShipment (create, the listings, get, update, assign, cancel, delete), whatever roles are reported |
| ShipmentsController.AnonymousCallerDrivesCarrierZero | shipments-service/src/main/java/com/shipments/service/interfaces/rest/ShipmentsController.java:215-247 | start and complete compare only the carrier with the user, so user 0 starts and completes a shipment whose carrier is 0 exactly when its status allows |
| ShipmentsController.AssigningCarrierZeroOpensStart | shipments-service/src/main/java/com/shipments/service/interfaces/rest/ShipmentsController.java:193-224 | a manager may assign carrier 0, after which an anonymous caller can start the shipment |
| ShipmentsController.OnlyManagersChangeShipments | shipments-service/src/main/java/com/shipments/service/interfaces/rest/ShipmentsController.java:173 | anyone but an admin or the shipment's own manager is refused update, assign, cancel and delete, and nothing changes |
| ShipmentsController.OnlyTheCarrierDrives | shipments-service/src/main/java/com/shipments/service/interfaces/rest/ShipmentsController.java:220 | start and complete succeed only for the assigned carrier, and anyone else gets 403, admins included |
| ShipmentsController.StatusListingAgreesWithLookup | shipments-service/src/main/java/com/shipments/service/interfaces/rest/ShipmentsController.java:147-149 | a shipment is listed by status exactly when it has the status and the caller may read it by id |
| ShipmentsController.DeleteOnlyBeforeOrAfterTheRoad | shipments-service/src/main/java/com/shipments/service/interfaces/rest/ShipmentsController.java:288-294 | a delete succeeds only for PENDING, ASSIGNED or CANCELLED shipments and touches no other shipment |
| ShipmentsController.CreatedShipmentBelongsToItsManager | shipments-service/src/main/java/com/shipments/service/interfaces/rest/ShipmentsController.java:58-66 | a created shipment is readable and listed for its manager and hidden from other non-admin callers |
| ShipmentsController.ManagerEndpointsKeepCoherence | shipments-service/src/main/java/com/shipments/service/interfaces/rest/ShipmentsController.java:169-295 | the managing endpoints keep every stored shipment consistent |
| ShipmentsController.CarrierEndpointsKeepCoherence | shipments-service/src/main/java/com/shipments/service/interfaces/rest/ShipmentsController.java:215-247 | start and complete keep every stored shipment consistent |
| SubscriptionPlans.FindPlan | payments-service/src/main/java/com/payments/service/domain/model/valueobjects/SubscriptionPlan.java:29-33 | the scan finds a plan with the id when there is one, and nothing exactly when no plan has it |
| SubscriptionPlans.FromPlanId | payments-service/src/main/java/com/payments/service/domain/model/valueobjects/SubscriptionPlan.java:28-35 | the plan with that id, or the unknown-plan error naming the argument, null included, exactly when no plan has it |
| SubscriptionPlans.FromPlanIdRoundTrip | payments-service/src/main/java/com/payments/service/domain/model/valueobjects/SubscriptionPlan.java:9-12 | plan ids are distinct, and every plan is found again by its own id |
| SubscriptionPlans.PlanTable | payments-service/src/main/java/com/payments/service/domain/model/valueobjects/SubscriptionPlan.java:9-12 | monthly plans bill every month and yearly ones every twelve, all in USD, each yearly price below twelve monthly ones |
| Subscriptions.Increment | payments-service/src/main/java/com/payments/service/domain/model/aggregates/Subscription.java:91 | a 32-bit increment: one more, wrapping from the largest value to the smallest |
| Subscriptions.PlusMonths | payments-service/src/main/java/com/payments/service/domain/model/aggregates/Subscription.java:109 | adding months advances the month and keeps the position within it |
| Subscriptions.PlusYears | payments-service/src/main/java/com/payments/service/domain/model/aggregates/Subscription.java:110 | a year is twelve months |
| Subscriptions.NewSubscription | payments-service/src/main/java/com/payments/service/domain/model/aggregates/Subscription.java:64-71 | a new subscription is PENDING with no failures and nothing recorded yet |
| Subscriptions.PeriodEnd | payments-service/src/main/java/com/payments/service/domain/model/aggregates/Subscription.java:107-112 | a period ends one billing cycle of the plan after it starts |
| Subscriptions.Activate | payments-service/src/main/java/com/payments/service/domain/model/aggregates/Subscription.java:73-79 | ACTIVE with the PayPal id and billing time, a period starting now and ending one cycle later, nothing else changed |
| Subscriptions.Suspend | payments-service/src/main/java/com/payments/service/domain/model/aggregates/Subscription.java:81-83 | SUSPENDED from any status, nothing else changed |
| Subscriptions.Cancel | payments-service/src/main/java/com/payments/service/domain/model/aggregates/Subscription.java:85-88 | CANCELED from any status, cancelled now, nothing else changed |
| Subscriptions.MarkPaymentFailed | payments-service/src/main/java/com/payments/service/domain/model/aggregates/Subscription.java:90-95 | one more failure; SUSPENDED once the count is three or more, the status unchanged below |
| Subscriptions.ResetFailureCount | payments-service/src/main/java/com/payments/service/domain/model/aggregates/Subscription.java:97-99 | the count is zero and nothing else changes |
| Subscriptions.UpdateBillingCycle | payments-service/src/main/java/com/payments/service/domain/model/aggregates/Subscription.java:101-105 | the new period starts where the old one ended and lasts one cycle; with no period end it throws |
| Subscriptions.ActivateSubscription | payments-service/src/main/java/com/payments/service/application/internal/commandservices/SubscriptionCommandServiceImpl.java:86-107 | the subscription becomes ACTIVE with the next billing one cycle after the service's clock |
| Subscriptions.CreateSubscription | payments-service/src/main/java/com/payments/service/application/internal/commandservices/SubscriptionCommandServiceImpl.java:28-61 | a new PENDING subscription priced at the plan's price in the plan's currency |
| Subscriptions.FailuresAccumulate | payments-service/src/main/java/com/payments/service/domain/model/aggregates/Subscription.java:90-95 | k failures add k to the count, suspend once it reaches three, and leave the status alone before |
| Subscriptions.ThirdFailureSuspends | payments-service/src/main/java/com/payments/service/domain/model/aggregates/Subscription.java:90-99 | two failures keep a new subscription PENDING, the third suspends it, and a reset in between restarts the count |
| Subscriptions.ReactivationKeepsFailures | payments-service/src/main/java/com/payments/service/domain/model/aggregates/Subscription.java:73-95 | activation does not reset the count, so one more failure suspends again unless the count was reset |
| Subscriptions.StatusQueries | payments-service/src/main/java/com/payments/service/domain/model/aggregates/Subscription.java:114-120 | active and reactivatable exclude each other; suspended and cancelled are reactivatable, activated is active, pending and expired are neither |
| Subscriptions.PeriodsAbut | payments-service/src/main/java/com/payments/service/domain/model/aggregates/Subscription.java:101-112 | after activation and k cycle updates the period is the (k+1)-th cycle counted from activation |
| Subscriptions.NextBillingIsPeriodEnd | payments-service/src/main/java/com/payments/service/application/internal/commandservices/SubscriptionCommandServiceImpl.java:91 | when both clock readings agree, the next billing time is the end of the first period |
| Payments.NewPayment | payments-service/src/main/java/com/payments/service/domain/model/aggregates/Payment.java:72-80 | a new payment is PENDING with no subscription and nothing recorded |
| Payments.NewSubscriptionPayment | payments-service/src/main/java/com/payments/service/domain/model/aggregates/Payment.java:82-87 | the seven-argument form differs from the six-argument one only in the subscription id |
| Payments.MarkAsProcessing | payments-service/src/main/java/com/payments/service/domain/model/aggregates/Payment.java:89-92 | PROCESSING with the order id, nothing else changed |
| Payments.MarkAsCompleted | payments-service/src/main/java/com/payments/service/domain/model/aggregates/Payment.java:94-98 | COMPLETED with the PayPal id, processed now, nothing else changed |
| Payments.MarkAsFailed | payments-service/src/main/java/com/payments/service/domain/model/aggregates/Payment.java:100-104 | FAILED with the reason, failed now, nothing else changed |
| Payments.MarkAsRefunded | payments-service/src/main/java/com/payments/service/domain/model/aggregates/Payment.java:106-110 | REFUNDED with the amount, refunded now, nothing else changed |
| Payments.CancelPayment | payments-service/src/main/java/com/payments/service/domain/model/aggregates/Payment.java:112-114 | CANCELED, nothing else changed |
| Payments.Refund | payments-service/src/main/java/com/payments/service/application/internal/commandservices/PaymentCommandServiceImpl.java:117-123 | a refundable payment is marked refunded; any other is left exactly as it was |
| Payments.RefundPayment | payments-service/src/main/java/com/payments/service/application/internal/commandservices/PaymentCommandServiceImpl.java:112-125 | an unknown or unrefundable payment leaves the store unchanged; otherwise the payment is refunded in place |
| Payments.RefundOnce | payments-service/src/main/java/com/payments/service/domain/model/aggregates/Payment.java:116-122 | a refundable payment is completed, is no longer refundable once refunded, and a second refund changes nothing |
| Payments.RefundIsFinal | payments-service/src/main/java/com/payments/service/domain/model/aggregates/Payment.java:116-118 | once refunded, no sequence of operations makes a payment refundable again or alters its refund record |
| Payments.IdentityIsFixed | payments-service/src/main/java/com/payments/service/domain/model/aggregates/Payment.java:89-114 | no operation changes a payment's owner, subscription, type, method, amount or currency |
| Payments.ProcessCompleteRefund | payments-service/src/main/java/com/payments/service/domain/model/aggregates/Payment.java:89-118 | a new payment processed and completed is refundable, and refunding it records the amount and ends refundability |
| Payments.RefundTouchesOnePayment | payments-service/src/main/java/com/payments/service/application/internal/commandservices/PaymentCommandServiceImpl.java:112-125 | a refund leaves every other payment and the set of ids unchanged |

## Left out

- PayPal and its webhooks: the PayPal client, the test controller and the payments, subscriptions and webhooks controllers are network glue. Their state effects are the `Payment` and `Subscription` operations modelled here.
- The payment command handlers other than refund (create, process, complete, fail): they look the payment up, apply one mark and publish. The marks are modelled; the lookups are repository glue.
- The subscription cancel handler and the other subscription handlers: each applies one aggregate operation and publishes. `Cancel` and the activation handler are modelled; the event records are not.
- JWT signatures and expiry: the token check is the oracle `verify`, returning claims or an error. The IAM token and user services depend on hashing and repositories that are not part of this model.
- Message transport: publishing is returning the event record, and delivery is applying it to the index. The vehicles and payments consumers only log.
- Persistence: repositories are maps, query services are set comprehensions, and assemblers and resource records are datatype shapes only. Bean-validation annotations checked when an entity is saved are not modelled, except the unique licence-plate column, whose violation the vehicle creation models as a failed save; the compact-constructor validators are, and the create endpoints take only bodies they accepted.
- The shipments service reads the caller from the IAM facade, which is not part of this model. It is the `Caller` record: a user id, 0 when unauthenticated, and a set of role names. A null id for an existing email would throw; that case is not modelled.
- Concurrency: the concurrent maps of the issues index are applied one event at a time. Their unspecified iteration order is the parameter `scanOrder`.
- A null key or value in a concurrent map makes `put` throw. The handler then fails and the index is unchanged; the model leaves the index unchanged for those events.
- Clocks: `LocalDateTime.now()` is a parameter.
- Subscriptions.PlusMonths: subscription times are counted in months, so adding months does not clamp the day to the target month's length as `LocalDateTime.plusMonths` does (Jan 31 plus one month is Feb 28 there).
- Subscriptions.PeriodsAbut: holds in that month arithmetic. With clamping, a monthly subscription activated on Jan 31 rolls to Feb 28 and then Mar 28, so later periods drift earlier than k cycles after activation.
- Money: `BigDecimal` amounts are whole cents. The payment type enum is not part of this model, so a payment type is carried by its constant's name.
- The subscription fields `billingCycleAnchor` and `trialEnd` are never written by the code and are omitted.
- Vehicle listings that only filter the repository (by licence plate, for the calling manager, for the calling carrier, by manager id) are not modelled. The carrier lookup with its authorisation is.
- The shipments controller has no endpoint for removing a carrier or for a free status change. The service handlers for them are modelled; the controller adds nothing to them.
- Error bodies and log lines: answers are status codes only.
- JavaStrings.ToUpper: maps ASCII letters only; Java's `toUpperCase` also maps other scripts' letters and can lengthen a string ("ß" to "SS"). Role names are ASCII enum names, where the two agree.
- JavaStrings.EqualsIgnoreCase: folds ASCII letters only; Java's `equalsIgnoreCase` also folds other letters (U+0130 against "i"). `EqualsIgnoreCaseIsUpperEquality` and `RoleFilter.GatewayAgreesWithServices` are stated for ASCII strings, since beyond ASCII the gateway and the services can disagree.
- Compare: the gateway's `RoleFilter.Compare` inherits the ASCII-only case folding of `JavaStrings.EqualsIgnoreCase`.
- AnyRoleMatches: `ServiceHeaders.AnyRoleMatches` inherits the ASCII-only upper-casing of `JavaStrings.ToUpper`.
- HasRole: `ServiceHeaders.HasRole` inherits the ASCII-only upper-casing of `JavaStrings.ToUpper`.

=== FILE: cross_service.dfy ===
/** The vehicles service and the issues service's relationship index
    together: every vehicle command's event, delivered to the index. The
    index is meant to mirror the store (each carrier mapped to the vehicle
    they drive, each vehicle to its manager). Creation, assignment of a
    free vehicle and carrier removal keep that true; a brand/model update
    or a status change of a vehicle that has a carrier does not, because
    their events carry a null carrier, which the index reads as "carrier
    removed". */
module CrossService {
  import opened Wrappers
  import opened FleetEvents
  import opened Vehicles
  import opened VehicleService
  import RelationshipIndex
  import Issues
  import IssueService
  import IssuesController
  import opened ServiceHeaders
  import opened Http

  type Index = RelationshipIndex.Index

  /** The index agrees with the store: managers of vehicles are known,
      and a carrier has an entry exactly when they drive a vehicle, that
      entry naming the vehicle. */
  predicate Mirrors(fleet: Fleet, idx: Index) {
    && (forall id :: id in fleet && fleet[id].managerId.Some? ==>
          id in idx.vehicleManager && idx.vehicleManager[id] == fleet[id].managerId.value)
    && (forall id :: id in fleet && fleet[id].carrierId.Some? ==> fleet[id].carrierId.value in idx.carrierVehicle)
    && (forall c :: c in idx.carrierVehicle ==>
          idx.carrierVehicle[c] in fleet && fleet[idx.carrierVehicle[c]].carrierId == Some(c))
  }

  /** The index after the event a handler published, if any. */
  function Deliver(idx: Index, event: Option<VehicleUpdatedEvent>, scanOrder: seq<Id>): Index {
    if event.Some? then RelationshipIndex.Apply(idx, RelationshipIndex.VehicleUpdated(event.value), scanOrder) else idx
  }

  /** What the mirror is for: a carrier who drives a vehicle resolves to
      that vehicle and to its manager. */
  lemma {:induction false} MirrorResolvesCarriers(fleet: Fleet, idx: Index, id: Id, c: Id)
    requires Mirrors(fleet, idx)
    requires id in fleet && fleet[id].carrierId == Some(c) && fleet[id].managerId.Some?
    requires OneVehiclePerCarrier(fleet)
    ensures RelationshipIndex.VehicleForCarrier(idx, Some(c)) == Some(id)
    ensures RelationshipIndex.ManagerForCarrier(idx, Some(c)) == fleet[id].managerId
  {
    assert id in HeldBy(fleet, c);
    var v := idx.carrierVehicle[c];
    assert fleet[v].carrierId == Some(c);
  }

  /** Creating a vehicle keeps the mirror. */
  lemma {:induction false} CreateKeepsMirror(fleet: Fleet, idx: Index, cmd: CreateVehicleCommand, freshId: Id)
    requires Mirrors(fleet, idx) && freshId !in fleet
    ensures var r := Create(fleet, cmd, freshId);
            r.Success? ==>
              Mirrors(r.value.fleet, RelationshipIndex.Apply(idx, RelationshipIndex.VehicleCreated(r.value.event), []))
  {
    var r := Create(fleet, cmd, freshId);
    if r.Failure? {
      return;
    }
    var idx' := RelationshipIndex.Apply(idx, RelationshipIndex.VehicleCreated(r.value.event), []);
    assert idx'.carrierVehicle == idx.carrierVehicle;
  }

  /** Assigning a carrier to a vehicle that has none keeps the mirror. */
  lemma {:induction false} AssignFreeVehicleKeepsMirror(fleet: Fleet, idx: Index, id: Id, c: Id, order: seq<Id>)
    requires Mirrors(fleet, idx)
    requires id in fleet && fleet[id].carrierId.None?
    ensures var r := Assign(fleet, id, c);
            Mirrors(r.fleet, Deliver(idx, r.event, order))
  {
    var r := Assign(fleet, id, c);
    if HeldBy(fleet, c) == {} {
      var idx' := Deliver(idx, r.event, order);
      assert idx'.carrierVehicle == idx.carrierVehicle[c := id];
      assert r.fleet == fleet[id := fleet[id].(carrierId := Some(c))];
      forall c' | c' in idx.carrierVehicle
        ensures idx.carrierVehicle[c'] != id && c' != c
      {
        assert fleet[idx.carrierVehicle[c']].carrierId == Some(c');
        assert idx.carrierVehicle[c'] in HeldBy(fleet, c');
      }
    }
  }

  /** Removing a vehicle's carrier keeps the mirror: the scan finds the
      one carrier mapped to the vehicle, whatever the order, as long as
      it visits every carrier. */
  lemma {:induction false} UnassignKeepsMirror(fleet: Fleet, idx: Index, id: Id, order: seq<Id>)
    requires Mirrors(fleet, idx) && OneVehiclePerCarrier(fleet)
    requires RelationshipIndex.CoversKeys(order, idx.carrierVehicle)
    requires id in fleet
    ensures var r := VehicleService.Unassign(fleet, id);
            Mirrors(r.fleet, Deliver(idx, r.event, order))
  {
    var r := VehicleService.Unassign(fleet, id);
    var idx' := Deliver(idx, r.event, order);
    var cv := idx.carrierVehicle;
    assert idx'.carrierVehicle == RelationshipIndex.Unassign(cv, id, order);
    assert r.fleet == fleet[id := fleet[id].(carrierId := None)];
    // only the vehicle's own carrier can point at it
    forall c | c in cv && cv[c] == id
      ensures fleet[id].carrierId == Some(c)
    {
    }
    match fleet[id].carrierId
    case None =>
      assert idx'.carrierVehicle == cv;
    case Some(c0) =>
      assert id in HeldBy(fleet, c0);
      var i := RelationshipIndex.FirstMatch(cv, id, order, c0);
      assert order[i] == c0;
      assert idx'.carrierVehicle == cv - {c0};
      forall x | x in r.fleet && x != id
        ensures r.fleet[x].carrierId != Some(c0)
      {
        assert fleet[x].carrierId != Some(c0);
      }
  }

  /** A brand/model update or a status change of a vehicle with carrier
      `c` leaves `c` on the vehicle but drops `c` from the index: the
      carrier no longer resolves to the vehicle or its manager, and the
      mirror is broken. */
  lemma {:induction false} UpdatesDropTheCarrier(fleet: Fleet, idx: Index, id: Id, c: Id, order: seq<Id>,
                                                 cmd: UpdateVehicleCommand, status: VehicleStatus)
    requires Mirrors(fleet, idx) && OneVehiclePerCarrier(fleet)
    requires RelationshipIndex.CoversKeys(order, idx.carrierVehicle)
    requires id in fleet && fleet[id].carrierId == Some(c)
    ensures forall r :: r in [Update(fleet, id, cmd), SetStatus(fleet, id, status)] ==>
      && r.fleet[id].carrierId == Some(c)
      && RelationshipIndex.ManagerForCarrier(Deliver(idx, r.event, order), Some(c)).None?
      && RelationshipIndex.VehicleForCarrier(Deliver(idx, r.event, order), Some(c)).None?
      && !Mirrors(r.fleet, Deliver(idx, r.event, order))
  {
    var cv := idx.carrierVehicle;
    assert id in HeldBy(fleet, c);
    assert c in cv && cv[c] == id;
    var i := RelationshipIndex.FirstMatch(cv, id, order, c);
    assert order[i] == c;
    forall r | r in [Update(fleet, id, cmd), SetStatus(fleet, id, status)]
      ensures && r.fleet[id].carrierId == Some(c)
              && RelationshipIndex.ManagerForCarrier(Deliver(idx, r.event, order), Some(c)).None?
              && RelationshipIndex.VehicleForCarrier(Deliver(idx, r.event, order), Some(c)).None?
              && !Mirrors(r.fleet, Deliver(idx, r.event, order))
    {
      var idx' := Deliver(idx, r.event, order);
      assert r.event.value.carrierId.None? && r.event.value.vehicleId == Some(id);
      assert idx'.carrierVehicle == RelationshipIndex.Unassign(cv, id, order);
      assert idx'.carrierVehicle == cv - {c};
      assert id in HeldBy(r.fleet, c);
    }
  }

  /** Assigning a second carrier to a vehicle that already has one is
      accepted (only the new carrier is checked), and the old carrier's
      entry stays in the index: the old carrier still resolves to the
      vehicle, and the mirror is broken. */
  lemma {:induction false} ReassignKeepsStaleCarrier(fleet: Fleet, idx: Index, id: Id, c0: Id, c: Id, order: seq<Id>)
    requires Mirrors(fleet, idx) && OneVehiclePerCarrier(fleet)
    requires id in fleet && fleet[id].carrierId == Some(c0) && c != c0
    requires HeldBy(fleet, c) == {}
    ensures var r := Assign(fleet, id, c);
            && r.fleet[id].carrierId == Some(c)
            && RelationshipIndex.VehicleForCarrier(Deliver(idx, r.event, order), Some(c0)) == Some(id)
            && !Mirrors(r.fleet, Deliver(idx, r.event, order))
  {
    var r := Assign(fleet, id, c);
    var idx' := Deliver(idx, r.event, order);
    assert c0 in idx.carrierVehicle;
    assert idx.carrierVehicle[c0] == id by {
      var v := idx.carrierVehicle[c0];
      assert fleet[v].carrierId == Some(c0);
    }
    assert idx'.carrierVehicle == idx.carrierVehicle[c := id];
  }

  /** While the index mirrors the fleet, a carrier who drives a vehicle
      can report an issue: it goes to that vehicle's manager and, for a
      vehicle issue, names that vehicle. */
  lemma {:induction false} AssignedCarrierCanReport(fleet: Fleet, idx: Index, id: Id, c: Id, req: Request,
                                                    store: IssueService.IssueStore, res: Issues.CreateIssueResource,
                                                    freshId: Id, now: Instant)
    requires Mirrors(fleet, idx) && OneVehiclePerCarrier(fleet)
    requires id in fleet && fleet[id].carrierId == Some(c) && fleet[id].managerId.Some?
    requires UserId(req) == Some(c) && Has(req, CARRIER)
    requires freshId !in store && Issues.ValidIssueResource(res)
    ensures var r := IssuesController.CreateIssue(req, store, idx, res, freshId, now);
            && r.status == CREATED
            && r.issue.value.managerId == fleet[id].managerId
            && (res.issueType == Issues.VehicleIssue ==> r.issue.value.vehicleId == Some(id))
  {
    MirrorResolvesCarriers(fleet, idx, id, c);
  }

  /** Once the vehicle's status changes, the same carrier, still assigned
      to the vehicle in the fleet, can no longer report any issue: the
      index has forgotten them and the endpoint answers 400. */
  lemma {:induction false} StatusChangeStopsReports(fleet: Fleet, idx: Index, id: Id, c: Id, status: VehicleStatus,
                                                    order: seq<Id>, req: Request, store: IssueService.IssueStore,
                                                    res: Issues.CreateIssueResource, freshId: Id, now: Instant)
    requires Mirrors(fleet, idx) && OneVehiclePerCarrier(fleet)
    requires RelationshipIndex.CoversKeys(order, idx.carrierVehicle)
    requires id in fleet && fleet[id].carrierId == Some(c)
    requires UserId(req) == Some(c) && Has(req, CARRIER)
    requires freshId !in store && Issues.ValidIssueResource(res)
    ensures var s := SetStatus(fleet, id, status);
            && s.fleet[id].carrierId == Some(c)
            && IssuesController.CreateIssue(req, store, Deliver(idx, s.event, order), res, freshId, now).status == BAD_REQUEST
  {
    UpdatesDropTheCarrier(fleet, idx, id, c, order, UpdateVehicleCommand(None, None), status);
    var s := SetStatus(fleet, id, status);
    assert s in [Update(fleet, id, UpdateVehicleCommand(None, None)), s];
  }
}

=== FILE: fleet_events.dfy ===
/** The vehicle events the vehicles service publishes and the issues
    service consumes. Both services declare the same two records; they
    are defined once here. A `None` field is a Java `null`. */
module FleetEvents {
  import opened Wrappers

  datatype VehicleStatus = Active | Inactive | Maintenance

  /** Published after a vehicle is created. */
  datatype VehicleCreatedEvent = VehicleCreatedEvent(
    vehicleId: Option<Id>,
    licensePlate: Option<string>,
    brand: Option<string>,
    model: Option<string>,
    status: Option<VehicleStatus>,
    managerId: Option<Id>)

  /** Published after a vehicle changes; a field is `None` when that
      operation did not touch it, and `carrierId` is also `None` when the
      carrier was removed. */
  datatype VehicleUpdatedEvent = VehicleUpdatedEvent(
    vehicleId: Option<Id>,
    licensePlate: Option<string>,
    brand: Option<string>,
    model: Option<string>,
    status: Option<VehicleStatus>,
    carrierId: Option<Id>)
}

=== FILE: gateway_jwt.dfy ===
/** The gateway's global authentication filter: public-path bypass, the
    `Authorization: Bearer <token>` checks, and the identity headers
    (`X-User-Id`, `X-User-Email`, `X-User-Roles`) it adds for the services.
    Signature and expiry checking of the token is an oracle `verify`
    handed in by the caller. */
module JwtFilter {
  import opened Wrappers
  import opened JavaStrings
  import ServiceHeaders

  const UNAUTHORIZED: int := 401

  /** The `authorization.routes.public-paths` default. */
  const DEFAULT_PUBLIC_PATHS: seq<string> :=
    ["/api/v1/authentication/**", "/actuator/**", "/v3/api-docs/**", "/swagger-ui/**"]

  const BEARER: string := "Bearer "

  /** The `id` claim as `claims.get("id", Long.class)` sees it: absent, a
      number, or a value that cannot be read as a `Long` (the library then
      throws). */
  datatype IdClaim = IdAbsent | IdNumber(n: int) | IdNotANumber

  /** The `roles` claim as `claims.get("roles", List.class)` sees it. */
  datatype RolesClaim = RolesAbsent | RolesList(roles: seq<string>) | RolesUnreadable

  /** The claims of a token that verified. `userId` is the `toString()` of
      the `userId` claim when that claim is present. */
  datatype Claims = Claims(subject: string, userId: Option<string>, id: IdClaim, roles: RolesClaim)

  /** What the signature/expiry check says about a token. */
  datatype Verdict = Valid(claims: Claims) | Invalid(reason: string)

  /** What the filter does with a request. */
  datatype Outcome =
    | PassThrough                                         // public path: forwarded untouched
    | Forward(userId: string, email: string, roles: string) // forwarded with identity headers
    | Reject(status: int)                                 // answered by the gateway

  // One configured pattern: a pattern ending in slash-star-star matches
  // every path that starts with the pattern minus those three characters;
  // any other pattern matches only itself.
  predicate PatternMatches(pattern: string, path: string) {
    if EndsWith(pattern, "/**") then StartsWith(path, pattern[..|pattern| - 3]) else path == pattern
  }

  /** `isPublicPath`: some configured pattern matches. */
  function IsPublicPath(path: string, patterns: seq<string>): (r: bool)
    ensures r <==> exists i :: 0 <= i < |patterns| && PatternMatches(patterns[i], path)
  {
    if |patterns| == 0 then false
    else if PatternMatches(patterns[0], path) then true
    else
      var r := IsPublicPath(path, patterns[1..]);
      assert forall i :: 1 <= i < |patterns| ==> patterns[i] == patterns[1..][i - 1];
      r
  }

  // The prefix test does not stop at a path segment: with the default
  // patterns "/actuatorX" is public, although only the actuator directory
  // was meant.
  lemma PrefixMatchIsNotSegmentAware()
    ensures PatternMatches("/actuator/**", "/actuatorX")
    ensures IsPublicPath("/actuatorX", DEFAULT_PUBLIC_PATHS)
  {
    var p := "/actuator/**";
    assert EndsWith(p, "/**");
    assert p[..|p| - 3] == "/actuator";
    assert StartsWith("/actuatorX", "/actuator");
    assert PatternMatches(DEFAULT_PUBLIC_PATHS[1], "/actuatorX");
  }

  /** A wildcard pattern misses a path that differs from its prefix at
      some position inside both. */
  lemma PrefixMisses(pattern: string, path: string, k: nat)
    requires EndsWith(pattern, "/**")
    requires k < |pattern| - 3 && k < |path| && pattern[k] != path[k]
    ensures !PatternMatches(pattern, path)
  {
    assert pattern[..|pattern| - 3][k] == pattern[k];
  }

  /** No default pattern covers the vehicles API. */
  lemma DefaultPatternsMissVehicles(i: nat)
    requires i < |DEFAULT_PUBLIC_PATHS|
    ensures !PatternMatches(DEFAULT_PUBLIC_PATHS[i], "/api/v1/vehicles")
  {
    var pat := DEFAULT_PUBLIC_PATHS[i];
    if i == 0 {
      assert pat == "/api/v1/authentication/**";
      PrefixMisses(pat, "/api/v1/vehicles", 8);
    } else if i == 1 {
      assert pat == "/actuator/**";
      PrefixMisses(pat, "/api/v1/vehicles", 2);
    } else if i == 2 {
      assert pat == "/v3/api-docs/**";
      PrefixMisses(pat, "/api/v1/vehicles", 1);
    } else {
      assert pat == "/swagger-ui/**";
      PrefixMisses(pat, "/api/v1/vehicles", 1);
    }
  }

  /** The service endpoints are not public: with the default patterns a
      request for the vehicles API has to carry a token. */
  lemma {:induction false} ServicePathsAreNotPublic()
    ensures !IsPublicPath("/api/v1/vehicles", DEFAULT_PUBLIC_PATHS)
  {
    forall i | 0 <= i < |DEFAULT_PUBLIC_PATHS|
      ensures !PatternMatches(DEFAULT_PUBLIC_PATHS[i], "/api/v1/vehicles")
    {
      DefaultPatternsMissVehicles(i);
    }
  }

  /** `X-User-Id`: the `userId` claim when present, else the `id` claim
      printed as a number, else the subject (the e-mail). `None` when the
      `id` claim cannot be read as a number, which rejects the request. */
  function UserIdHeader(c: Claims): Option<string> {
    if c.userId.Some? then Some(c.userId.value)
    else match c.id
      case IdNumber(n) => Some(LongToString(n))
      case IdAbsent => Some(c.subject)
      case IdNotANumber => None
  }

  /** `X-User-Roles`: the roles claim joined with ","; empty when the
      claim is missing, empty or unreadable. */
  function RolesHeader(rc: RolesClaim): (r: string)
    ensures rc.RolesAbsent? || rc.RolesUnreadable? || rc == RolesList([]) ==> r == ""
    ensures rc.RolesList? && |rc.roles| > 0 ==> r == Join(rc.roles, ",")
  {
    match rc
    case RolesList(rs) => if |rs| == 0 then "" else Join(rs, ",")
    case _ => ""
  }

  /** The filter. */
  function Filter(path: string, authorization: Option<string>, publicPaths: seq<string>,
                  verify: string -> Verdict): (r: Outcome)
    // public paths bypass every header check, and only they do
    ensures r.PassThrough? <==> IsPublicPath(path, publicPaths)
    // every refusal is a 401
    ensures r.Reject? ==> r.status == UNAUTHORIZED
    // no header, or not a case-sensitive "Bearer " prefix: refused
    ensures !IsPublicPath(path, publicPaths) && authorization.None? ==> r == Reject(UNAUTHORIZED)
    ensures !IsPublicPath(path, publicPaths) && authorization.Some? && !StartsWith(authorization.value, BEARER)
      ==> r == Reject(UNAUTHORIZED)
    // forwarded with identity exactly when the token after "Bearer " verifies
    ensures r.Forward? <==>
      (&& !IsPublicPath(path, publicPaths)
       && authorization.Some? && StartsWith(authorization.value, BEARER)
       && verify(authorization.value[7..]).Valid?
       && UserIdHeader(verify(authorization.value[7..]).claims).Some?)
    ensures r.Forward? ==>
      var c := verify(authorization.value[7..]).claims;
      r == Forward(UserIdHeader(c).value, c.subject, RolesHeader(c.roles))
  {
    if IsPublicPath(path, publicPaths) then PassThrough
    else if authorization.None? then Reject(UNAUTHORIZED)
    else if !StartsWith(authorization.value, BEARER) then Reject(UNAUTHORIZED)
    else
      var token := authorization.value[|BEARER|..];
      match verify(token)
      case Invalid(_) => Reject(UNAUTHORIZED)
      case Valid(claims) =>
        match UserIdHeader(claims)
        case None => Reject(UNAUTHORIZED)
        case Some(userId) => Forward(userId, claims.subject, RolesHeader(claims.roles))
  }

  /** `X-User-Id` precedence: the `userId` claim wins over the `id` claim,
      which wins over the subject. */
  lemma UserIdPrecedence(c: Claims)
    ensures c.userId.Some? ==> UserIdHeader(c) == c.userId
    ensures c.userId.None? && c.id.IdNumber? ==> UserIdHeader(c) == Some(LongToString(c.id.n))
    ensures c.userId.None? && c.id.IdAbsent? ==> UserIdHeader(c) == Some(c.subject)
    ensures c.userId.None? && c.id.IdNotANumber? ==> UserIdHeader(c).None?
  {
  }

  /** End to end: when the token carries no `userId` claim and a numeric
      `id` claim, the services read back exactly that number from the
      `X-User-Id` header the gateway forwards. */
  lemma ForwardedIdReadsBack(path: string, authorization: Option<string>, publicPaths: seq<string>,
                             verify: string -> Verdict)
    requires Filter(path, authorization, publicPaths, verify).Forward?
    requires verify(authorization.value[7..]).claims.userId.None?
    requires verify(authorization.value[7..]).claims.id.IdNumber?
    requires InLongRange(verify(authorization.value[7..]).claims.id.n)
    ensures ServiceHeaders.UserIdFromHeader(Some(Filter(path, authorization, publicPaths, verify).userId))
            == Some(verify(authorization.value[7..]).claims.id.n)
  {
    ServiceHeaders.UserIdHeaderRoundTrip(verify(authorization.value[7..]).claims.id.n);
  }
}

=== FILE: gateway_roles.dfy ===
/** The gateway's per-route role filter: a route lists the roles it
    admits, and a request passes only when some entry of its
    `X-User-Roles` header names one of them. */
module RoleFilter {
  import opened Wrappers
  import opened JavaStrings
  import ServiceHeaders

  const FORBIDDEN: int := 403

  datatype Decision = Pass | Reject(status: int)

  /** A role as the filter compares it: trimmed, then every `ROLE_`
      deleted. Case is handled by the comparison. */
  function Normalize(role: string): string {
    RemoveAll(Trim(role), "ROLE_")
  }

  /** One required role against one held role. */
  predicate RolesMatch(required: string, held: string) {
    EqualsIgnoreCase(Normalize(required), Normalize(held))
  }

  /** The comparison inside the filter's inner loop. For ASCII roles it
      is the comparison of the upper-cased normalised names. */
  method Compare(required: string, held: string) returns (m: bool)
    ensures IsAscii(required) && IsAscii(held) ==>
              (m <==> |Normalize(required)| == |Normalize(held)| &&
                      ToUpper(Normalize(required)) == ToUpper(Normalize(held)))
    ensures m <==> RolesMatch(required, held)
  {
    var a := Normalize(required);
    var b := Normalize(held);
    if IsAscii(required) && IsAscii(held) {
      NormalizeKeepsAscii(required);
      NormalizeKeepsAscii(held);
      EqualsIgnoreCaseIsUpperEquality(a, b);
    }
    m := EqualsIgnoreCase(a, b);
  }

  /** Trimming and deleting `ROLE_` only remove characters, so an ASCII
      role stays ASCII. */
  lemma NormalizeKeepsAscii(role: string)
    requires IsAscii(role)
    ensures IsAscii(Normalize(role))
  {
    var t := Trim(role);
    var n := Normalize(role);
    forall i | 0 <= i < |n|
      ensures n[i] < '\U{80}'
    {
      RemoveAllOnlyDeletes(t, "ROLE_");
      assert n[i] in multiset(n);
      assert n[i] in multiset(t);
      var j :| 0 <= j < |t| && t[j] == n[i];
      assert t[j] == role[LeadingCount(role) + j];
    }
  }

  /** The filter's intent, stated without loops: some required role
      matches some entry of the header. */
  predicate Admits(required: seq<string>, held: seq<string>) {
    exists i, j :: 0 <= i < |required| && 0 <= j < |held| && RolesMatch(required[i], held[j])
  }

  /** The filter as written: a missing header is refused at once; the
      header is split on "," and searched. */
  method Authorize(rolesHeader: Option<string>, required: seq<string>) returns (d: Decision)
    ensures rolesHeader.None? ==> d == Reject(FORBIDDEN)
    ensures d.Reject? ==> d.status == FORBIDDEN
    ensures d == Pass <==> rolesHeader.Some? && Admits(required, Split(rolesHeader.value, ','))
  {
    if rolesHeader.None? {
      return Reject(FORBIDDEN);
    }
    var held := Split(rolesHeader.value, ',');
    var found := Search(required, held);
    d := if found then Pass else Reject(FORBIDDEN);
  }

  /** The filter's two loops: the outer one walks the required roles, the
      inner one the held ones, and the first match ends both. */
  method Search(required: seq<string>, held: seq<string>) returns (found: bool)
    ensures found <==> Admits(required, held)
  {
    found := false;
    var i := 0;
    while i < |required|
      invariant 0 <= i <= |required|
      invariant found ==> Admits(required, held)
      invariant !found ==> forall a, b :: 0 <= a < i && 0 <= b < |held| ==> !RolesMatch(required[a], held[b])
    {
      var j := 0;
      while j < |held|
        invariant 0 <= j <= |held|
        invariant found ==> Admits(required, held)
        invariant !found ==> forall b :: 0 <= b < j ==> !RolesMatch(required[i], held[b])
      {
        var m := Compare(required[i], held[j]);
        if m {
          found := true;
          break;
        }
        j := j + 1;
      }
      if found {
        break;
      }
      i := i + 1;
    }
  }

  /** A route that lists no roles admits nobody. */
  lemma NoRequiredRolesRejectsAll(held: seq<string>)
    ensures !Admits([], held)
  {
  }

  /** Only the sets of roles matter: reordering or repeating entries on
      either side does not change the decision. */
  lemma {:induction false} AdmitsDependsOnlyOnSets(r1: seq<string>, h1: seq<string>, r2: seq<string>, h2: seq<string>)
    requires forall x :: x in r1 <==> x in r2
    requires forall x :: x in h1 <==> x in h2
    ensures Admits(r1, h1) <==> Admits(r2, h2)
  {
    if Admits(r1, h1) {
      var i, j :| 0 <= i < |r1| && 0 <= j < |h1| && RolesMatch(r1[i], h1[j]);
      assert r1[i] in r1 && h1[j] in h1;
      var i2 :| 0 <= i2 < |r2| && r2[i2] == r1[i];
      var j2 :| 0 <= j2 < |h2| && h2[j2] == h1[j];
      assert RolesMatch(r2[i2], h2[j2]);
    }
    if Admits(r2, h2) {
      var i, j :| 0 <= i < |r2| && 0 <= j < |h2| && RolesMatch(r2[i], h2[j]);
      assert r2[i] in r2 && h2[j] in h2;
      var i1 :| 0 <= i1 < |r1| && r1[i1] == r2[i];
      var j1 :| 0 <= j1 < |h1| && h1[j1] == h2[j];
      assert RolesMatch(r1[i1], h1[j1]);
    }
  }

  /** The comparison ignores a blank before the held role and a `ROLE_`
      prefix on a required role written without surrounding blanks:
      "ROLE_ADMIN" admits " admin" exactly as "ADMIN" admits "admin". */
  lemma {:induction false} PrefixAndCaseAreIgnored(required: string, held: string)
    requires Trim(required) == required
    ensures RolesMatch("ROLE_" + required, " " + held) <==> RolesMatch(required, held)
  {
    HeldBlanksAreTrimmed(held);
    RequiredPrefixIsDropped(required);
  }

  /** A leading blank on a role is trimmed away. */
  lemma {:induction false} HeldBlanksAreTrimmed(role: string)
    ensures Normalize(" " + role) == Normalize(role)
  {
    var s := " " + role;
    assert s[1..] == role;
    assert LeadingCount(s) == 1 + LeadingCount(role);
    assert s[LeadingCount(s)..] == role[LeadingCount(role)..];
  }

  /** A `ROLE_` prefix on a role without surrounding blanks is deleted. */
  lemma {:induction false} RequiredPrefixIsDropped(role: string)
    requires Trim(role) == role
    ensures Normalize("ROLE_" + role) == Normalize(role)
  {
    var s := "ROLE_" + role;
    assert !IsTrimmed(s[0]);
    assert !IsTrimmed(s[|s| - 1]) by {
      if |role| > 0 {
        assert s[|s| - 1] == role[|role| - 1];
      }
    }
    assert Trim(s) == s;
    assert "ROLE_" <= s && s[5..] == role;
  }

  /** The header the gateway builds from a token's role list (joined with
      ",") admits the request exactly when some required role matches some
      role of the token, provided no role contains a comma. */
  lemma {:induction false} JoinedHeaderAdmits(roles: seq<string>, required: seq<string>)
    requires |roles| >= 1
    requires forall i :: 0 <= i < |roles| ==> ',' !in roles[i]
    requires roles[|roles| - 1] != ""
    ensures Admits(required, Split(Join(roles, ","), ',')) <==> Admits(required, roles)
  {
    PiecesOfJoin(roles, ',');
    assert Split(Join(roles, ","), ',') == roles;
  }

  /** The gateway and the services agree on ASCII role names (the IAM's
      roles are ASCII enum names): for a required role written without
      surrounding blanks, the gateway's case-insensitive match is exactly
      the services' `hasRole` entry comparison. Beyond ASCII, Java's
      `equalsIgnoreCase` and `toUpperCase` part ways. */
  lemma GatewayAgreesWithServices(required: string, held: string)
    requires IsAscii(required) && IsAscii(held)
    requires Trim(required) == required
    ensures RolesMatch(required, held) <==>
            ServiceHeaders.NormalizeHeldRole(held) == ServiceHeaders.NormalizeAskedRole(required)
  {
    NormalizeKeepsAscii(required);
    NormalizeKeepsAscii(held);
    EqualsIgnoreCaseIsUpperEquality(Normalize(required), Normalize(held));
  }
}

=== FILE: http.dfy ===
/** The HTTP status codes the controllers and gateway filters answer with,
    and the shape every listing endpoint shares. */
module Http {
  import opened Wrappers

  const OK: int := 200
  const CREATED: int := 201
  const NO_CONTENT: int := 204
  const BAD_REQUEST: int := 400
  const UNAUTHORIZED: int := 401
  const FORBIDDEN: int := 403
  const NOT_FOUND: int := 404
  const CONFLICT: int := 409
  const INTERNAL_SERVER_ERROR: int := 500

  /** A listing endpoint's answer: the status and the ids of the entities
      in the body. */
  datatype ListReply = ListReply(status: int, ids: set<Id>)

  /** How every listing ends: 204 with nothing when there is nothing to
      list, else 200 with the entities. */
  function Listing(ids: set<Id>): (r: ListReply)
    ensures r.ids == ids
    ensures r.status == OK <==> ids != {}
    ensures r.status == NO_CONTENT <==> ids == {}
  {
    if ids == {} then ListReply(NO_CONTENT, {}) else ListReply(OK, ids)
  }
}

=== FILE: issue.dfy ===
/** The issue aggregate (a problem a carrier reports), the request record
    that creates one and the commands the issue service takes. */
module Issues {
  import opened Wrappers
  import opened JavaStrings

  /** `IssueType`: what a report is about. */
  datatype IssueType = VehicleIssue | RouteIssue | ShipmentIssue | TechnicalIssue | OtherIssue

  /** A stored issue. The carrier who reported it is always known; the
      manager, vehicle and shipment may be null. */
  datatype Issue = Issue(
    title: string,
    content: string,
    issueType: IssueType,
    reportDate: Instant,
    carrierId: Id,
    managerId: Option<Id>,
    vehicleId: Option<Id>,
    shipmentId: Option<Id>)

  datatype CreateIssueCommand = CreateIssueCommand(
    title: string,
    content: string,
    issueType: IssueType,
    reportDate: Option<Instant>,
    carrierId: Id,
    managerId: Option<Id>,
    vehicleId: Option<Id>,
    shipmentId: Option<Id>)

  /** A partial update: a `None` field keeps the stored value. */
  datatype UpdateIssueCommand = UpdateIssueCommand(title: Option<string>, content: Option<string>, issueType: Option<IssueType>)

  /** The body of `POST /api/v1/issues` once its checks passed. */
  datatype CreateIssueResource = CreateIssueResource(title: string, content: string, issueType: IssueType, shipmentId: Option<Id>)

  /** A body the compact constructor accepted: only such a body reaches
      the controller, since a refused one is answered 400 while the
      request is read. */
  predicate ValidIssueResource(res: CreateIssueResource) {
    ValidateCreateIssue(Some(res.title), Some(res.content), Some(res.issueType), res.shipmentId).Success?
  }

  /** The record's compact constructor: title, then content, are refused
      when null or blank, then a null type; the shipment is not checked. */
  function ValidateCreateIssue(title: Option<string>, content: Option<string>, issueType: Option<IssueType>,
                               shipmentId: Option<Id>): (r: Result<CreateIssueResource>)
    ensures r.Success? <==> Filled(title) && Filled(content) && issueType.Some?
    ensures r.Success? ==> r.value == CreateIssueResource(title.value, content.value, issueType.value, shipmentId)
    ensures !Filled(title) ==> r == Failure("Title cannot be null or blank")
    ensures Filled(title) && !Filled(content) ==> r == Failure("Content cannot be null or blank")
    ensures Filled(title) && Filled(content) && issueType.None? ==> r == Failure("Report type cannot be null")
  {
    if !Filled(title) then Failure("Title cannot be null or blank")
    else if !Filled(content) then Failure("Content cannot be null or blank")
    else if issueType.None? then Failure("Report type cannot be null")
    else Success(CreateIssueResource(title.value, content.value, issueType.value, shipmentId))
  }

  /** `new Issue(command)`: every field copied, and the report date taken
      from the clock (`now`) only when the command has none. */
  function FromCommand(cmd: CreateIssueCommand, now: Instant): (i: Issue)
    ensures i.reportDate == (if cmd.reportDate.Some? then cmd.reportDate.value else now)
    ensures i.title == cmd.title && i.content == cmd.content && i.issueType == cmd.issueType
    ensures i.carrierId == cmd.carrierId && i.managerId == cmd.managerId
    ensures i.vehicleId == cmd.vehicleId && i.shipmentId == cmd.shipmentId
  {
    Issue(cmd.title, cmd.content, cmd.issueType, cmd.reportDate.GetOr(now),
          cmd.carrierId, cmd.managerId, cmd.vehicleId, cmd.shipmentId)
  }

  /** `updateTitle`: the title and nothing else. */
  function UpdateTitle(i: Issue, title: string): (r: Issue)
    ensures r.title == title
    ensures r.(title := i.title) == i
  {
    i.(title := title)
  }

  /** `updateContent`: the content and nothing else. */
  function UpdateContent(i: Issue, content: string): (r: Issue)
    ensures r.content == content
    ensures r.(content := i.content) == i
  {
    i.(content := content)
  }

  /** `updateType`: the type and nothing else. */
  function UpdateType(i: Issue, t: IssueType): (r: Issue)
    ensures r.issueType == t
    ensures r.(issueType := i.issueType) == i
  {
    i.(issueType := t)
  }

  /** The service's partial update: each setter is called only for a
      non-null field of the command. Owners, date and links are never
      touched. */
  function ApplyUpdate(i: Issue, cmd: UpdateIssueCommand): (r: Issue)
    ensures r.title == cmd.title.GetOr(i.title)
    ensures r.content == cmd.content.GetOr(i.content)
    ensures r.issueType == cmd.issueType.GetOr(i.issueType)
    ensures r.(title := i.title, content := i.content, issueType := i.issueType) == i
  {
    var i1 := if cmd.title.Some? then UpdateTitle(i, cmd.title.value) else i;
    var i2 := if cmd.content.Some? then UpdateContent(i1, cmd.content.value) else i1;
    if cmd.issueType.Some? then UpdateType(i2, cmd.issueType.value) else i2
  }

  // ---------------------------------------------------------------------
  // properties
  // ---------------------------------------------------------------------

  /** The three setters touch different fields, so their order does not
      matter. */
  lemma SettersCommute(i: Issue, t: string, c: string, k: IssueType)
    ensures UpdateTitle(UpdateContent(i, c), t) == UpdateContent(UpdateTitle(i, t), c)
    ensures UpdateTitle(UpdateType(i, k), t) == UpdateType(UpdateTitle(i, t), k)
    ensures UpdateContent(UpdateType(i, k), c) == UpdateType(UpdateContent(i, c), k)
  {
  }

  /** A partial update is idempotent, an all-null one changes nothing,
      and a full one yields the same issue whatever the starting text. */
  lemma ApplyUpdateLaws(i: Issue, j: Issue, cmd: UpdateIssueCommand)
    ensures ApplyUpdate(ApplyUpdate(i, cmd), cmd) == ApplyUpdate(i, cmd)
    ensures ApplyUpdate(i, UpdateIssueCommand(None, None, None)) == i
    ensures cmd.title.Some? && cmd.content.Some? && cmd.issueType.Some? &&
            j.(title := i.title, content := i.content, issueType := i.issueType) == i
            ==> ApplyUpdate(i, cmd) == ApplyUpdate(j, cmd)
  {
  }
}

=== FILE: issue_service.dfy ===
/** The issue command service: create, partial update and delete, each
    returning the new store and the event it publishes. The store is a
    map from issue id to issue; the id the database gives a new issue and
    the clock are parameters. */
module IssueService {
  import opened Wrappers
  import opened Issues

  type IssueStore = map<Id, Issue>

  /** Published after an issue is saved: the saved issue's fields. */
  datatype IssueCreatedEvent = IssueCreatedEvent(
    issueId: Id,
    title: string,
    content: string,
    issueType: IssueType,
    reportDate: Instant,
    carrierId: Id,
    managerId: Option<Id>,
    vehicleId: Option<Id>,
    shipmentId: Option<Id>)

  /** Published after an update: the COMMAND's fields, null where the
      command left a field alone. */
  datatype IssueUpdatedEvent = IssueUpdatedEvent(
    issueId: Id,
    title: Option<string>,
    content: Option<string>,
    issueType: Option<IssueType>)

  datatype Created = Created(store: IssueStore, issueId: Id, issue: Issue, event: IssueCreatedEvent)

  datatype Updated = Updated(store: IssueStore, issue: Option<Issue>, event: Option<IssueUpdatedEvent>)

  datatype Deleted = Deleted(store: IssueStore, deleted: bool)

  /** Whether `e` announces issue `i` stored under `id`. */
  predicate Announces(e: IssueCreatedEvent, id: Id, i: Issue) {
    && e.issueId == id
    && e.title == i.title && e.content == i.content && e.issueType == i.issueType
    && e.reportDate == i.reportDate
    && e.carrierId == i.carrierId && e.managerId == i.managerId
    && e.vehicleId == i.vehicleId && e.shipmentId == i.shipmentId
  }

  /** `handle(CreateIssueCommand)`: store the new issue under the id the
      database assigns and announce the saved issue. */
  function Create(store: IssueStore, cmd: CreateIssueCommand, freshId: Id, now: Instant): (r: Created)
    requires freshId !in store
    ensures r.issueId == freshId
    ensures r.store == store[freshId := r.issue] && r.issue == FromCommand(cmd, now)
    ensures Announces(r.event, freshId, r.issue)
    ensures r.event.carrierId == cmd.carrierId && r.event.managerId == cmd.managerId
    ensures r.event.vehicleId == cmd.vehicleId && r.event.shipmentId == cmd.shipmentId
  {
    var i := FromCommand(cmd, now);
    Created(store[freshId := i], freshId, i,
            IssueCreatedEvent(freshId, i.title, i.content, i.issueType, i.reportDate,
                              i.carrierId, i.managerId, i.vehicleId, i.shipmentId))
  }

  /** `handle(issueId, UpdateIssueCommand)`: empty and silent for an
      unknown id; otherwise the non-null fields replace the stored ones and
      the command's fields are announced, even when all are null. */
  function Update(store: IssueStore, id: Id, cmd: UpdateIssueCommand): (r: Updated)
    ensures id !in store ==> r == Updated(store, None, None)
    ensures id in store ==>
      && r.issue == Some(ApplyUpdate(store[id], cmd))
      && r.store == store[id := r.issue.value]
      && r.event == Some(IssueUpdatedEvent(id, cmd.title, cmd.content, cmd.issueType))
  {
    if id !in store then Updated(store, None, None)
    else
      var i := ApplyUpdate(store[id], cmd);
      Updated(store[id := i], Some(i), Some(IssueUpdatedEvent(id, cmd.title, cmd.content, cmd.issueType)))
  }

  /** `deleteIssue`: false for an unknown id; otherwise the repository's
      delete is attempted and `deleteThrows` says whether it threw, in
      which case the answer is false and nothing is removed. */
  function Delete(store: IssueStore, id: Id, deleteThrows: bool): (r: Deleted)
    ensures r.deleted <==> id in store && !deleteThrows
    ensures r.deleted ==> r.store == store - {id}
    ensures !r.deleted ==> r.store == store
  {
    if id !in store || deleteThrows then Deleted(store, false)
    else Deleted(store - {id}, true)
  }

  // ---------------------------------------------------------------------
  // properties
  // ---------------------------------------------------------------------

  /** A created issue can be found under its id, exactly as announced; a
      deleted one cannot, and no other issue is affected. */
  lemma CreateThenDelete(store: IssueStore, cmd: CreateIssueCommand, freshId: Id, now: Instant)
    requires freshId !in store
    ensures var c := Create(store, cmd, freshId, now);
            && freshId in c.store && Announces(c.event, freshId, c.store[freshId])
            && Delete(c.store, freshId, false) == Deleted(store, true)
  {
  }

  /** Repeating an update changes nothing more, though it is announced
      again. */
  lemma UpdateIsIdempotent(store: IssueStore, id: Id, cmd: UpdateIssueCommand)
    ensures var u := Update(store, id, cmd);
            && Update(u.store, id, cmd).store == u.store
            && Update(u.store, id, cmd).event == u.event
  {
    if id in store {
      Issues.ApplyUpdateLaws(store[id], store[id], cmd);
    }
  }

  /** Updating keeps every issue's reporter, manager, vehicle, shipment
      and date; deleting keeps every other issue as it was. */
  lemma OwnersAreFixed(store: IssueStore, id: Id, cmd: UpdateIssueCommand, other: Id, fails: bool)
    requires other in store
    ensures other in Update(store, id, cmd).store
    ensures var i := Update(store, id, cmd).store[other];
            && i.carrierId == store[other].carrierId && i.managerId == store[other].managerId
            && i.vehicleId == store[other].vehicleId && i.shipmentId == store[other].shipmentId
            && i.reportDate == store[other].reportDate
    ensures other != id ==> other in Delete(store, id, fails).store && Delete(store, id, fails).store[other] == store[other]
  {
  }
}

=== FILE: issues_controller.dfy ===
/** The issue endpoints: reporting an issue (resolving the carrier's
    manager and vehicle through the relationship index), reading, listing,
    updating and deleting issues, each with its authorisation checks.
    Each endpoint is a function from the request headers and the store to
    the HTTP status and what it answers or changed. */
module IssuesController {
  import opened Wrappers
  import opened ServiceHeaders
  import opened Issues
  import opened IssueService
  import opened Http
  import RelationshipIndex

  datatype CreateReply = CreateReply(status: int, store: IssueStore, issue: Option<Issue>, event: Option<IssueCreatedEvent>)

  datatype Reply = Reply(status: int, store: IssueStore, issue: Option<Issue>, event: Option<IssueUpdatedEvent>)

  datatype DeleteReply = DeleteReply(status: int, store: IssueStore)

  /** `findByCarrierId`. */
  function ReportedBy(store: IssueStore, carrier: Id): set<Id> {
    set id | id in store && store[id].carrierId == carrier
  }

  /** `findByManagerId`. */
  function ManagedBy(store: IssueStore, manager: Id): set<Id> {
    set id | id in store && store[id].managerId == Some(manager)
  }

  /** `findByType`. */
  function OfType(store: IssueStore, t: IssueType): set<Id> {
    set id | id in store && store[id].issueType == t
  }

  /** `canAccessIssue`: an identified caller who is an admin, the issue's
      manager, or the carrier who reported it. */
  function CanAccessIssue(req: Request, carrierId: Id, managerId: Option<Id>): (r: bool)
    ensures UserId(req).None? ==> !r
    ensures UserId(req).Some? && Has(req, ADMIN) ==> r
    ensures !Has(req, ADMIN) ==>
      (r <==> UserId(req).Some? && ((Has(req, MANAGER) && managerId == UserId(req)) ||
                                    (Has(req, CARRIER) && carrierId == UserId(req).value)))
  {
    match UserId(req)
    case None => false
    case Some(user) =>
      || Has(req, ADMIN)
      || (Has(req, MANAGER) && Is(managerId, user))
      || (Has(req, CARRIER) && carrierId == user)
  }

  /** `createIssue`: 401 without a user, 403 without the carrier role,
      400 when the index knows no manager for the carrier, 400 for a
      vehicle issue when it knows no vehicle; else 201 with an issue
      reported by the caller, owned by the resolved manager, linked to the
      carrier's vehicle when it is a vehicle issue, dated `now`. */
  function CreateIssue(req: Request, store: IssueStore, idx: RelationshipIndex.Index, res: CreateIssueResource,
                       freshId: Id, now: Instant): (r: CreateReply)
    requires freshId !in store && ValidIssueResource(res)
    ensures UserId(req).None? ==> r.status == UNAUTHORIZED
    ensures UserId(req).Some? && !Has(req, CARRIER) ==> r.status == FORBIDDEN
    ensures UserId(req).Some? && Has(req, CARRIER) && RelationshipIndex.ManagerForCarrier(idx, UserId(req)).None?
            ==> r.status == BAD_REQUEST
    ensures r.status == CREATED <==>
      && UserId(req).Some? && Has(req, CARRIER)
      && RelationshipIndex.ManagerForCarrier(idx, UserId(req)).Some?
      && (res.issueType == VehicleIssue ==> RelationshipIndex.VehicleForCarrier(idx, UserId(req)).Some?)
    ensures r.status != CREATED ==> r.store == store && r.issue.None? && r.event.None?
    ensures r.status == CREATED ==>
      && r.issue.Some?
      && r.issue.value.carrierId == UserId(req).value
      && r.issue.value.managerId == RelationshipIndex.ManagerForCarrier(idx, UserId(req))
      && r.issue.value.vehicleId ==
           (if res.issueType == VehicleIssue then RelationshipIndex.VehicleForCarrier(idx, UserId(req)) else None)
      && r.issue.value.reportDate == now
      && r.issue.value.title == res.title && r.issue.value.content == res.content
      && r.issue.value.issueType == res.issueType && r.issue.value.shipmentId == res.shipmentId
      && r.store == store[freshId := r.issue.value]
      && r.event.Some? && Announces(r.event.value, freshId, r.issue.value)
  {
    match UserId(req)
    case None => CreateReply(UNAUTHORIZED, store, None, None)
    case Some(carrier) =>
      if !Has(req, CARRIER) then CreateReply(FORBIDDEN, store, None, None)
      else
        var manager := RelationshipIndex.ManagerForCarrier(idx, Some(carrier));
        if manager.None? then CreateReply(BAD_REQUEST, store, None, None)
        else
          var vehicle := if res.issueType == VehicleIssue then RelationshipIndex.VehicleForCarrier(idx, Some(carrier)) else None;
          if res.issueType == VehicleIssue && vehicle.None? then CreateReply(BAD_REQUEST, store, None, None)
          else
            var cmd := CreateIssueCommand(res.title, res.content, res.issueType, Some(now),
                                          carrier, manager, vehicle, res.shipmentId);
            var c := Create(store, cmd, freshId, now);
            CreateReply(CREATED, c.store, Some(c.issue), Some(c.event))
  }

  /** `getIssueById`: 404 when unknown, 403 unless the caller may access
      it, else 200 with the issue. */
  function GetIssueById(req: Request, store: IssueStore, id: Id): (r: Reply)
    ensures r.store == store && r.event.None?
    ensures id !in store ==> r.status == NOT_FOUND
    ensures r.status == OK <==> id in store && CanAccessIssue(req, store[id].carrierId, store[id].managerId)
    ensures r.status == OK ==> r.issue == Some(store[id])
    ensures r.status != OK ==> r.issue.None?
  {
    if id !in store then Reply(NOT_FOUND, store, None, None)
    else if !CanAccessIssue(req, store[id].carrierId, store[id].managerId) then Reply(FORBIDDEN, store, None, None)
    else Reply(OK, store, Some(store[id]), None)
  }

  /** `getMyIssues`: 401 without a user, 403 without the carrier role,
      else the issues the caller reported. */
  function GetMyIssues(req: Request, store: IssueStore): (r: ListReply)
    ensures UserId(req).None? ==> r == ListReply(UNAUTHORIZED, {})
    ensures UserId(req).Some? && !Has(req, CARRIER) ==> r == ListReply(FORBIDDEN, {})
    ensures UserId(req).Some? && Has(req, CARRIER) ==>
      r.ids == ReportedBy(store, UserId(req).value) && (r.status == OK || r.status == NO_CONTENT)
  {
    match UserId(req)
    case None => ListReply(UNAUTHORIZED, {})
    case Some(user) =>
      if !Has(req, CARRIER) then ListReply(FORBIDDEN, {})
      else Listing(ReportedBy(store, user))
  }

  /** `getIssuesByCarrierId`: 401 without a user; 403 unless the caller
      is an admin or is that carrier (with the carrier role), managers
      included; else the carrier's issues. */
  function GetIssuesByCarrierId(req: Request, store: IssueStore, carrier: Id): (r: ListReply)
    ensures UserId(req).None? ==> r == ListReply(UNAUTHORIZED, {})
    ensures UserId(req).Some? ==>
      ((r.status == OK || r.status == NO_CONTENT) <==> Has(req, ADMIN) || (Has(req, CARRIER) && UserId(req) == Some(carrier)))
    ensures r.status == OK || r.status == NO_CONTENT ==> r.ids == ReportedBy(store, carrier)
    ensures r.status != OK ==> r.ids == {}
  {
    match UserId(req)
    case None => ListReply(UNAUTHORIZED, {})
    case Some(user) =>
      if !Has(req, ADMIN) && !(Has(req, CARRIER) && user == carrier) then ListReply(FORBIDDEN, {})
      else Listing(ReportedBy(store, carrier))
  }

  /** `getIssuesByManagerId`: 401 without a user; 403 unless the caller
      is an admin or is that manager (with the manager role); else the
      manager's issues. */
  function GetIssuesByManagerId(req: Request, store: IssueStore, manager: Id): (r: ListReply)
    ensures UserId(req).None? ==> r == ListReply(UNAUTHORIZED, {})
    ensures UserId(req).Some? ==>
      ((r.status == OK || r.status == NO_CONTENT) <==> Has(req, ADMIN) || (Has(req, MANAGER) && UserId(req) == Some(manager)))
    ensures r.status == OK || r.status == NO_CONTENT ==> r.ids == ManagedBy(store, manager)
    ensures r.status != OK ==> r.ids == {}
  {
    match UserId(req)
    case None => ListReply(UNAUTHORIZED, {})
    case Some(user) =>
      if !Has(req, ADMIN) && !(Has(req, MANAGER) && user == manager) then ListReply(FORBIDDEN, {})
      else Listing(ManagedBy(store, manager))
  }

  /** `getIssuesByType`: 401 without a user; otherwise the issues of that
      type the caller may access, silently dropping the others. */
  function GetIssuesByType(req: Request, store: IssueStore, t: IssueType): (r: ListReply)
    ensures UserId(req).None? ==> r == ListReply(UNAUTHORIZED, {})
    ensures UserId(req).Some? ==> r.status == OK || r.status == NO_CONTENT
    ensures forall id :: id in r.ids ==> id in OfType(store, t)
    ensures UserId(req).Some? ==>
              forall id :: id in r.ids <==>
                id in OfType(store, t) && CanAccessIssue(req, store[id].carrierId, store[id].managerId)
  {
    match UserId(req)
    case None => ListReply(UNAUTHORIZED, {})
    case Some(_) =>
      Listing(set id | id in OfType(store, t) && CanAccessIssue(req, store[id].carrierId, store[id].managerId))
  }

  /** `updateIssue`: 404 when unknown; 403 unless the caller is the carrier
      who reported it (no role is asked for, and an admin is refused);
      else 200 with the partially updated issue. */
  function UpdateIssue(req: Request, store: IssueStore, id: Id, cmd: UpdateIssueCommand): (r: Reply)
    ensures id !in store ==> r == Reply(NOT_FOUND, store, None, None)
    ensures r.status == OK <==> id in store && UserId(req) == Some(store[id].carrierId)
    ensures r.status != OK ==> r.store == store && r.issue.None? && r.event.None?
    ensures r.status == OK ==>
      && r.issue == Some(ApplyUpdate(store[id], cmd))
      && r.store == store[id := r.issue.value]
      && r.event == Some(IssueUpdatedEvent(id, cmd.title, cmd.content, cmd.issueType))
  {
    if id !in store then Reply(NOT_FOUND, store, None, None)
    else if !Is(UserId(req), store[id].carrierId) then Reply(FORBIDDEN, store, None, None)
    else
      var u := Update(store, id, cmd);
      if u.issue.Some? then Reply(OK, u.store, u.issue, u.event) else Reply(NOT_FOUND, u.store, None, None)
  }

  /** `deleteIssue`: 404 when unknown; 403 unless the caller is an admin or
      the carrier who reported it; else 204, or 404 when the repository's
      delete throws (`deleteThrows`). */
  function DeleteIssue(req: Request, store: IssueStore, id: Id, deleteThrows: bool): (r: DeleteReply)
    ensures id !in store ==> r == DeleteReply(NOT_FOUND, store)
    ensures id in store && UserId(req).Some? && (Has(req, ADMIN) || UserId(req) == Some(store[id].carrierId))
            ==> r.status == (if deleteThrows then NOT_FOUND else NO_CONTENT)
    ensures r.status == NO_CONTENT <==>
      id in store && !deleteThrows && UserId(req).Some? && (Has(req, ADMIN) || UserId(req) == Some(store[id].carrierId))
    ensures r.status == NO_CONTENT ==> r.store == store - {id}
    ensures r.status != NO_CONTENT ==> r.store == store
  {
    if id !in store then DeleteReply(NOT_FOUND, store)
    else if UserId(req).None? || (!Has(req, ADMIN) && !Is(UserId(req), store[id].carrierId)) then DeleteReply(FORBIDDEN, store)
    else
      var d := Delete(store, id, deleteThrows);
      DeleteReply(if d.deleted then NO_CONTENT else NOT_FOUND, d.store)
  }

  // ---------------------------------------------------------------------
  // properties
  // ---------------------------------------------------------------------

  /** The vehicle check never refuses: whenever a manager resolves, so
      does a vehicle (the manager is found through it). A 400 therefore
      always means "no manager". */
  lemma VehicleCheckNeverRefuses(req: Request, store: IssueStore, idx: RelationshipIndex.Index,
                                 res: CreateIssueResource, freshId: Id, now: Instant)
    requires freshId !in store && ValidIssueResource(res)
    ensures CreateIssue(req, store, idx, res, freshId, now).status == BAD_REQUEST <==>
            UserId(req).Some? && Has(req, CARRIER) && RelationshipIndex.ManagerForCarrier(idx, UserId(req)).None?
  {
  }

  /** Listing by type returns exactly the issues of that type the caller
      could read one by one. */
  lemma TypeListingAgreesWithLookup(req: Request, store: IssueStore, t: IssueType, id: Id)
    requires UserId(req).Some?
    ensures id in GetIssuesByType(req, store, t).ids <==>
            id in store && store[id].issueType == t && GetIssueById(req, store, id).status == OK
  {
  }

  /** A manager (without the admin or carrier role) may read each issue
      they manage, but may not list the issues of its carrier. */
  lemma ManagerReadsButCannotListByCarrier(req: Request, store: IssueStore, id: Id)
    requires id in store && UserId(req).Some? && store[id].managerId == UserId(req)
    requires Has(req, MANAGER) && !Has(req, ADMIN) && !Has(req, CARRIER)
    ensures GetIssueById(req, store, id).status == OK
    ensures GetIssuesByCarrierId(req, store, store[id].carrierId).status == FORBIDDEN
  {
  }

  /** An admin who did not report an issue may delete it but not update
      it; its reporter may update it without any role at all. */
  lemma AdminDeletesButCannotUpdate(admin: Request, reporter: Request, store: IssueStore, id: Id,
                                    cmd: UpdateIssueCommand)
    requires id in store
    requires UserId(admin).Some? && Has(admin, ADMIN) && UserId(admin) != Some(store[id].carrierId)
    requires UserId(reporter) == Some(store[id].carrierId) && reporter.rolesHeader.None?
    ensures DeleteIssue(admin, store, id, false).status == NO_CONTENT
    ensures UpdateIssue(admin, store, id, cmd).status == FORBIDDEN
    ensures UpdateIssue(reporter, store, id, cmd).status == OK
  {
  }

  /** After a successful delete the issue is gone for everyone. */
  lemma DeletedIssueIsNotFound(req: Request, other: Request, store: IssueStore, id: Id)
    requires DeleteIssue(req, store, id, false).status == NO_CONTENT
    ensures GetIssueById(other, DeleteIssue(req, store, id, false).store, id).status == NOT_FOUND
  {
  }
}

=== FILE: java_strings.dfy ===
/** The handful of `java.lang.String` / `java.lang.Long` operations the
    services' header and validation logic is built from, with Java's
    semantics written out: `trim`, `isBlank`, `split(",")` (trailing empty
    strings dropped), `replace(target, "")`, `startsWith`/`endsWith`,
    `String.join`, `Long.parseLong` and `String.valueOf(long)`. Case
    mapping (`toUpperCase`, `equalsIgnoreCase`) is modelled on ASCII
    letters only; the role names it is applied to are ASCII. A `char` here
    is a whole Unicode character where Java has UTF-16 code units. */
module JavaStrings {
  import opened Wrappers

  // ---------------------------------------------------------------------
  // isBlank and trim
  // ---------------------------------------------------------------------

  /** `Character.isWhitespace`: the Unicode space, line and paragraph
      separators except the three non-breaking ones, plus U+0009..U+000D
      and U+001C..U+001F. */
  predicate IsWhitespace(c: char) {
    || ('\U{9}' <= c <= '\U{D}')
    || ('\U{1C}' <= c <= '\U{20}')
    || c == '\U{1680}'
    || ('\U{2000}' <= c <= '\U{2006}')
    || ('\U{2008}' <= c <= '\U{200A}')
    || c == '\U{2028}' || c == '\U{2029}'
    || c == '\U{205F}' || c == '\U{3000}'
  }

  /** `String.isBlank`: empty, or whitespace only. */
  predicate IsBlank(s: string) {
    forall i :: 0 <= i < |s| ==> IsWhitespace(s[i])
  }

  /** A text field of a request body that passes the validators' usual
      check `field == null || field.isBlank()`: present and not blank. */
  predicate Filled(field: Option<string>) {
    field.Some? && !IsBlank(field.value)
  }

  /** `String.trim` strips every code unit up to and including U+0020. */
  predicate IsTrimmed(c: char) {
    c <= ' '
  }

  /** Number of strippable characters at the front of `s`. */
  function LeadingCount(s: string): (n: nat)
    ensures n <= |s|
    ensures forall i :: 0 <= i < n ==> IsTrimmed(s[i])
    ensures n < |s| ==> !IsTrimmed(s[n])
  {
    if |s| > 0 && IsTrimmed(s[0]) then
      var n' := LeadingCount(s[1..]);
      assert forall i :: 1 <= i < 1 + n' ==> s[i] == s[1..][i - 1];
      1 + n'
    else 0
  }

  /** Number of strippable characters at the end of `s`. */
  function TrailingCount(s: string): (n: nat)
    ensures n <= |s|
    ensures forall i :: |s| - n <= i < |s| ==> IsTrimmed(s[i])
    ensures n < |s| ==> !IsTrimmed(s[|s| - n - 1])
  {
    if |s| > 0 && IsTrimmed(s[|s| - 1]) then
      var n' := TrailingCount(s[..|s| - 1]);
      1 + n'
    else 0
  }

  /** `String.trim`: the result is the part of `s` left once the run of
      strippable characters at the front and the one at the end are cut
      off. */
  function Trim(s: string): (r: string)
    ensures |r| <= |s|
    ensures |r| == 0 || (!IsTrimmed(r[0]) && !IsTrimmed(r[|r| - 1]))
    ensures (|s| == 0 || (!IsTrimmed(s[0]) && !IsTrimmed(s[|s| - 1]))) ==> r == s
    ensures LeadingCount(s) + |r| <= |s| && r == s[LeadingCount(s)..LeadingCount(s) + |r|]
    ensures forall i :: LeadingCount(s) + |r| <= i < |s| ==> IsTrimmed(s[i])
  {
    var rest := s[LeadingCount(s)..];
    rest[..|rest| - TrailingCount(rest)]
  }

  // ---------------------------------------------------------------------
  // prefixes, suffixes, replace
  // ---------------------------------------------------------------------

  /** `s.startsWith(prefix)`. */
  predicate StartsWith(s: string, prefix: string) {
    prefix <= s
  }

  /** `s.endsWith(suffix)`. */
  predicate EndsWith(s: string, suffix: string) {
    |suffix| <= |s| && s[|s| - |suffix|..] == suffix
  }

  /** Whether `pat` occurs anywhere in `s`. */
  predicate Occurs(s: string, pat: string)
    decreases |s|
  {
    pat <= s || (|s| > 0 && Occurs(s[1..], pat))
  }

  /** `s.replace(pat, "")`: one left-to-right pass deleting the
      non-overlapping occurrences of `pat`. The result is shorter exactly
      when `pat` occurs; which characters go is stated by
      `RemoveAllSkipsToFirstOccurrence` and `RemoveAllOnlyDeletes`. */
  function RemoveAll(s: string, pat: string): (r: string)
    requires |pat| > 0
    ensures |r| <= |s|
    ensures Occurs(s, pat) ==> |r| < |s|
    ensures !Occurs(s, pat) ==> r == s
    decreases |s|
  {
    if |s| == 0 then s
    else if pat <= s then RemoveAll(s[|pat|..], pat)
    else [s[0]] + RemoveAll(s[1..], pat)
  }

  /** Deleting adds nothing: every character left was in `s`. */
  lemma {:induction false} RemoveAllOnlyDeletes(s: string, pat: string)
    requires |pat| > 0
    ensures multiset(RemoveAll(s, pat)) <= multiset(s)
    decreases |s|
  {
    if |s| > 0 {
      if pat <= s {
        RemoveAllOnlyDeletes(s[|pat|..], pat);
        assert s == s[..|pat|] + s[|pat|..];
      } else {
        RemoveAllOnlyDeletes(s[1..], pat);
        assert s == [s[0]] + s[1..];
      }
    }
  }

  /** No occurrence of `pat` starts among the first `n` positions of `s`. */
  predicate NoOccurrenceBefore(s: string, pat: string, n: nat)
    requires n <= |s|
  {
    forall i :: 0 <= i < n ==> !(pat <= s[i..])
  }

  /** The text before the first occurrence of `pat` is kept as it is, the
      occurrence itself goes, and the pass resumes right after it. */
  lemma {:induction false} RemoveAllSkipsToFirstOccurrence(a: string, pat: string, b: string)
    requires |pat| > 0
    requires NoOccurrenceBefore(a + pat + b, pat, |a|)
    ensures RemoveAll(a + pat + b, pat) == a + RemoveAll(b, pat)
    decreases |a|
  {
    var s := a + pat + b;
    if |a| == 0 {
      assert s == pat + b;
      assert pat <= s && s[|pat|..] == b;
    } else {
      var t := a[1..] + pat + b;
      assert s[1..] == t;
      assert !(pat <= s) by {
        assert s[0..] == s;
      }
      assert RemoveAll(s, pat) == [s[0]] + RemoveAll(t, pat);
      assert NoOccurrenceBefore(t, pat, |a[1..]|) by {
        forall i | 0 <= i < |a[1..]|
          ensures !(pat <= t[i..])
        {
          assert t[i..] == s[i + 1..];
        }
      }
      RemoveAllSkipsToFirstOccurrence(a[1..], pat, b);
      assert [a[0]] + a[1..] == a;
    }
  }

  // ---------------------------------------------------------------------
  // case
  // ---------------------------------------------------------------------

  /** Every character is ASCII (below U+0080), as role names are. */
  predicate IsAscii(s: string) {
    forall i :: 0 <= i < |s| ==> s[i] < '\U{80}'
  }

  /** Upper-case mapping of a character, on the ASCII letters only: the
      other characters Java would map are left as they are. */
  function UpperChar(c: char): char {
    if 'a' <= c <= 'z' then (c as int - 32) as char else c
  }

  /** Lower-case mapping of a character, on the ASCII letters. */
  function LowerChar(c: char): char {
    if 'A' <= c <= 'Z' then (c as int + 32) as char else c
  }

  /** `String.toUpperCase`, exact on ASCII strings. */
  function ToUpper(s: string): (r: string)
    ensures |r| == |s|
    ensures forall i :: 0 <= i < |s| ==> r[i] == UpperChar(s[i])
  {
    seq(|s|, i requires 0 <= i < |s| => UpperChar(s[i]))
  }

  /** `String.equalsIgnoreCase`, exact on ASCII strings: same length, and
      every pair of characters is equal, equal once upper-cased, or equal
      once lower-cased. */
  predicate EqualsIgnoreCase(a: string, b: string) {
    && |a| == |b|
    && forall i :: 0 <= i < |a| ==>
         a[i] == b[i] || UpperChar(a[i]) == UpperChar(b[i]) || LowerChar(a[i]) == LowerChar(b[i])
  }

  /** On ASCII strings, ignoring case is the same as comparing the
      upper-cased strings. (Beyond ASCII Java's two differ: "ß" upper-cases
      to "SS" but does not equal it ignoring case.) */
  lemma EqualsIgnoreCaseIsUpperEquality(a: string, b: string)
    requires IsAscii(a) && IsAscii(b)
    ensures EqualsIgnoreCase(a, b) <==> ToUpper(a) == ToUpper(b)
  {
    if ToUpper(a) == ToUpper(b) {
      assert |a| == |b|;
      forall i | 0 <= i < |a|
        ensures UpperChar(a[i]) == UpperChar(b[i])
      {
        assert ToUpper(a)[i] == ToUpper(b)[i];
      }
    }
  }

  // ---------------------------------------------------------------------
  // split and join
  // ---------------------------------------------------------------------

  /** `String.join(sep, parts)`. */
  function Join(parts: seq<string>, sep: string): string
  {
    if |parts| == 0 then ""
    else if |parts| == 1 then parts[0]
    else parts[0] + sep + Join(parts[1..], sep)
  }

  /** The pieces of `s` between occurrences of the separator, empty pieces
      included: the list `split` starts from. */
  function Pieces(s: string, sep: char): (r: seq<string>)
    ensures |r| >= 1
    ensures forall i :: 0 <= i < |r| ==> sep !in r[i]
    ensures Join(r, [sep]) == s
  {
    if |s| == 0 then [""]
    else
      var rest := Pieces(s[1..], sep);
      if s[0] == sep then
        assert [""] + rest == [""] + [rest[0]] + rest[1..];
        [""] + rest
      else
        var r := [[s[0]] + rest[0]] + rest[1..];
        assert r[1..] == rest[1..];
        r
  }

  /** Drops the empty strings at the end of a list. */
  function DropTrailingEmpty(ps: seq<string>): (r: seq<string>)
    ensures r <= ps
    ensures |r| == 0 || r[|r| - 1] != ""
    ensures forall i :: |r| <= i < |ps| ==> ps[i] == ""
  {
    if |ps| > 0 && ps[|ps| - 1] == "" then DropTrailingEmpty(ps[..|ps| - 1]) else ps
  }

  /** `s.split(sep)` for a one-character separator: the input itself when
      the separator does not occur, otherwise the pieces with the trailing
      empty ones removed. */
  function Split(s: string, sep: char): (r: seq<string>)
    ensures r <= Pieces(s, sep)
    ensures forall i :: |r| <= i < |Pieces(s, sep)| ==> Pieces(s, sep)[i] == ""
    ensures sep in s ==> |r| == 0 || r[|r| - 1] != ""
    ensures sep !in s ==> r == [s]
  {
    if sep !in s then
      assert Join(Pieces(s, sep), [sep]) == s;
      PiecesWithoutSeparator(s, sep);
      [s]
    else DropTrailingEmpty(Pieces(s, sep))
  }

  /** Without a separator there is exactly one piece. */
  lemma PiecesWithoutSeparator(s: string, sep: char)
    requires sep !in s
    ensures Pieces(s, sep) == [s]
  {
    if |s| > 0 {
      assert sep !in s[1..];
      PiecesWithoutSeparator(s[1..], sep);
    }
  }

  /** Splitting what `Join` produced gives back the parts, as long as no
      part contains the separator. */
  lemma {:induction false} PiecesOfJoin(parts: seq<string>, sep: char)
    requires |parts| >= 1
    requires forall i :: 0 <= i < |parts| ==> sep !in parts[i]
    ensures Pieces(Join(parts, [sep]), sep) == parts
    decreases |parts|
  {
    if |parts| == 1 {
      PiecesWithoutSeparator(parts[0], sep);
    } else {
      PiecesOfJoin(parts[1..], sep);
      PiecesOfPrefixed(parts[0], Join(parts[1..], [sep]), sep);
      assert parts == [parts[0]] + parts[1..];
    }
  }

  /** A separator-free head followed by the separator splits off as one piece. */
  lemma {:induction false} PiecesOfPrefixed(a: string, b: string, sep: char)
    requires sep !in a
    ensures Pieces(a + [sep] + b, sep) == [a] + Pieces(b, sep)
    decreases |a|
  {
    var s := a + [sep] + b;
    if |a| == 0 {
      assert s[0] == sep && s[1..] == b;
    } else {
      assert s[0] == a[0] && s[1..] == a[1..] + [sep] + b;
      assert sep !in a[1..];
      PiecesOfPrefixed(a[1..], b, sep);
      assert [a[0]] + a[1..] == a;
    }
  }

  // ---------------------------------------------------------------------
  // Long.parseLong and String.valueOf(long)
  // ---------------------------------------------------------------------

  const LONG_MIN: int := -0x8000_0000_0000_0000
  const LONG_MAX: int := 0x7FFF_FFFF_FFFF_FFFF

  /** The values of Java's `long`. */
  predicate InLongRange(n: int) {
    LONG_MIN <= n <= LONG_MAX
  }

  /** The first character of every run of ten decimal digits (Unicode
      general category Nd) in the Basic Multilingual Plane: ASCII,
      Arabic-Indic, the Indic scripts, Thai, Lao, Tibetan, Myanmar, Khmer,
      Mongolian and the others, up to the fullwidth digits. These are the
      characters `Character.digit(c, 10)` gives a value for; a digit
      outside the BMP reaches Java as two surrogates, neither a digit. */
  const DIGIT_ZEROS: seq<int> := [
    0x0030, 0x0660, 0x06F0, 0x07C0, 0x0966, 0x09E6, 0x0A66, 0x0AE6,
    0x0B66, 0x0BE6, 0x0C66, 0x0CE6, 0x0D66, 0x0DE6, 0x0E50, 0x0ED0,
    0x0F20, 0x1040, 0x1090, 0x17E0, 0x1810, 0x1946, 0x19D0, 0x1A80,
    0x1A90, 0x1B50, 0x1BB0, 0x1C40, 0x1C50, 0xA620, 0xA8D0, 0xA900,
    0xA9D0, 0xA9F0, 0xAA50, 0xABF0, 0xFF10]

  /** `c` is digit `d` of the run starting at `DIGIT_ZEROS[k]`. */
  predicate InRun(c: char, k: nat, d: int)
    requires k < |DIGIT_ZEROS|
  {
    0 <= d < 10 && c as int == DIGIT_ZEROS[k] + d
  }

  /** Looks for the run of `c` from `DIGIT_ZEROS[k]` on. */
  function DigitFrom(c: char, k: nat): (d: int)
    requires k <= |DIGIT_ZEROS|
    ensures -1 <= d < 10
    decreases |DIGIT_ZEROS| - k
  {
    if k == |DIGIT_ZEROS| then -1
    else if DIGIT_ZEROS[k] <= c as int < DIGIT_ZEROS[k] + 10 then c as int - DIGIT_ZEROS[k]
    else DigitFrom(c, k + 1)
  }

  /** `Character.digit(c, 10)`: the digit's value, or -1 for a character
      that is not a decimal digit (see `CharacterDigitFindsTheRun`). */
  function CharacterDigit(c: char): (d: int)
    ensures -1 <= d < 10
  {
    DigitFrom(c, 0)
  }

  /** The scan from `DIGIT_ZEROS[k]` finds the run holding `c`, if any. */
  lemma {:induction false} DigitFromFindsTheRun(c: char, k: nat)
    requires k <= |DIGIT_ZEROS|
    ensures DigitFrom(c, k) >= 0 ==> exists j :: k <= j < |DIGIT_ZEROS| && InRun(c, j, DigitFrom(c, k))
    ensures DigitFrom(c, k) < 0 ==> forall j, e :: k <= j < |DIGIT_ZEROS| ==> !InRun(c, j, e)
    decreases |DIGIT_ZEROS| - k
  {
    if k < |DIGIT_ZEROS| {
      if DIGIT_ZEROS[k] <= c as int < DIGIT_ZEROS[k] + 10 {
        assert InRun(c, k, DigitFrom(c, k));
      } else {
        DigitFromFindsTheRun(c, k + 1);
      }
    }
  }

  /** A character is a decimal digit exactly when it lies in one of the
      runs, and its value is its place in that run. */
  lemma CharacterDigitFindsTheRun(c: char)
    ensures CharacterDigit(c) >= 0 <==> exists k, e :: 0 <= k < |DIGIT_ZEROS| && InRun(c, k, e)
    ensures CharacterDigit(c) >= 0 ==> exists k :: 0 <= k < |DIGIT_ZEROS| && InRun(c, k, CharacterDigit(c))
  {
    DigitFromFindsTheRun(c, 0);
  }

  predicate IsDigit(c: char) {
    CharacterDigit(c) >= 0
  }

  predicate AllDigits(s: string) {
    forall i :: 0 <= i < |s| ==> IsDigit(s[i])
  }

  function DigitValue(c: char): nat
    requires IsDigit(c)
  {
    CharacterDigit(c)
  }

  /** The number a non-empty run of decimal digits denotes. */
  function DigitsValue(s: string): nat
    requires AllDigits(s)
  {
    if |s| == 0 then 0 else 10 * DigitsValue(s[..|s| - 1]) + DigitValue(s[|s| - 1])
  }

  /** Whether `s` opens with a sign. */
  predicate Signed(s: string) {
    |s| > 0 && (s[0] == '-' || s[0] == '+')
  }

  /** What follows the optional sign. */
  function Unsigned(s: string): string {
    if Signed(s) then s[1..] else s
  }

  /** `Long.parseLong(s)` (what `Long.valueOf` parses): an optional leading
      `-` or `+`, then at least one decimal digit, and a value that fits a
      `long`; anything else is a `NumberFormatException`, here `None`. */
  function ParseLong(s: string): (r: Option<int>)
    ensures r.Some? ==> InLongRange(r.value)
    ensures r.Some? ==> |s| > 0 && (s[0] == '-' || s[0] == '+' || IsDigit(s[0]))
    ensures r.Some? && s[0] == '-' ==> r.value <= 0
    ensures r.Some? && s[0] != '-' ==> r.value >= 0
    ensures r.Some? <==>
              |Unsigned(s)| > 0 && AllDigits(Unsigned(s)) &&
              InLongRange(if s[0] == '-' then -(DigitsValue(Unsigned(s)) as int) else DigitsValue(Unsigned(s)))
    ensures r.Some? ==> r.value == (if s[0] == '-' then -(DigitsValue(Unsigned(s)) as int) else DigitsValue(Unsigned(s)))
  {
    if |s| == 0 then None
    else
      var digits := Unsigned(s);
      if |digits| == 0 || !AllDigits(digits) then None
      else
        var magnitude: int := DigitsValue(digits);
        var v := if s[0] == '-' then -magnitude else magnitude;
        if InLongRange(v) then Some(v) else None
  }

  /** Leading zeros do not change the value. */
  lemma {:induction false} LeadingZeroIsIgnored(s: string)
    requires AllDigits(s)
    ensures AllDigits("0" + s) && DigitsValue("0" + s) == DigitsValue(s)
    decreases |s|
  {
    var t := "0" + s;
    assert IsDigit('0') && DigitValue('0') == 0;
    assert AllDigits(t);
    if |s| > 0 {
      assert t[..|t| - 1] == "0" + s[..|s| - 1];
      LeadingZeroIsIgnored(s[..|s| - 1]);
    }
  }

  /** The digits of other scripts count as they do for `Long.valueOf`:
      the Arabic-Indic digits one and two read as 12. */
  lemma OtherScriptsDigitsParse()
    ensures ParseLong("\U{0661}\U{0662}") == Some(12)
  {
    var s := "\U{0661}\U{0662}";
    assert DigitFrom(s[0], 0) == 1 && DigitFrom(s[1], 0) == 2;
    assert !Signed(s) && Unsigned(s) == s && AllDigits(s);
    assert s[..1][..0] == "";
    assert DigitsValue(s[..1]) == 1;
    assert DigitsValue(s) == 12;
  }

  /** Every digit run starts at or above '0', so no character below it
      (a sign, a blank) is a digit. */
  lemma {:induction false} BelowZeroIsNotADigit(c: char)
    requires c < '0'
    ensures !IsDigit(c)
  {
    CharacterDigitFindsTheRun(c);
    forall k | 0 <= k < |DIGIT_ZEROS|
      ensures DIGIT_ZEROS[k] >= 0x30
    {
      // the table is checked a third at a time
      if k < 12 {
      } else if k < 24 {
      } else {
      }
    }
  }

  function DigitChar(d: nat): (c: char)
    requires d < 10
    ensures IsDigit(c) && DigitValue(c) == d
  {
    ('0' as int + d) as char
  }

  /** Decimal digits of a natural number, without leading zeros. */
  function NatToDigits(n: nat): (s: string)
    ensures |s| > 0 && AllDigits(s)
    ensures DigitsValue(s) == n
    ensures |s| > 1 ==> s[0] != '0'
  {
    if n < 10 then [DigitChar(n)]
    else
      var s := NatToDigits(n / 10) + [DigitChar(n % 10)];
      assert s[..|s| - 1] == NatToDigits(n / 10);
      s
  }

  /** `String.valueOf(long)` / `Long.toString`. */
  function LongToString(n: int): string
  {
    if n < 0 then "-" + NatToDigits(-n) else NatToDigits(n)
  }

  /** Parsing what `Long.toString` printed gives the number back. */
  lemma LongToStringRoundTrip(n: int)
    requires InLongRange(n)
    ensures ParseLong(LongToString(n)) == Some(n)
  {
    var s := LongToString(n);
    if n < 0 {
      assert s[1..] == NatToDigits(-n);
    } else {
      var d := NatToDigits(n);
      assert s == d && IsDigit(d[0]);
      if d[0] == '-' || d[0] == '+' {
        BelowZeroIsNotADigit(d[0]);
      }
      assert Unsigned(s) == s;
    }
  }
}

=== FILE: payment.dfy ===
/** The payment aggregate: a single charge with its status, the PayPal
    references it collects and the moments it was processed, failed or
    refunded. Amounts are whole cents; the clock is the parameter
    `now`. Every `markAs*` is unconditional; the only guard is the
    refund service's check of `canBeRefunded`. */
module Payments {
  import opened Wrappers

  datatype PaymentStatus = Pending | Processing | Completed | Failed | Canceled | Refunded

  datatype PaymentMethod = PayPal | CreditCard | DebitCard | BankTransfer

  /** `PaymentType`, carried by the name of its constant. */
  datatype PaymentType = PaymentType(name: string)

  datatype Payment = Payment(
    userId: Id,
    subscriptionId: Option<Id>,
    paypalPaymentId: Option<string>,
    paypalOrderId: Option<string>,
    paymentType: PaymentType,
    paymentMethod: PaymentMethod,
    status: PaymentStatus,
    amountCents: int,
    currency: string,
    description: Option<string>,
    processedAt: Option<Instant>,
    failedAt: Option<Instant>,
    failureReason: Option<string>,
    refundedAt: Option<Instant>,
    refundAmountCents: Option<int>)

  type PaymentStore = map<Id, Payment>

  /** The six-argument constructor: PENDING, with no subscription, no
      PayPal references and nothing recorded yet. */
  function NewPayment(userId: Id, t: PaymentType, m: PaymentMethod, amountCents: int, currency: string,
                      description: Option<string>): (p: Payment)
    ensures p.status == Pending && p.subscriptionId.None?
    ensures p.userId == userId && p.paymentType == t && p.paymentMethod == m
    ensures p.amountCents == amountCents && p.currency == currency && p.description == description
    ensures p.paypalPaymentId.None? && p.paypalOrderId.None?
    ensures p.processedAt.None? && p.failedAt.None? && p.failureReason.None?
    ensures p.refundedAt.None? && p.refundAmountCents.None?
  {
    Payment(userId, None, None, None, t, m, Pending, amountCents, currency, description,
            None, None, None, None, None)
  }

  /** The seven-argument constructor: the six-argument one, then the
      subscription id (which may itself be null). */
  function NewSubscriptionPayment(userId: Id, subscriptionId: Option<Id>, t: PaymentType, m: PaymentMethod,
                                  amountCents: int, currency: string, description: Option<string>): (p: Payment)
    ensures p.subscriptionId == subscriptionId
    ensures p.(subscriptionId := None) == NewPayment(userId, t, m, amountCents, currency, description)
  {
    NewPayment(userId, t, m, amountCents, currency, description).(subscriptionId := subscriptionId)
  }

  /** `markAsProcessing`: PROCESSING with the PayPal order id. */
  function MarkAsProcessing(p: Payment, orderId: Option<string>): (r: Payment)
    ensures r.status == Processing && r.paypalOrderId == orderId
    ensures r.(status := p.status, paypalOrderId := p.paypalOrderId) == p
  {
    p.(paypalOrderId := orderId, status := Processing)
  }

  /** `markAsCompleted`: COMPLETED with the PayPal payment id, processed
      now. */
  function MarkAsCompleted(p: Payment, paypalPaymentId: Option<string>, now: Instant): (r: Payment)
    ensures r.status == Completed && r.paypalPaymentId == paypalPaymentId && r.processedAt == Some(now)
    ensures r.(status := p.status, paypalPaymentId := p.paypalPaymentId, processedAt := p.processedAt) == p
  {
    p.(paypalPaymentId := paypalPaymentId, status := Completed, processedAt := Some(now))
  }

  /** `markAsFailed`: FAILED with the reason, failed now. */
  function MarkAsFailed(p: Payment, reason: Option<string>, now: Instant): (r: Payment)
    ensures r.status == Failed && r.failureReason == reason && r.failedAt == Some(now)
    ensures r.(status := p.status, failureReason := p.failureReason, failedAt := p.failedAt) == p
  {
    p.(status := Failed, failedAt := Some(now), failureReason := reason)
  }

  /** `markAsRefunded`: REFUNDED with the amount, refunded now. */
  function MarkAsRefunded(p: Payment, amountCents: Option<int>, now: Instant): (r: Payment)
    ensures r.status == Refunded && r.refundAmountCents == amountCents && r.refundedAt == Some(now)
    ensures r.(status := p.status, refundAmountCents := p.refundAmountCents, refundedAt := p.refundedAt) == p
  {
    p.(status := Refunded, refundedAt := Some(now), refundAmountCents := amountCents)
  }

  /** `cancel`: CANCELED, nothing else. */
  function CancelPayment(p: Payment): (r: Payment)
    ensures r.status == Canceled && r.(status := p.status) == p
  {
    p.(status := Canceled)
  }

  /** `canBeRefunded`: completed and never refunded before. */
  predicate CanBeRefunded(p: Payment) {
    p.status == Completed && p.refundedAt.None?
  }

  predicate IsCompleted(p: Payment) {
    p.status == Completed
  }

  /** `refundPayment` on a found payment: refunded when it can be, left
      exactly as it was otherwise. */
  function Refund(p: Payment, amountCents: Option<int>, now: Instant): (r: Payment)
    ensures CanBeRefunded(p) ==> r == MarkAsRefunded(p, amountCents, now)
    ensures !CanBeRefunded(p) ==> r == p
  {
    if CanBeRefunded(p) then MarkAsRefunded(p, amountCents, now) else p
  }

  /** `refundPayment(paymentId, amount)`: nothing for an unknown id;
      otherwise the guarded refund, saved. */
  function RefundPayment(store: PaymentStore, id: Id, amountCents: Option<int>, now: Instant): (r: PaymentStore)
    ensures id !in store ==> r == store
    ensures id in store && !CanBeRefunded(store[id]) ==> r == store
    ensures id in store && CanBeRefunded(store[id]) ==>
      r == store[id := MarkAsRefunded(store[id], amountCents, now)]
  {
    if id !in store then store else store[id := Refund(store[id], amountCents, now)]
  }

  // ---------------------------------------------------------------------
  // properties
  // ---------------------------------------------------------------------

  /** One operation on a payment. */
  datatype Step =
    | Process(orderId: Option<string>)
    | Complete(paypalPaymentId: Option<string>)
    | Fail(reason: Option<string>)
    | RefundStep(amountCents: Option<int>)
    | CancelStep

  function Apply(p: Payment, step: Step, now: Instant): Payment {
    match step
    case Process(o) => MarkAsProcessing(p, o)
    case Complete(id) => MarkAsCompleted(p, id, now)
    case Fail(reason) => MarkAsFailed(p, reason, now)
    case RefundStep(a) => Refund(p, a, now)
    case CancelStep => CancelPayment(p)
  }

  /** The payment after `steps`, the i-th at `times[i]`. */
  function ApplyAll(p: Payment, steps: seq<Step>, times: seq<Instant>): Payment
    requires |steps| == |times|
    decreases |steps|
  {
    if |steps| == 0 then p else ApplyAll(Apply(p, steps[0], times[0]), steps[1..], times[1..])
  }

  /** A refundable payment is a completed one, and the refund guard makes
      refunding idempotent: the second refund changes nothing. */
  lemma RefundOnce(p: Payment, a: Option<int>, b: Option<int>, t1: Instant, t2: Instant)
    ensures CanBeRefunded(p) ==> IsCompleted(p)
    ensures CanBeRefunded(p) ==> !CanBeRefunded(Refund(p, a, t1))
    ensures Refund(Refund(p, a, t1), b, t2) == Refund(p, a, t1)
  {
  }

  /** Once refunded, always refunded: no later sequence of operations,
      not even marking it completed again, makes a payment refundable, so
      a refund is never granted twice and the first refund's record
      stands. */
  lemma {:induction false} RefundIsFinal(p: Payment, steps: seq<Step>, times: seq<Instant>)
    requires |steps| == |times|
    requires p.refundedAt.Some?
    decreases |steps|
    ensures ApplyAll(p, steps, times).refundedAt == p.refundedAt
    ensures ApplyAll(p, steps, times).refundAmountCents == p.refundAmountCents
    ensures !CanBeRefunded(ApplyAll(p, steps, times))
  {
    if |steps| > 0 {
      var q := Apply(p, steps[0], times[0]);
      assert q.refundedAt == p.refundedAt && q.refundAmountCents == p.refundAmountCents;
      RefundIsFinal(q, steps[1..], times[1..]);
    }
  }

  /** The owner, subscription, type, method, amount and currency of a
      payment never change, whatever is done to it. */
  lemma {:induction false} IdentityIsFixed(p: Payment, steps: seq<Step>, times: seq<Instant>)
    requires |steps| == |times|
    decreases |steps|
    ensures var q := ApplyAll(p, steps, times);
            && q.userId == p.userId && q.subscriptionId == p.subscriptionId
            && q.paymentType == p.paymentType && q.paymentMethod == p.paymentMethod
            && q.amountCents == p.amountCents && q.currency == p.currency
  {
    if |steps| > 0 {
      IdentityIsFixed(Apply(p, steps[0], times[0]), steps[1..], times[1..]);
    }
  }

  /** The happy path: a new payment processed and completed can be
      refunded exactly once. */
  lemma {:induction false} ProcessCompleteRefund(userId: Id, t: PaymentType, m: PaymentMethod, amountCents: int,
                                                 currency: string, d: Option<string>, order: Option<string>,
                                                 paypalId: Option<string>, refund: Option<int>,
                                                 t1: Instant, t2: Instant)
    ensures var p := MarkAsCompleted(MarkAsProcessing(NewPayment(userId, t, m, amountCents, currency, d), order), paypalId, t1);
            && IsCompleted(p) && CanBeRefunded(p)
            && Refund(p, refund, t2).status == Refunded
            && Refund(p, refund, t2).refundAmountCents == refund
            && !CanBeRefunded(Refund(p, refund, t2))
  {
  }

  /** Refunding through the service touches at most the one payment. */
  lemma RefundTouchesOnePayment(store: PaymentStore, id: Id, a: Option<int>, now: Instant, other: Id)
    requires other != id && other in store
    ensures other in RefundPayment(store, id, a, now) && RefundPayment(store, id, a, now)[other] == store[other]
    ensures RefundPayment(store, id, a, now).Keys == store.Keys
  {
  }
}

=== FILE: relationship_index.dfy ===
/** The issues service's in-memory relationship index, built only from
    vehicle events: `vehicleManager` (vehicle to the manager who created
    it) and `carrierVehicle` (carrier to the vehicle assigned to them).
    It answers "which manager" and "which vehicle" for a carrier when an
    issue is created. There are exactly these two maps and nothing else.

    Removing a carrier scans `carrierVehicle` in the map's iteration order
    and deletes the first entry pointing at the vehicle. That order is not
    specified by the map, so it is a parameter `scanOrder` here: the keys
    in the order the scan meets them. */
module RelationshipIndex {
  import opened Wrappers
  import opened FleetEvents

  datatype Index = Index(vehicleManager: map<Id, Id>, carrierVehicle: map<Id, Id>)

  /** Everything the consumer can be handed. `NullEvent` is a `null`
      payload, which every handler logs and ignores. */
  datatype Delivery =
    | NullEvent
    | UserCreated
    | UserUpdated
    | VehicleCreated(created: VehicleCreatedEvent)
    | VehicleUpdated(updated: VehicleUpdatedEvent)

  const Empty: Index := Index(map[], map[])

  /** `scanOrder` meets every key of `m` (the iteration visits the whole
      map). */
  predicate CoversKeys(scanOrder: seq<Id>, m: map<Id, Id>) {
    forall k :: k in m ==> k in scanOrder
  }

  /** `getVehicleIdForCarrier`: the carrier's entry, `None` for a null
      carrier or a carrier without entry. */
  function VehicleForCarrier(idx: Index, carrier: Option<Id>): (r: Option<Id>)
    ensures carrier.None? ==> r.None?
    ensures r.Some? <==> carrier.Some? && carrier.value in idx.carrierVehicle
    ensures r.Some? ==> r.value == idx.carrierVehicle[carrier.value]
  {
    if carrier.Some? && carrier.value in idx.carrierVehicle then Some(idx.carrierVehicle[carrier.value]) else None
  }

  /** `getManagerForCarrier`: the manager of the carrier's vehicle; `None`
      when the carrier is null, has no vehicle, or the vehicle has no
      manager. There is no other source of answers. */
  function ManagerForCarrier(idx: Index, carrier: Option<Id>): (r: Option<Id>)
    ensures carrier.None? ==> r.None?
    ensures forall m :: r == Some(m) <==>
      (&& carrier.Some?
       && carrier.value in idx.carrierVehicle
       && idx.carrierVehicle[carrier.value] in idx.vehicleManager
       && idx.vehicleManager[idx.carrierVehicle[carrier.value]] == m)
  {
    match VehicleForCarrier(idx, carrier)
    case None => None
    case Some(v) => if v in idx.vehicleManager then Some(idx.vehicleManager[v]) else None
  }

  /** The carrier-removal scan: walk `scanOrder`, and remove the first
      carrier whose entry points at `vehicle`. */
  function Unassign(cv: map<Id, Id>, vehicle: Id, scanOrder: seq<Id>): (r: map<Id, Id>)
    // at most one entry goes, and it pointed at the vehicle
    ensures r == cv || exists c :: c in cv && cv[c] == vehicle && r == cv - {c}
    // nothing goes when the scan meets no entry for the vehicle
    ensures (forall i :: 0 <= i < |scanOrder| ==> !(scanOrder[i] in cv && cv[scanOrder[i]] == vehicle)) ==> r == cv
    // the first entry the scan meets for the vehicle goes
    ensures forall i :: 0 <= i < |scanOrder| && scanOrder[i] in cv && cv[scanOrder[i]] == vehicle &&
                        (forall j :: 0 <= j < i ==> !(scanOrder[j] in cv && cv[scanOrder[j]] == vehicle))
                        ==> r == cv - {scanOrder[i]}
  {
    if |scanOrder| == 0 then cv
    else if scanOrder[0] in cv && cv[scanOrder[0]] == vehicle then
      var c := scanOrder[0];
      assert c in cv && cv[c] == vehicle;
      cv - {c}
    else
      var r := Unassign(cv, vehicle, scanOrder[1..]);
      assert forall i :: 1 <= i < |scanOrder| ==> scanOrder[i] == scanOrder[1..][i - 1];
      r
  }

  /** `vehicleCreatedEvent`: record the vehicle's manager, overwriting.
      `ConcurrentHashMap.put` rejects a null key or value, so an event
      without vehicle or manager id throws and leaves the index as it
      was. */
  function OnVehicleCreated(idx: Index, e: VehicleCreatedEvent): (r: Index)
    ensures r.carrierVehicle == idx.carrierVehicle
    ensures e.vehicleId.Some? && e.managerId.Some? ==>
              r.vehicleManager == idx.vehicleManager[e.vehicleId.value := e.managerId.value]
    ensures e.vehicleId.None? || e.managerId.None? ==> r == idx
  {
    if e.vehicleId.Some? && e.managerId.Some? then
      idx.(vehicleManager := idx.vehicleManager[e.vehicleId.value := e.managerId.value])
    else idx
  }

  /** `vehicleUpdatedEvent`: a carrier links the carrier to the vehicle
      (overwriting the carrier's previous vehicle); a null carrier means
      "carrier removed" and runs the scan. A null vehicle id with a
      carrier throws in `put`; with no carrier the scan matches nothing. */
  function OnVehicleUpdated(idx: Index, e: VehicleUpdatedEvent, scanOrder: seq<Id>): (r: Index)
    ensures r.vehicleManager == idx.vehicleManager
    ensures e.carrierId.Some? && e.vehicleId.Some? ==>
              r.carrierVehicle == idx.carrierVehicle[e.carrierId.value := e.vehicleId.value]
    ensures e.carrierId.None? && e.vehicleId.Some? ==>
              r.carrierVehicle == Unassign(idx.carrierVehicle, e.vehicleId.value, scanOrder)
    ensures e.vehicleId.None? ==> r == idx
  {
    match (e.vehicleId, e.carrierId)
    case (None, _) => idx
    case (Some(v), Some(c)) => idx.(carrierVehicle := idx.carrierVehicle[c := v])
    case (Some(v), None) => idx.(carrierVehicle := Unassign(idx.carrierVehicle, v, scanOrder))
  }

  /** One delivery. */
  function Apply(idx: Index, d: Delivery, scanOrder: seq<Id>): (r: Index)
    ensures d.NullEvent? || d.UserCreated? || d.UserUpdated? ==> r == idx
    ensures d.VehicleCreated? ==> r == OnVehicleCreated(idx, d.created)
    ensures d.VehicleUpdated? ==> r == OnVehicleUpdated(idx, d.updated, scanOrder)
  {
    match d
    case VehicleCreated(e) => OnVehicleCreated(idx, e)
    case VehicleUpdated(e) => OnVehicleUpdated(idx, e, scanOrder)
    case _ => idx
  }

  function CreatedEvent(v: Id, m: Id): VehicleCreatedEvent {
    VehicleCreatedEvent(Some(v), None, None, None, None, Some(m))
  }

  function AssignedEvent(v: Id, c: Id): VehicleUpdatedEvent {
    VehicleUpdatedEvent(Some(v), None, None, None, None, Some(c))
  }

  function UnassignedEvent(v: Id): VehicleUpdatedEvent {
    VehicleUpdatedEvent(Some(v), None, None, None, None, None)
  }

  // ---------------------------------------------------------------------
  // properties
  // ---------------------------------------------------------------------

  /** A redelivered creation event changes nothing more. */
  lemma VehicleCreatedIdempotent(idx: Index, e: VehicleCreatedEvent, order: seq<Id>)
    ensures Apply(Apply(idx, VehicleCreated(e), order), VehicleCreated(e), order) == Apply(idx, VehicleCreated(e), order)
  {
  }

  /** Creation and update events write different maps, so either arrival
      order gives the same index; and once both arrived, the carrier
      resolves to the creating manager. */
  lemma CreatedAndUpdatedCommute(idx: Index, c: VehicleCreatedEvent, u: VehicleUpdatedEvent, order: seq<Id>)
    ensures Apply(Apply(idx, VehicleCreated(c), order), VehicleUpdated(u), order)
         == Apply(Apply(idx, VehicleUpdated(u), order), VehicleCreated(c), order)
    ensures c.vehicleId.Some? && c.managerId.Some? && u.vehicleId == c.vehicleId && u.carrierId.Some? ==>
      ManagerForCarrier(Apply(Apply(idx, VehicleCreated(c), order), VehicleUpdated(u), order), u.carrierId)
        == c.managerId
  {
  }

  /** Once a vehicle's only carrier is removed, that carrier resolves to
      no manager and no vehicle: there is no fallback. */
  lemma UnassignLeavesNoManager(idx: Index, v: Id, c: Id, order: seq<Id>)
    requires c in idx.carrierVehicle && idx.carrierVehicle[c] == v
    requires forall c' :: c' in idx.carrierVehicle && idx.carrierVehicle[c'] == v ==> c' == c
    requires CoversKeys(order, idx.carrierVehicle)
    ensures ManagerForCarrier(Apply(idx, VehicleUpdated(UnassignedEvent(v)), order), Some(c)).None?
    ensures VehicleForCarrier(Apply(idx, VehicleUpdated(UnassignedEvent(v)), order), Some(c)).None?
  {
    var i := FirstMatch(idx.carrierVehicle, v, order, c);
    assert order[i] == c;
  }

  /** The position of the first entry the scan meets for vehicle `v`,
      given that carrier `c` points at it and the scan covers the map. */
  lemma FirstMatch(cv: map<Id, Id>, v: Id, order: seq<Id>, c: Id) returns (i: nat)
    requires c in cv && cv[c] == v && c in order
    ensures i < |order| && order[i] in cv && cv[order[i]] == v
    ensures forall j :: 0 <= j < i ==> !(order[j] in cv && cv[order[j]] == v)
  {
    i := 0;
    while !(order[i] in cv && cv[order[i]] == v)
      invariant i < |order|
      invariant forall j :: 0 <= j < i ==> !(order[j] in cv && cv[order[j]] == v)
      invariant c in order[i..]
      decreases |order| - i
    {
      assert order[i] != c;
      i := i + 1;
    }
  }

  /** The full story of one carrier: the vehicle is created by manager
      `m`, assigned to carrier `c`, then the carrier is removed. From the
      empty index, `c` first resolves to `m` and afterwards to nothing,
      whatever the scan order. */
  lemma {:induction false} NoFallbackAfterUnassign(v: Id, m: Id, c: Id, order: seq<Id>)
    requires c in order
    ensures var s1 := Apply(Apply(Empty, VehicleCreated(CreatedEvent(v, m)), order), VehicleUpdated(AssignedEvent(v, c)), order);
            && ManagerForCarrier(s1, Some(c)) == Some(m)
            && ManagerForCarrier(Apply(s1, VehicleUpdated(UnassignedEvent(v)), order), Some(c)).None?
  {
    var s1 := Apply(Apply(Empty, VehicleCreated(CreatedEvent(v, m)), order), VehicleUpdated(AssignedEvent(v, c)), order);
    assert s1.carrierVehicle == map[c := v];
    UnassignLeavesNoManager(s1, v, c, order);
  }

  /** Reassigning a carrier to another vehicle overwrites the carrier's
      entry, so the carrier then resolves through the new vehicle. */
  lemma ReassignResolvesThroughNewVehicle(idx: Index, c: Id, v2: Id, order: seq<Id>)
    ensures VehicleForCarrier(Apply(idx, VehicleUpdated(AssignedEvent(v2, c)), order), Some(c)) == Some(v2)
    ensures ManagerForCarrier(Apply(idx, VehicleUpdated(AssignedEvent(v2, c)), order), Some(c))
         == (if v2 in idx.vehicleManager then Some(idx.vehicleManager[v2]) else None)
  {
  }

  /** An event about one vehicle never changes what a carrier of another
      vehicle resolves to. */
  lemma OtherCarriersUnaffected(idx: Index, d: Delivery, order: seq<Id>, c: Id)
    requires c in idx.carrierVehicle
    requires d.VehicleUpdated? ==> d.updated.carrierId != Some(c) && d.updated.vehicleId != Some(idx.carrierVehicle[c])
    requires d.VehicleCreated? ==> d.created.vehicleId != Some(idx.carrierVehicle[c])
    ensures VehicleForCarrier(Apply(idx, d, order), Some(c)) == VehicleForCarrier(idx, Some(c))
    ensures ManagerForCarrier(Apply(idx, d, order), Some(c)) == ManagerForCarrier(idx, Some(c))
  {
  }

  /** Assigning a vehicle that already has a carrier to a second carrier
      adds an entry and leaves the first carrier's entry in place: both
      carriers now resolve to the vehicle's manager. */
  lemma DirectReassignLeavesStaleCarrier(idx: Index, v: Id, c1: Id, c2: Id, order: seq<Id>)
    requires c1 != c2
    requires c1 in idx.carrierVehicle && idx.carrierVehicle[c1] == v
    requires v in idx.vehicleManager
    ensures var s := Apply(idx, VehicleUpdated(AssignedEvent(v, c2)), order);
            ManagerForCarrier(s, Some(c1)) == Some(idx.vehicleManager[v]) &&
            ManagerForCarrier(s, Some(c2)) == Some(idx.vehicleManager[v])
  {
  }
}

=== FILE: service_headers.dfy ===
/** How the issues and vehicles controllers read the identity the gateway
    put on a request: `getUserIdFromRequest` (the `X-User-Id` header as a
    `Long`) and `hasRole` (the `X-User-Roles` header, comma-separated).
    The two controllers carry identical private copies of both helpers. */
module ServiceHeaders {
  import opened Wrappers
  import opened JavaStrings

  /** The two identity headers of an incoming request; `None` when the
      header is absent. */
  datatype Request = Request(userIdHeader: Option<string>, rolesHeader: Option<string>)

  /** The role names the controllers ask `hasRole` about. */
  const ADMIN: string := "ADMIN"
  const MANAGER: string := "MANAGER"
  const CARRIER: string := "CARRIER"

  /** `getUserIdFromRequest(request)`. */
  function UserId(req: Request): Option<Id> {
    UserIdFromHeader(req.userIdHeader)
  }

  /** `hasRole(request, role)`. */
  predicate Has(req: Request, role: string) {
    HasRole(req.rolesHeader, role)
  }

  /** `getUserIdFromRequest`: a missing or empty header, or one
      `Long.valueOf` rejects, gives null; otherwise the parsed number. */
  function UserIdFromHeader(header: Option<string>): (r: Option<Id>)
    ensures header.None? ==> r.None?
    ensures header == Some("") ==> r.None?
    ensures header.Some? && header.value != "" ==> r == ParseLong(header.value)
    ensures r.Some? ==> InLongRange(r.value)
  {
    if header.Some? && header.value != "" then ParseLong(header.value) else None
  }

  /** Whatever number the gateway printed into `X-User-Id` is read back
      unchanged. */
  lemma UserIdHeaderRoundTrip(n: Id)
    requires InLongRange(n)
    ensures UserIdFromHeader(Some(LongToString(n))) == Some(n)
  {
    LongToStringRoundTrip(n);
  }

  /** A header entry as `hasRole` compares it: trimmed, every `ROLE_`
      deleted (case-sensitively), upper-cased. */
  function NormalizeHeldRole(role: string): string {
    ToUpper(RemoveAll(Trim(role), "ROLE_"))
  }

  /** The role asked about, as `hasRole` compares it: every `ROLE_`
      deleted, upper-cased, but not trimmed. */
  function NormalizeAskedRole(role: string): string {
    ToUpper(RemoveAll(role, "ROLE_"))
  }

  /** Whether some entry of `roles` normalises to `target`, scanning left
      to right as the controllers' loop does. */
  function AnyRoleMatches(roles: seq<string>, target: string): (r: bool)
    ensures r <==> exists i :: 0 <= i < |roles| && NormalizeHeldRole(roles[i]) == target
  {
    if |roles| == 0 then false
    else if NormalizeHeldRole(roles[0]) == target then true
    else
      var r := AnyRoleMatches(roles[1..], target);
      assert forall i :: 1 <= i < |roles| ==> roles[i] == roles[1..][i - 1];
      r
  }

  /** `hasRole`: false for a missing or empty `X-User-Roles` header;
      otherwise true iff some comma-separated entry, normalised, equals the
      normalised role asked about. */
  function HasRole(rolesHeader: Option<string>, role: string): (r: bool)
    ensures rolesHeader.None? || rolesHeader == Some("") ==> !r
    ensures r <==> (rolesHeader.Some? && rolesHeader.value != "" &&
                    exists i :: 0 <= i < |Split(rolesHeader.value, ',')| &&
                      NormalizeHeldRole(Split(rolesHeader.value, ',')[i]) == NormalizeAskedRole(role))
  {
    rolesHeader.Some? && rolesHeader.value != "" &&
    AnyRoleMatches(Split(rolesHeader.value, ','), NormalizeAskedRole(role))
  }

  /** The gateway writes the token's role list joined with ","; any role
      in that list that normalises to the role asked about is found again
      by `hasRole`, wherever it sits in the list. */
  lemma JoinedRolesAreFound(roles: seq<string>, k: nat, role: string)
    requires k < |roles|
    requires forall i :: 0 <= i < |roles| ==> ',' !in roles[i]
    requires NormalizeAskedRole(role) != ""
    requires NormalizeHeldRole(roles[k]) == NormalizeAskedRole(role)
    ensures HasRole(Some(Join(roles, ",")), role)
  {
    var header := Join(roles, ",");
    PiecesOfJoin(roles, ',');
    assert Pieces(header, ',') == roles;
    var parts := Split(header, ',');
    assert k < |parts|;
    assert parts[k] == roles[k];
  }
}

=== FILE: shipment.dfy ===
/** The shipment aggregate and its lifecycle: PENDING, ASSIGNED,
    IN_PROGRESS, COMPLETED, CANCELLED. Each guarded operation returns a
    `Result`: `Failure` carries the message of the `IllegalStateException`
    the aggregate throws, and the shipment is then left as it was. The
    clock is the parameter `now`. */
module Shipments {
  import opened Wrappers
  import opened JavaStrings

  datatype ShipmentStatus = Pending | Assigned | InProgress | Completed | Cancelled

  datatype Shipment = Shipment(
    destination: string,
    description: string,
    status: ShipmentStatus,
    scheduledDate: Instant,
    startedDate: Option<Instant>,
    completedDate: Option<Instant>,
    customerName: string,
    customerPhone: string,
    managerId: Id,
    carrierId: Option<Id>)

  datatype CreateShipmentCommand = CreateShipmentCommand(
    destination: string,
    description: string,
    scheduledDate: Instant,
    managerId: Id,
    customerName: string,
    customerPhone: string)

  /** The body of `POST /api/v1/shipments` once its checks passed. */
  datatype CreateShipmentResource = CreateShipmentResource(
    destination: string,
    description: string,
    scheduledDate: Instant,
    customerName: string,
    customerPhone: string)

  /** A body the compact constructor accepted: only such a body reaches
      the controller, since a refused one is answered 400 while the
      request is read. */
  predicate ValidShipmentResource(res: CreateShipmentResource) {
    ValidateCreateShipment(Some(res.destination), Some(res.description), Some(res.scheduledDate),
                           Some(res.customerName), Some(res.customerPhone)).Success?
  }

  /** The record's compact constructor: destination, description,
      scheduled date, customer name and customer phone, checked in that
      order; a text field is refused when null or blank, the date when
      null. */
  function ValidateCreateShipment(destination: Option<string>, description: Option<string>, scheduledDate: Option<Instant>,
                                  customerName: Option<string>, customerPhone: Option<string>)
    : (r: Result<CreateShipmentResource>)
    ensures r.Success? <==>
      Filled(destination) && Filled(description) && scheduledDate.Some? && Filled(customerName) && Filled(customerPhone)
    ensures r.Success? ==>
      r.value == CreateShipmentResource(destination.value, description.value, scheduledDate.value,
                                        customerName.value, customerPhone.value)
    ensures !Filled(destination) ==> r == Failure("Destination cannot be null or blank")
    ensures Filled(destination) && !Filled(description) ==> r == Failure("Description cannot be null or blank")
    ensures Filled(destination) && Filled(description) && scheduledDate.None? ==> r == Failure("Scheduled date cannot be null")
    ensures Filled(destination) && Filled(description) && scheduledDate.Some? && !Filled(customerName)
            ==> r == Failure("Customer name cannot be null or blank")
    ensures Filled(destination) && Filled(description) && scheduledDate.Some? && Filled(customerName) && !Filled(customerPhone)
            ==> r == Failure("Customer phone number cannot be null or blank")
  {
    if !Filled(destination) then Failure("Destination cannot be null or blank")
    else if !Filled(description) then Failure("Description cannot be null or blank")
    else if scheduledDate.None? then Failure("Scheduled date cannot be null")
    else if !Filled(customerName) then Failure("Customer name cannot be null or blank")
    else if !Filled(customerPhone) then Failure("Customer phone number cannot be null or blank")
    else Success(CreateShipmentResource(destination.value, description.value, scheduledDate.value,
                                        customerName.value, customerPhone.value))
  }

  /** `new Shipment(command)`: the command's fields, PENDING, no carrier
      and no dates recorded. */
  function FromCommand(cmd: CreateShipmentCommand): (s: Shipment)
    ensures s.status == Pending && s.carrierId.None?
    ensures s.startedDate.None? && s.completedDate.None?
    ensures s.destination == cmd.destination && s.description == cmd.description
    ensures s.scheduledDate == cmd.scheduledDate && s.managerId == cmd.managerId
    ensures s.customerName == cmd.customerName && s.customerPhone == cmd.customerPhone
  {
    Shipment(cmd.destination, cmd.description, Pending, cmd.scheduledDate, None, None,
             cmd.customerName, cmd.customerPhone, cmd.managerId, None)
  }

  /** `assignCarrier`: sets the carrier whatever the status, and moves
      PENDING to ASSIGNED. */
  function AssignCarrier(s: Shipment, carrier: Id): (r: Shipment)
    ensures r.carrierId == Some(carrier)
    ensures r.status == (if s.status == Pending then Assigned else s.status)
    ensures r.(carrierId := s.carrierId, status := s.status) == s
  {
    s.(carrierId := Some(carrier), status := if s.status == Pending then Assigned else s.status)
  }

  /** `removeCarrier`: clears the carrier whatever the status, and moves
      ASSIGNED back to PENDING. */
  function RemoveCarrier(s: Shipment): (r: Shipment)
    ensures r.carrierId.None?
    ensures r.status == (if s.status == Assigned then Pending else s.status)
    ensures r.(carrierId := s.carrierId, status := s.status) == s
  {
    s.(carrierId := None, status := if s.status == Assigned then Pending else s.status)
  }

  /** `startShipment`: only from PENDING or ASSIGNED, only with a carrier;
      the start date is set to `now` even if one was recorded before. */
  function StartShipment(s: Shipment, now: Instant): (r: Result<Shipment>)
    ensures r.Success? <==> (s.status == Pending || s.status == Assigned) && s.carrierId.Some?
    ensures s.status != Pending && s.status != Assigned ==>
            r == Failure("Cannot start shipment that is not in PENDING or ASSIGNED status")
    ensures r.Success? ==> r.value == s.(status := InProgress, startedDate := Some(now))
  {
    if s.status != Pending && s.status != Assigned then
      Failure("Cannot start shipment that is not in PENDING or ASSIGNED status")
    else if s.carrierId.None? then
      Failure("Cannot start shipment without an assigned carrier")
    else
      Success(s.(status := InProgress, startedDate := Some(now)))
  }

  /** `completeShipment`: only from IN_PROGRESS; the completion date is
      set to `now`. */
  function CompleteShipment(s: Shipment, now: Instant): (r: Result<Shipment>)
    ensures r.Success? <==> s.status == InProgress
    ensures r.Success? ==> r.value == s.(status := Completed, completedDate := Some(now))
  {
    if s.status != InProgress then Failure("Cannot complete shipment that is not in IN_PROGRESS status")
    else Success(s.(status := Completed, completedDate := Some(now)))
  }

  /** `cancelShipment`: from anything but COMPLETED, cancelled shipments
      included. */
  function CancelShipment(s: Shipment): (r: Result<Shipment>)
    ensures r.Success? <==> s.status != Completed
    ensures r.Success? ==> r.value == s.(status := Cancelled)
  {
    if s.status == Completed then Failure("Cannot cancel a shipment that is already completed")
    else Success(s.(status := Cancelled))
  }

  /** The moves `changeStatus` permits, as a table of (from, to) pairs:
      every status to itself, PENDING to ASSIGNED or CANCELLED, ASSIGNED
      to IN_PROGRESS, PENDING or CANCELLED, IN_PROGRESS to COMPLETED or
      CANCELLED; nothing leaves COMPLETED or CANCELLED. */
  const TRANSITIONS: set<(ShipmentStatus, ShipmentStatus)> := {
    (Pending, Pending), (Pending, Assigned), (Pending, Cancelled),
    (Assigned, Assigned), (Assigned, InProgress), (Assigned, Pending), (Assigned, Cancelled),
    (InProgress, InProgress), (InProgress, Completed), (InProgress, Cancelled),
    (Completed, Completed),
    (Cancelled, Cancelled)
  }

  /** A move `changeStatus` lets through: in the table, and not ASSIGNED
      to PENDING while a carrier is set. */
  predicate Permitted(s: Shipment, to: ShipmentStatus) {
    (s.status, to) in TRANSITIONS && !(s.status == Assigned && to == Pending && s.carrierId.Some?)
  }

  /** The table, read row by row as the switch in `changeStatus` reads
      it. */
  predicate RowAllows(from: ShipmentStatus, to: ShipmentStatus) {
    match from
    case Pending => to == Pending || to == Assigned || to == Cancelled
    case Assigned => to != Completed
    case InProgress => to == InProgress || to == Completed || to == Cancelled
    case Completed => to == Completed
    case Cancelled => to == Cancelled
  }

  /** The row-by-row reading is the table. */
  lemma {:induction false} TableRows(from: ShipmentStatus, to: ShipmentStatus)
    ensures (from, to) in TRANSITIONS <==> RowAllows(from, to)
  {
    match from {
      case Pending => {
        match to {
          case Pending =>
          case Assigned =>
          case InProgress => assert (Pending, InProgress) !in TRANSITIONS;
          case Completed => assert (Pending, Completed) !in TRANSITIONS;
          case Cancelled =>
        }
      }
      case Assigned => {
        match to {
          case Pending =>
          case Assigned =>
          case InProgress =>
          case Completed => assert (Assigned, Completed) !in TRANSITIONS;
          case Cancelled =>
        }
      }
      case InProgress => {
        match to {
          case Pending => assert (InProgress, Pending) !in TRANSITIONS;
          case Assigned => assert (InProgress, Assigned) !in TRANSITIONS;
          case InProgress =>
          case Completed =>
          case Cancelled =>
        }
      }
      case Completed => {
        match to {
          case Pending => assert (Completed, Pending) !in TRANSITIONS;
          case Assigned => assert (Completed, Assigned) !in TRANSITIONS;
          case InProgress => assert (Completed, InProgress) !in TRANSITIONS;
          case Completed =>
          case Cancelled => assert (Completed, Cancelled) !in TRANSITIONS;
        }
      }
      case Cancelled => {
        match to {
          case Pending => assert (Cancelled, Pending) !in TRANSITIONS;
          case Assigned => assert (Cancelled, Assigned) !in TRANSITIONS;
          case InProgress => assert (Cancelled, InProgress) !in TRANSITIONS;
          case Completed => assert (Cancelled, Completed) !in TRANSITIONS;
          case Cancelled =>
        }
      }
    }
  }

  // The messages `changeStatus` throws.
  const FROM_PENDING: string := "From PENDING state, shipment can only transition to ASSIGNED or CANCELLED"
  const FROM_ASSIGNED: string := "From ASSIGNED state, shipment can only transition to IN_PROGRESS, PENDING or CANCELLED"
  const CARRIER_STILL_SET: string := "Cannot change status from ASSIGNED to PENDING without removing carrier"
  const FROM_IN_PROGRESS: string := "From IN_PROGRESS state, shipment can only transition to COMPLETED or CANCELLED"
  const FROM_COMPLETED: string := "Cannot change status of a COMPLETED shipment"
  const FROM_CANCELLED: string := "Cannot change status of a CANCELLED shipment"

  /** The switch at the head of `changeStatus`: the message it throws, or
      `None` when it lets the move through. */
  function Refusal(s: Shipment, to: ShipmentStatus): (r: Option<string>)
    ensures r.None? <==> RowAllows(s.status, to) && !(s.status == Assigned && to == Pending && s.carrierId.Some?)
  {
    match s.status
    case Pending =>
      if to != Pending && to != Assigned && to != Cancelled then
        Some(FROM_PENDING)
      else None
    case Assigned =>
      if to != Assigned && to != InProgress && to != Pending && to != Cancelled then
        Some(FROM_ASSIGNED)
      else if to == Pending && s.carrierId.Some? then
        Some(CARRIER_STILL_SET)
      else None
    case InProgress =>
      if to != InProgress && to != Completed && to != Cancelled then
        Some(FROM_IN_PROGRESS)
      else None
    case Completed =>
      if to != Completed then Some(FROM_COMPLETED) else None
    case Cancelled =>
      if to != Cancelled then Some(FROM_CANCELLED) else None
  }

  /** `changeStatus`: refused unless permitted; then the start date is set
      on entering IN_PROGRESS and the completion date on entering
      COMPLETED, each only if none was recorded. */
  function ChangeStatus(s: Shipment, to: ShipmentStatus, now: Instant): (r: Result<Shipment>)
    ensures r.Success? <==> Permitted(s, to)
    ensures r.Failure? ==> r.error == Refusal(s, to).value
    ensures r.Success? ==> r.value.status == to
    ensures r.Success? ==> r.value.startedDate == (if to == InProgress && s.startedDate.None? then Some(now) else s.startedDate)
    ensures r.Success? ==> r.value.completedDate == (if to == Completed && s.completedDate.None? then Some(now) else s.completedDate)
    ensures r.Success? ==> r.value.(status := s.status, startedDate := s.startedDate, completedDate := s.completedDate) == s
  {
    TableRows(s.status, to);
    var refusal := Refusal(s, to);
    if refusal.Some? then Failure(refusal.value)
    else
      var started := if to == InProgress && s.startedDate.None? then Some(now) else s.startedDate;
      var completed := if to == Completed && s.completedDate.None? then Some(now) else s.completedDate;
      Success(s.(startedDate := started, completedDate := completed, status := to))
  }

  // ---------------------------------------------------------------------
  // invariants and properties
  // ---------------------------------------------------------------------

  /** What every reachable shipment satisfies: a PENDING shipment has no
      carrier, a started or completed one has a start date, a completed
      one a completion date. */
  predicate Coherent(s: Shipment) {
    && (s.status == Pending ==> s.carrierId.None?)
    && (s.status == InProgress || s.status == Completed ==> s.startedDate.Some?)
    && (s.status == Completed ==> s.completedDate.Some?)
  }

  /** How far along the lifecycle a status is. */
  function Stage(status: ShipmentStatus): nat {
    match status
    case Pending => 0
    case Assigned => 0
    case InProgress => 1
    case Completed => 2
    case Cancelled => 2
  }

  /** Setting or clearing the carrier keeps coherence and the stage. */
  lemma CarrierChangesKeepCoherence(s: Shipment, c: Id)
    requires Coherent(s)
    ensures Coherent(AssignCarrier(s, c)) && Stage(AssignCarrier(s, c).status) == Stage(s.status)
    ensures Coherent(RemoveCarrier(s)) && Stage(RemoveCarrier(s).status) == Stage(s.status)
  {
    var a := AssignCarrier(s, c);
    assert a.startedDate == a.(carrierId := s.carrierId, status := s.status).startedDate == s.startedDate;
    assert a.completedDate == a.(carrierId := s.carrierId, status := s.status).completedDate == s.completedDate;
    var u := RemoveCarrier(s);
    assert u.startedDate == u.(carrierId := s.carrierId, status := s.status).startedDate == s.startedDate;
    assert u.completedDate == u.(carrierId := s.carrierId, status := s.status).completedDate == s.completedDate;
  }

  /** A new shipment is coherent, and the carrier and lifecycle
      operations keep coherence and never move a shipment back to an
      earlier stage. */
  lemma OperationsKeepCoherence(s: Shipment, cmd: CreateShipmentCommand, c: Id, now: Instant)
    requires Coherent(s)
    ensures Coherent(FromCommand(cmd))
    ensures Coherent(AssignCarrier(s, c)) && Stage(AssignCarrier(s, c).status) == Stage(s.status)
    ensures Coherent(RemoveCarrier(s)) && Stage(RemoveCarrier(s).status) == Stage(s.status)
    ensures StartShipment(s, now).Success? ==>
              Coherent(StartShipment(s, now).value) && Stage(StartShipment(s, now).value.status) > Stage(s.status)
    ensures CompleteShipment(s, now).Success? ==>
              Coherent(CompleteShipment(s, now).value) && Stage(CompleteShipment(s, now).value.status) > Stage(s.status)
    ensures CancelShipment(s).Success? ==>
              Coherent(CancelShipment(s).value) && Stage(CancelShipment(s).value.status) >= Stage(s.status)
  {
    CarrierChangesKeepCoherence(s, c);
  }

  /** `changeStatus` keeps coherence and never moves a shipment back to
      an earlier stage either. */
  lemma {:induction false} ChangeStatusKeepsCoherence(s: Shipment, to: ShipmentStatus, now: Instant)
    requires Coherent(s)
    ensures ChangeStatus(s, to, now).Success? ==>
              Coherent(ChangeStatus(s, to, now).value) && Stage(ChangeStatus(s, to, now).value.status) >= Stage(s.status)
  {
    TableRows(s.status, to);
  }

  /** COMPLETED and CANCELLED are terminal: no operation moves a shipment
      out of them (a carrier can still be set or cleared). */
  lemma TerminalStatesAreFinal(s: Shipment, c: Id, to: ShipmentStatus, now: Instant)
    requires s.status == Completed || s.status == Cancelled
    ensures AssignCarrier(s, c).status == s.status && RemoveCarrier(s).status == s.status
    ensures StartShipment(s, now).Failure? && CompleteShipment(s, now).Failure?
    ensures CancelShipment(s).Success? ==> s.status == Cancelled
    ensures ChangeStatus(s, to, now).Success? ==> to == s.status
  {
    TableRows(s.status, to);
  }

  /** A coherent PENDING shipment has no carrier, so it can never be
      started directly: starting succeeds only from ASSIGNED. */
  lemma StartOnlyFromAssigned(s: Shipment, now: Instant)
    requires Coherent(s)
    ensures StartShipment(s, now).Success? ==> s.status == Assigned
  {
  }

  /** `changeStatus` can mark a shipment ASSIGNED that has no carrier;
      such a shipment then cannot be started. */
  lemma AssignedWithoutCarrier(cmd: CreateShipmentCommand, now: Instant)
    ensures var s := ChangeStatus(FromCommand(cmd), Assigned, now);
            && s.Success? && s.value.status == Assigned && s.value.carrierId.None?
            && StartShipment(s.value, now) == Failure("Cannot start shipment without an assigned carrier")
  {
  }

  /** The happy path: create, assign a carrier, start, complete. Each
      date is the clock value at its step. */
  lemma {:induction false} HappyPath(cmd: CreateShipmentCommand, c: Id, t1: Instant, t2: Instant)
    ensures var s1 := AssignCarrier(FromCommand(cmd), c);
            var s2 := StartShipment(s1, t1);
            && s1.status == Assigned && s2.Success?
            && var s3 := CompleteShipment(s2.value, t2);
               && s3.Success? && s3.value.status == Completed
               && s3.value.startedDate == Some(t1) && s3.value.completedDate == Some(t2)
               && s3.value.carrierId == Some(c)
  {
  }

  /** Starting twice is impossible, but `changeStatus` to IN_PROGRESS
      keeps the recorded start date where `startShipment` would have
      overwritten it. */
  lemma ChangeStatusKeepsStartDate(s: Shipment, now: Instant)
    requires s.status == InProgress && s.startedDate.Some?
    ensures ChangeStatus(s, InProgress, now) == Success(s)
    ensures StartShipment(s, now).Failure?
  {
  }
}

=== FILE: shipment_service.dfy ===
/** The shipment command service: each handler loads the shipment, runs
    the aggregate operation, saves and publishes an event. A handler on
    an unknown id answers `Missing` and publishes nothing; an aggregate
    guard that throws answers `Refused` with its message, saves nothing
    and publishes nothing. */
module ShipmentService {
  import opened Wrappers
  import opened Shipments

  type ShipmentStore = map<Id, Shipment>

  /** Published after a shipment is saved: the saved shipment's fields. */
  datatype ShipmentCreatedEvent = ShipmentCreatedEvent(
    shipmentId: Id,
    destination: string,
    description: string,
    status: ShipmentStatus,
    scheduledDate: Instant,
    managerId: Id,
    customerName: string,
    customerPhone: string)

  /** Published after a change; a field is `None` when the operation did
      not report it, and `carrierId` is also `None` when the carrier was
      removed. */
  datatype ShipmentUpdatedEvent = ShipmentUpdatedEvent(
    shipmentId: Id,
    destination: Option<string>,
    description: Option<string>,
    status: Option<ShipmentStatus>,
    scheduledDate: Option<Instant>,
    carrierId: Option<Id>,
    customerName: Option<string>,
    customerPhone: Option<string>)

  /** A partial update: a `None` field keeps the stored value. */
  datatype UpdateShipmentCommand = UpdateShipmentCommand(
    destination: Option<string>,
    description: Option<string>,
    scheduledDate: Option<Instant>,
    customerName: Option<string>,
    customerPhone: Option<string>)

  datatype Created = Created(store: ShipmentStore, shipmentId: Id, shipment: Shipment, event: ShipmentCreatedEvent)

  datatype Handled =
    | Missing
    | Refused(reason: string)
    | Done(store: ShipmentStore, shipment: Shipment, event: ShipmentUpdatedEvent)

  datatype Deleted = Deleted(store: ShipmentStore, deleted: bool)

  /** The event of an operation that reports a status and, possibly, a
      carrier, and nothing else. */
  function StatusEvent(id: Id, status: ShipmentStatus, carrier: Option<Id>): ShipmentUpdatedEvent {
    ShipmentUpdatedEvent(id, None, None, Some(status), None, carrier, None, None)
  }

  /** Save the aggregate's answer under `id` and publish `event`, or
      report its refusal. */
  function Commit(store: ShipmentStore, id: Id, step: Result<Shipment>, event: ShipmentUpdatedEvent): (r: Handled)
    ensures step.Failure? ==> r == Refused(step.error)
    ensures step.Success? ==> r == Done(store[id := step.value], step.value, event)
  {
    match step
    case Failure(e) => Refused(e)
    case Success(s) => Done(store[id := s], s, event)
  }

  /** `handle(CreateShipmentCommand)`. */
  function Create(store: ShipmentStore, cmd: CreateShipmentCommand, freshId: Id): (r: Created)
    requires freshId !in store
    ensures r.shipmentId == freshId && r.shipment == FromCommand(cmd)
    ensures r.store == store[freshId := r.shipment]
    ensures r.event == ShipmentCreatedEvent(freshId, cmd.destination, cmd.description, Pending, cmd.scheduledDate,
                                            cmd.managerId, cmd.customerName, cmd.customerPhone)
  {
    var s := FromCommand(cmd);
    Created(store[freshId := s], freshId, s,
            ShipmentCreatedEvent(freshId, s.destination, s.description, s.status, s.scheduledDate,
                                 s.managerId, s.customerName, s.customerPhone))
  }

  /** The setters the update calls, each only for a non-null field. */
  function ApplyUpdate(s: Shipment, cmd: UpdateShipmentCommand): (r: Shipment)
    ensures r.destination == cmd.destination.GetOr(s.destination)
    ensures r.description == cmd.description.GetOr(s.description)
    ensures r.scheduledDate == cmd.scheduledDate.GetOr(s.scheduledDate)
    ensures r.customerName == cmd.customerName.GetOr(s.customerName)
    ensures r.customerPhone == cmd.customerPhone.GetOr(s.customerPhone)
    ensures r.(destination := s.destination, description := s.description, scheduledDate := s.scheduledDate,
               customerName := s.customerName, customerPhone := s.customerPhone) == s
  {
    var s1 := if cmd.destination.Some? then s.(destination := cmd.destination.value) else s;
    var s2 := if cmd.description.Some? then s1.(description := cmd.description.value) else s1;
    var s3 := if cmd.scheduledDate.Some? then s2.(scheduledDate := cmd.scheduledDate.value) else s2;
    var s4 := if cmd.customerName.Some? then s3.(customerName := cmd.customerName.value) else s3;
    if cmd.customerPhone.Some? then s4.(customerPhone := cmd.customerPhone.value) else s4
  }

  /** `handle(shipmentId, UpdateShipmentCommand)`: the event repeats the
      command's fields, with no status and no carrier. */
  function Update(store: ShipmentStore, id: Id, cmd: UpdateShipmentCommand): (r: Handled)
    ensures id !in store ==> r == Missing
    ensures id in store ==> r.Done? && r.shipment == ApplyUpdate(store[id], cmd) && r.store == store[id := r.shipment]
    ensures r.Done? ==>
      r.event == ShipmentUpdatedEvent(id, cmd.destination, cmd.description, None, cmd.scheduledDate, None,
                                      cmd.customerName, cmd.customerPhone)
  {
    if id !in store then Missing
    else Commit(store, id, Success(ApplyUpdate(store[id], cmd)),
                ShipmentUpdatedEvent(id, cmd.destination, cmd.description, None, cmd.scheduledDate, None,
                                     cmd.customerName, cmd.customerPhone))
  }

  /** `assignCarrier`: the event reports the carrier and the status after
      the assignment. */
  function Assign(store: ShipmentStore, id: Id, carrier: Id): (r: Handled)
    ensures id !in store ==> r == Missing
    ensures id in store ==>
      && r.Done? && r.shipment == AssignCarrier(store[id], carrier) && r.store == store[id := r.shipment]
      && r.event == StatusEvent(id, r.shipment.status, Some(carrier))
  {
    if id !in store then Missing
    else
      var s := AssignCarrier(store[id], carrier);
      Commit(store, id, Success(s), StatusEvent(id, s.status, Some(carrier)))
  }

  /** `removeCarrier`: the event reports the status after the removal and
      a null carrier. */
  function Unassign(store: ShipmentStore, id: Id): (r: Handled)
    ensures id !in store ==> r == Missing
    ensures id in store ==>
      && r.Done? && r.shipment == RemoveCarrier(store[id]) && r.store == store[id := r.shipment]
      && r.event == StatusEvent(id, r.shipment.status, None)
  {
    if id !in store then Missing
    else
      var s := RemoveCarrier(store[id]);
      Commit(store, id, Success(s), StatusEvent(id, s.status, None))
  }

  /** `updateStatus`: the event reports the requested status. */
  function UpdateStatus(store: ShipmentStore, id: Id, status: ShipmentStatus, now: Instant): (r: Handled)
    ensures id !in store ==> r == Missing
    ensures id in store ==> (r.Done? <==> Permitted(store[id], status))
    ensures id in store && !Permitted(store[id], status) ==> r == Refused(ChangeStatus(store[id], status, now).error)
    ensures r.Done? ==> r.shipment.status == status && r.store == store[id := r.shipment]
                        && r.event == StatusEvent(id, status, None)
  {
    if id !in store then Missing
    else Commit(store, id, ChangeStatus(store[id], status, now), StatusEvent(id, status, None))
  }

  /** `startShipment`: IN_PROGRESS is announced only once the guard
      passed. */
  function Start(store: ShipmentStore, id: Id, now: Instant): (r: Handled)
    ensures id !in store ==> r == Missing
    ensures id in store ==>
      (r.Done? <==> (store[id].status == Pending || store[id].status == Assigned) && store[id].carrierId.Some?)
    ensures r.Done? ==> r.shipment.status == InProgress && r.store == store[id := r.shipment]
                        && r.event == StatusEvent(id, InProgress, None)
  {
    if id !in store then Missing
    else Commit(store, id, StartShipment(store[id], now), StatusEvent(id, InProgress, None))
  }

  /** `completeShipment`. */
  function Complete(store: ShipmentStore, id: Id, now: Instant): (r: Handled)
    ensures id !in store ==> r == Missing
    ensures id in store ==> (r.Done? <==> store[id].status == InProgress)
    ensures r.Done? ==> r.shipment.status == Completed && r.store == store[id := r.shipment]
                        && r.event == StatusEvent(id, Completed, None)
  {
    if id !in store then Missing
    else Commit(store, id, CompleteShipment(store[id], now), StatusEvent(id, Completed, None))
  }

  /** `cancelShipment`. */
  function Cancel(store: ShipmentStore, id: Id): (r: Handled)
    ensures id !in store ==> r == Missing
    ensures id in store ==> (r.Done? <==> store[id].status != Completed)
    ensures r.Done? ==> r.shipment.status == Cancelled && r.store == store[id := r.shipment]
                        && r.event == StatusEvent(id, Cancelled, None)
  {
    if id !in store then Missing
    else Commit(store, id, CancelShipment(store[id]), StatusEvent(id, Cancelled, None))
  }

  /** `deleteShipment`: true exactly when the id existed, which is then
      removed. */
  function Delete(store: ShipmentStore, id: Id): (r: Deleted)
    ensures r.deleted <==> id in store
    ensures r.store == store - {id}
  {
    Deleted(store - {id}, id in store)
  }

  // ---------------------------------------------------------------------
  // properties
  // ---------------------------------------------------------------------

  /** Only assignment publishes a carrier; every other update-style event
      has a null carrier, removal included. */
  lemma OnlyAssignPublishesACarrier(store: ShipmentStore, id: Id, cmd: UpdateShipmentCommand, status: ShipmentStatus,
                                    now: Instant, c: Id)
    requires id in store
    ensures Assign(store, id, c).event.carrierId == Some(c)
    ensures Update(store, id, cmd).event.carrierId.None?
    ensures Unassign(store, id).event.carrierId.None?
    ensures UpdateStatus(store, id, status, now).Done? ==> UpdateStatus(store, id, status, now).event.carrierId.None?
    ensures Start(store, id, now).Done? ==> Start(store, id, now).event.carrierId.None?
    ensures Complete(store, id, now).Done? ==> Complete(store, id, now).event.carrierId.None?
    ensures Cancel(store, id).Done? ==> Cancel(store, id).event.carrierId.None?
  {
  }

  /** Every shipment in the store is coherent. */
  predicate AllCoherent(store: ShipmentStore) {
    forall k :: k in store ==> Coherent(store[k])
  }

  /** Whether a handler's outcome leaves a store whose shipments are all
      coherent (trivially so when nothing was saved). */
  predicate KeepsCoherence(r: Handled) {
    r.Done? ==> AllCoherent(r.store)
  }

  /** Every handler keeps every stored shipment coherent. */
  lemma {:induction false} HandlersKeepCoherence(store: ShipmentStore, id: Id, cmd: UpdateShipmentCommand, c: Id,
                                                 now: Instant)
    requires AllCoherent(store)
    ensures KeepsCoherence(Update(store, id, cmd))
    ensures KeepsCoherence(Assign(store, id, c))
    ensures KeepsCoherence(Unassign(store, id))
    ensures KeepsCoherence(Start(store, id, now))
    ensures KeepsCoherence(Complete(store, id, now))
    ensures KeepsCoherence(Cancel(store, id))
  {
    if id in store {
      var s := store[id];
      OperationsKeepCoherence(s, CreateShipmentCommand("", "", 0, 0, "", ""), c, now);
      StoreKeepsCoherence(store, id, ApplyUpdate(s, cmd));
      StoreKeepsCoherence(store, id, AssignCarrier(s, c));
      StoreKeepsCoherence(store, id, RemoveCarrier(s));
      if StartShipment(s, now).Success? {
        StoreKeepsCoherence(store, id, StartShipment(s, now).value);
      }
      if CompleteShipment(s, now).Success? {
        StoreKeepsCoherence(store, id, CompleteShipment(s, now).value);
      }
      if CancelShipment(s).Success? {
        StoreKeepsCoherence(store, id, CancelShipment(s).value);
      }
    }
  }

  /** So does the status update. */
  lemma {:induction false} StatusUpdateKeepsCoherence(store: ShipmentStore, id: Id, status: ShipmentStatus, now: Instant)
    requires AllCoherent(store)
    ensures KeepsCoherence(UpdateStatus(store, id, status, now))
  {
    if id in store && Permitted(store[id], status) {
      ChangeStatusKeepsCoherence(store[id], status, now);
      StoreKeepsCoherence(store, id, ChangeStatus(store[id], status, now).value);
    }
  }

  /** Storing a coherent shipment keeps the store coherent. */
  lemma StoreKeepsCoherence(store: ShipmentStore, id: Id, s: Shipment)
    requires AllCoherent(store) && Coherent(s)
    ensures AllCoherent(store[id := s])
  {
  }

  /** A created shipment is coherent, so a store built by these handlers
      only ever holds coherent shipments. */
  lemma CreateKeepsCoherence(store: ShipmentStore, cmd: CreateShipmentCommand, freshId: Id)
    requires AllCoherent(store) && freshId !in store
    ensures AllCoherent(Create(store, cmd, freshId).store)
  {
  }
}

=== FILE: shipments_controller.dfy ===
/** The shipment endpoints. Unlike the issues and vehicles controllers,
    this one learns who is calling from the security context and the IAM
    facade rather than from gateway headers: `getCurrentUserId` answers 0
    when nobody is authenticated, and `hasRole` asks IAM for the user's
    exact role names. Each endpoint is a function from the caller and the
    store to the HTTP status and what it answers or changed. */
module ShipmentsController {
  import opened Wrappers
  import opened Shipments
  import opened ShipmentService
  import opened Http

  /** The caller as the controller sees it: the id `getCurrentUserId`
      returns (0 for an unauthenticated request) and the role names IAM
      holds for that user (none when IAM knows no such user). */
  datatype Caller = Caller(userId: Id, roles: set<string>)

  /** The role names the controller asks IAM about, compared exactly. */
  const ROLE_ADMIN: string := "ROLE_ADMIN"
  const ROLE_MANAGER: string := "ROLE_MANAGER"
  const ROLE_CARRIER: string := "ROLE_CARRIER"

  datatype CreateReply = CreateReply(status: int, store: ShipmentStore, shipment: Option<Shipment>,
                                     event: Option<ShipmentCreatedEvent>)

  /** A single-shipment answer: the status, the store afterwards, the
      shipment in the body and the event published, if any. */
  datatype Reply = Reply(status: int, store: ShipmentStore, shipment: Option<Shipment>,
                         event: Option<ShipmentUpdatedEvent>)

  datatype DeleteReply = DeleteReply(status: int, store: ShipmentStore)

  /** `hasRole(userId, role)`. */
  predicate HasRole(caller: Caller, role: string) {
    role in caller.roles
  }

  /** `findByManagerId`. */
  function ManagedBy(store: ShipmentStore, manager: Id): set<Id> {
    set id | id in store && store[id].managerId == manager
  }

  /** `findByCarrierId`. */
  function CarriedBy(store: ShipmentStore, carrier: Id): set<Id> {
    set id | id in store && store[id].carrierId == Some(carrier)
  }

  /** `canAccessShipment`: an authenticated admin, or a manager who owns
      the shipment, or a carrier the shipment is assigned to. The
      modifying endpoints pass a null carrier, which shuts carriers out. */
  function CanAccessShipment(caller: Caller, managerId: Id, carrierId: Option<Id>): (r: bool)
    ensures caller.userId == 0 ==> !r
    ensures caller.userId != 0 && HasRole(caller, ROLE_ADMIN) ==> r
    ensures !HasRole(caller, ROLE_ADMIN) ==>
      (r <==> caller.userId != 0 && ((HasRole(caller, ROLE_MANAGER) && managerId == caller.userId) ||
                                     (HasRole(caller, ROLE_CARRIER) && carrierId == Some(caller.userId))))
  {
    if caller.userId == 0 then false
    else if HasRole(caller, ROLE_ADMIN) then true
    else if HasRole(caller, ROLE_MANAGER) && managerId == caller.userId then true
    else HasRole(caller, ROLE_CARRIER) && Is(carrierId, caller.userId)
  }

  /** `createShipment`: 401 when unauthenticated, 403 without the manager
      role; else 201 with a new PENDING shipment owned by the caller. */
  function CreateShipment(caller: Caller, store: ShipmentStore, res: CreateShipmentResource, freshId: Id): (r: CreateReply)
    requires freshId !in store && ValidShipmentResource(res)
    ensures caller.userId == 0 ==> r.status == UNAUTHORIZED
    ensures caller.userId != 0 && !HasRole(caller, ROLE_MANAGER) ==> r.status == FORBIDDEN
    ensures r.status == CREATED <==> caller.userId != 0 && HasRole(caller, ROLE_MANAGER)
    ensures r.status != CREATED ==> r.store == store && r.shipment.None? && r.event.None?
    ensures r.status == CREATED ==>
      && r.shipment.Some? && r.store == store[freshId := r.shipment.value]
      && r.shipment.value.managerId == caller.userId
      && r.shipment.value.status == Pending && r.shipment.value.carrierId.None?
      && r.shipment.value.destination == res.destination && r.shipment.value.scheduledDate == res.scheduledDate
      && r.event.Some? && r.event.value.shipmentId == freshId && r.event.value.managerId == caller.userId
  {
    if caller.userId == 0 then CreateReply(UNAUTHORIZED, store, None, None)
    else if !HasRole(caller, ROLE_MANAGER) then CreateReply(FORBIDDEN, store, None, None)
    else
      var cmd := CreateShipmentCommand(res.destination, res.description, res.scheduledDate, caller.userId,
                                       res.customerName, res.customerPhone);
      var c := ShipmentService.Create(store, cmd, freshId);
      CreateReply(CREATED, c.store, Some(c.shipment), Some(c.event))
  }

  /** `getShipmentById`: 404, then 403 unless the caller may access it
      (a carrier only when assigned), else 200 with the shipment. */
  function GetShipmentById(caller: Caller, store: ShipmentStore, id: Id): (r: Reply)
    ensures r.store == store && r.event.None?
    ensures id !in store ==> r.status == NOT_FOUND
    ensures r.status == OK <==> id in store && CanAccessShipment(caller, store[id].managerId, store[id].carrierId)
    ensures r.status == OK ==> r.shipment == Some(store[id])
    ensures r.status != OK ==> r.shipment.None?
  {
    if id !in store then Reply(NOT_FOUND, store, None, None)
    else if !CanAccessShipment(caller, store[id].managerId, store[id].carrierId) then Reply(FORBIDDEN, store, None, None)
    else Reply(OK, store, Some(store[id]), None)
  }

  /** `getAllShipmentsForManager`: 401, 403 without the manager role,
      else the shipments the caller manages. */
  function GetShipmentsForManager(caller: Caller, store: ShipmentStore): (r: ListReply)
    ensures caller.userId == 0 ==> r.status == UNAUTHORIZED
    ensures caller.userId != 0 && !HasRole(caller, ROLE_MANAGER) ==> r.status == FORBIDDEN
    ensures r.ids != {} ==> r.status == OK
    ensures forall id :: id in r.ids <==>
      caller.userId != 0 && HasRole(caller, ROLE_MANAGER) && id in store && store[id].managerId == caller.userId
  {
    if caller.userId == 0 then ListReply(UNAUTHORIZED, {})
    else if !HasRole(caller, ROLE_MANAGER) then ListReply(FORBIDDEN, {})
    else Listing(ManagedBy(store, caller.userId))
  }

  /** `getAllShipmentsForCarrier`: 401, 403 without the carrier role,
      else the shipments assigned to the caller. */
  function GetShipmentsForCarrier(caller: Caller, store: ShipmentStore): (r: ListReply)
    ensures caller.userId == 0 ==> r.status == UNAUTHORIZED
    ensures caller.userId != 0 && !HasRole(caller, ROLE_CARRIER) ==> r.status == FORBIDDEN
    ensures r.ids != {} ==> r.status == OK
    ensures forall id :: id in r.ids <==>
      caller.userId != 0 && HasRole(caller, ROLE_CARRIER) && id in store && store[id].carrierId == Some(caller.userId)
  {
    if caller.userId == 0 then ListReply(UNAUTHORIZED, {})
    else if !HasRole(caller, ROLE_CARRIER) then ListReply(FORBIDDEN, {})
    else Listing(CarriedBy(store, caller.userId))
  }

  /** `getShipmentsByStatus`: 401 when unauthenticated; otherwise the
      shipments in that status the caller may access, 204 when there are
      none. */
  function GetShipmentsByStatus(caller: Caller, store: ShipmentStore, status: ShipmentStatus): (r: ListReply)
    ensures caller.userId == 0 ==> r.status == UNAUTHORIZED && r.ids == {}
    ensures caller.userId != 0 ==> (r.status == OK <==> r.ids != {}) && (r.status == NO_CONTENT <==> r.ids == {})
    ensures forall id :: id in r.ids ==> id in store && store[id].status == status
    ensures caller.userId != 0 ==>
              forall id :: id in r.ids <==>
                id in store && store[id].status == status &&
                CanAccessShipment(caller, store[id].managerId, store[id].carrierId)
  {
    if caller.userId == 0 then ListReply(UNAUTHORIZED, {})
    else Listing(set id | id in store && store[id].status == status &&
                           CanAccessShipment(caller, store[id].managerId, store[id].carrierId))
  }

  /** The answer of an endpoint that ran a command handler: 404 for an
      unknown id, 500 when the aggregate threw (no exception handler maps
      `IllegalStateException`), else 200 with the saved shipment. */
  function Answer(store: ShipmentStore, h: Handled): (r: Reply)
    ensures h.Missing? ==> r.status == NOT_FOUND && r.store == store
    ensures h.Refused? ==> r.status == INTERNAL_SERVER_ERROR && r.store == store
    ensures h.Done? <==> r.status == OK
    ensures h.Done? ==> r == Reply(OK, h.store, Some(h.shipment), Some(h.event))
    ensures !h.Done? ==> r.shipment.None? && r.event.None?
  {
    match h
    case Missing => Reply(NOT_FOUND, store, None, None)
    case Refused(_) => Reply(INTERNAL_SERVER_ERROR, store, None, None)
    case Done(s, sh, e) => Reply(OK, s, Some(sh), Some(e))
  }

  /** The check the modifying endpoints share: the shipment must exist
      (else 404) and the caller must be an admin or its manager (else
      403); the assigned carrier does not count. */
  function ManagerGate(caller: Caller, store: ShipmentStore, id: Id): (r: Option<int>)
    ensures r.None? <==> id in store && CanAccessShipment(caller, store[id].managerId, None)
    ensures id !in store ==> r == Some(NOT_FOUND)
    ensures id in store && !CanAccessShipment(caller, store[id].managerId, None) ==> r == Some(FORBIDDEN)
  {
    if id !in store then Some(NOT_FOUND)
    else if !CanAccessShipment(caller, store[id].managerId, None) then Some(FORBIDDEN)
    else None
  }

  /** The check of start and complete: the shipment must exist (else 404)
      and its carrier must be the caller (else 403), whatever the caller's
      roles. */
  function CarrierGate(caller: Caller, store: ShipmentStore, id: Id): (r: Option<int>)
    ensures r.None? <==> id in store && store[id].carrierId == Some(caller.userId)
    ensures id !in store ==> r == Some(NOT_FOUND)
    ensures id in store && store[id].carrierId != Some(caller.userId) ==> r == Some(FORBIDDEN)
  {
    if id !in store then Some(NOT_FOUND)
    else if !Is(store[id].carrierId, caller.userId) then Some(FORBIDDEN)
    else None
  }

  /** `updateShipment`: past the manager gate the partial update always
      succeeds. */
  function UpdateShipment(caller: Caller, store: ShipmentStore, id: Id, cmd: UpdateShipmentCommand): (r: Reply)
    ensures ManagerGate(caller, store, id).Some? ==>
      r == Reply(ManagerGate(caller, store, id).value, store, None, None)
    ensures ManagerGate(caller, store, id).None? ==>
      r.status == OK && r.shipment == Some(ApplyUpdate(store[id], cmd)) && r.store == store[id := r.shipment.value]
  {
    var gate := ManagerGate(caller, store, id);
    if gate.Some? then Reply(gate.value, store, None, None)
    else Answer(store, ShipmentService.Update(store, id, cmd))
  }

  /** `assignCarrierToShipment`: past the manager gate the assignment
      always succeeds, whatever the shipment's status. */
  function AssignCarrierToShipment(caller: Caller, store: ShipmentStore, id: Id, carrier: Id): (r: Reply)
    ensures ManagerGate(caller, store, id).Some? ==>
      r == Reply(ManagerGate(caller, store, id).value, store, None, None)
    ensures ManagerGate(caller, store, id).None? ==>
      r.status == OK && r.shipment == Some(AssignCarrier(store[id], carrier)) && r.store == store[id := r.shipment.value]
      && r.shipment.value.carrierId == Some(carrier)
  {
    var gate := ManagerGate(caller, store, id);
    if gate.Some? then Reply(gate.value, store, None, None)
    else Answer(store, ShipmentService.Assign(store, id, carrier))
  }

  /** `startShipment`: past the carrier gate, 200 when the aggregate
      starts the shipment and 500 when it refuses. */
  function StartShipmentEndpoint(caller: Caller, store: ShipmentStore, id: Id, now: Instant): (r: Reply)
    ensures CarrierGate(caller, store, id).Some? ==>
      r == Reply(CarrierGate(caller, store, id).value, store, None, None)
    ensures CarrierGate(caller, store, id).None? ==>
      (r.status == OK <==> store[id].status == Pending || store[id].status == Assigned)
    ensures r.status == OK ==> r.shipment.Some? && r.shipment.value.status == InProgress
                               && r.store == store[id := r.shipment.value]
    ensures r.status != OK ==> r.store == store
  {
    var gate := CarrierGate(caller, store, id);
    if gate.Some? then Reply(gate.value, store, None, None)
    else Answer(store, ShipmentService.Start(store, id, now))
  }

  /** `completeShipment`: past the carrier gate, 200 for a shipment in
      progress and 500 otherwise. */
  function CompleteShipmentEndpoint(caller: Caller, store: ShipmentStore, id: Id, now: Instant): (r: Reply)
    ensures CarrierGate(caller, store, id).Some? ==>
      r == Reply(CarrierGate(caller, store, id).value, store, None, None)
    ensures CarrierGate(caller, store, id).None? ==> (r.status == OK <==> store[id].status == InProgress)
    ensures r.status == OK ==> r.shipment.Some? && r.shipment.value.status == Completed
                               && r.store == store[id := r.shipment.value]
    ensures r.status != OK ==> r.store == store
  {
    var gate := CarrierGate(caller, store, id);
    if gate.Some? then Reply(gate.value, store, None, None)
    else Answer(store, ShipmentService.Complete(store, id, now))
  }

  /** `cancelShipment`: past the manager gate, 200 unless the shipment is
      completed, which the aggregate refuses (500). */
  function CancelShipmentEndpoint(caller: Caller, store: ShipmentStore, id: Id): (r: Reply)
    ensures ManagerGate(caller, store, id).Some? ==>
      r == Reply(ManagerGate(caller, store, id).value, store, None, None)
    ensures ManagerGate(caller, store, id).None? ==> (r.status == OK <==> store[id].status != Completed)
    ensures r.status == OK ==> r.shipment.Some? && r.shipment.value.status == Cancelled
                               && r.store == store[id := r.shipment.value]
    ensures r.status != OK ==> r.store == store
  {
    var gate := ManagerGate(caller, store, id);
    if gate.Some? then Reply(gate.value, store, None, None)
    else Answer(store, ShipmentService.Cancel(store, id))
  }

  /** `deleteShipment`: past the manager gate, 409 for a shipment in
      progress or completed, else 204 with the shipment gone. The 500
      branch for a failed delete cannot be reached, since the shipment
      was just found. */
  function DeleteShipment(caller: Caller, store: ShipmentStore, id: Id): (r: DeleteReply)
    ensures ManagerGate(caller, store, id).Some? ==> r == DeleteReply(ManagerGate(caller, store, id).value, store)
    ensures ManagerGate(caller, store, id).None? && (store[id].status == InProgress || store[id].status == Completed)
            ==> r == DeleteReply(CONFLICT, store)
    ensures r.status == NO_CONTENT <==>
      ManagerGate(caller, store, id).None? && store[id].status != InProgress && store[id].status != Completed
    ensures r.status == NO_CONTENT ==> r.store == store - {id}
    ensures r.status != NO_CONTENT ==> r.store == store
    ensures r.status != INTERNAL_SERVER_ERROR
  {
    var gate := ManagerGate(caller, store, id);
    if gate.Some? then DeleteReply(gate.value, store)
    else if store[id].status == InProgress || store[id].status == Completed then DeleteReply(CONFLICT, store)
    else
      var d := ShipmentService.Delete(store, id);
      if d.deleted then DeleteReply(NO_CONTENT, d.store) else DeleteReply(INTERNAL_SERVER_ERROR, store)
  }

  // ---------------------------------------------------------------------
  // properties
  // ---------------------------------------------------------------------

  /** User 0 is turned away wherever `canAccessShipment` is consulted:
      creating and the listings answer 401, and get, update, assign,
      cancel and delete on an existing shipment answer 403. Start and
      complete do not consult it (see the next lemma). */
  lemma AnonymousCallerIsTurnedAway(roles: set<string>, store: ShipmentStore, id: Id, res: CreateShipmentResource,
                                     freshId: Id, cmd: UpdateShipmentCommand, c: Id, s: ShipmentStatus)
    requires freshId !in store && ValidShipmentResource(res)
    requires id in store
    ensures var anon := Caller(0, roles);
            && CreateShipment(anon, store, res, freshId).status == UNAUTHORIZED
            && GetShipmentsForManager(anon, store).status == UNAUTHORIZED
            && GetShipmentsForCarrier(anon, store).status == UNAUTHORIZED
            && GetShipmentsByStatus(anon, store, s).status == UNAUTHORIZED
            && GetShipmentById(anon, store, id).status == FORBIDDEN
            && UpdateShipment(anon, store, id, cmd).status == FORBIDDEN
            && AssignCarrierToShipment(anon, store, id, c).status == FORBIDDEN
            && CancelShipmentEndpoint(anon, store, id).status == FORBIDDEN
            && DeleteShipment(anon, store, id).status == FORBIDDEN
  {
  }
  /** Start and complete never ask `canAccessShipment`: they only compare
      the shipment's carrier with the caller's id. An unauthenticated
      caller (id 0) therefore drives a shipment whose carrier is 0, an id
      the assignment endpoint accepts from the path. */
  lemma AnonymousCallerDrivesCarrierZero(roles: set<string>, store: ShipmentStore, id: Id, now: Instant)
    requires id in store && store[id].carrierId == Some(0)
    ensures var anon := Caller(0, roles);
            && (StartShipmentEndpoint(anon, store, id, now).status == OK <==> store[id].status in {Pending, Assigned})
            && (CompleteShipmentEndpoint(anon, store, id, now).status == OK <==> store[id].status == InProgress)
  {
  }

  /** A manager who assigns carrier 0 hands the shipment to anyone
      unauthenticated: the anonymous caller can then start it. */
  lemma {:induction false} AssigningCarrierZeroOpensStart(manager: Caller, roles: set<string>, store: ShipmentStore,
                                                          id: Id, now: Instant)
    requires ManagerGate(manager, store, id).None?
    requires store[id].status in {Pending, Assigned}
    ensures var handed := AssignCarrierToShipment(manager, store, id, 0);
            handed.status == OK && StartShipmentEndpoint(Caller(0, roles), handed.store, id, now).status == OK
  {
    var handed := AssignCarrierToShipment(manager, store, id, 0);
    assert handed.store[id] == AssignCarrier(store[id], 0);
    AnonymousCallerDrivesCarrierZero(roles, handed.store, id, now);
  }


  /** A caller who is neither admin nor manager of the shipment (a
      carrier, even the assigned one) cannot update, reassign, cancel or
      delete it, and the store is left alone. */
  lemma OnlyManagersChangeShipments(caller: Caller, store: ShipmentStore, id: Id, cmd: UpdateShipmentCommand, c: Id)
    requires id in store
    requires !HasRole(caller, ROLE_ADMIN)
    requires !HasRole(caller, ROLE_MANAGER) || store[id].managerId != caller.userId
    ensures UpdateShipment(caller, store, id, cmd) == Reply(FORBIDDEN, store, None, None)
    ensures AssignCarrierToShipment(caller, store, id, c) == Reply(FORBIDDEN, store, None, None)
    ensures CancelShipmentEndpoint(caller, store, id) == Reply(FORBIDDEN, store, None, None)
    ensures DeleteShipment(caller, store, id) == DeleteReply(FORBIDDEN, store)
  {
  }

  /** Starting and completing are for the assigned carrier alone: an
      admin or the shipment's manager who is not its carrier is refused,
      and any success was asked for by the carrier on record. */
  lemma OnlyTheCarrierDrives(caller: Caller, store: ShipmentStore, id: Id, now: Instant)
    ensures StartShipmentEndpoint(caller, store, id, now).status == OK ==>
              id in store && store[id].carrierId == Some(caller.userId)
    ensures CompleteShipmentEndpoint(caller, store, id, now).status == OK ==>
              id in store && store[id].carrierId == Some(caller.userId)
    ensures id in store && store[id].carrierId != Some(caller.userId) ==>
              && StartShipmentEndpoint(caller, store, id, now).status == FORBIDDEN
              && CompleteShipmentEndpoint(caller, store, id, now).status == FORBIDDEN
  {
  }

  /** The status listing shows exactly the shipments in that status the
      caller could fetch one by one. */
  lemma StatusListingAgreesWithLookup(caller: Caller, store: ShipmentStore, status: ShipmentStatus, id: Id)
    requires caller.userId != 0
    ensures id in GetShipmentsByStatus(caller, store, status).ids <==>
              id in store && store[id].status == status && GetShipmentById(caller, store, id).status == OK
  {
  }

  /** A shipment is deleted only before it is on the road or once it is
      cancelled; after a 204 it is gone and every other shipment stays. */
  lemma DeleteOnlyBeforeOrAfterTheRoad(caller: Caller, store: ShipmentStore, id: Id, other: Id)
    requires other != id && other in store
    ensures var d := DeleteShipment(caller, store, id);
            d.status == NO_CONTENT ==>
              && id in store && store[id].status in {Pending, Assigned, Cancelled}
              && id !in d.store && other in d.store && d.store[other] == store[other]
  {
  }

  /** What a manager creates is theirs: they can fetch it and it is in
      their listing, while a carrier cannot fetch it until assigned. */
  lemma {:induction false} CreatedShipmentBelongsToItsManager(caller: Caller, carrier: Caller, store: ShipmentStore,
                                                             res: CreateShipmentResource, freshId: Id)
    requires freshId !in store && ValidShipmentResource(res)
    requires caller.userId != 0 && HasRole(caller, ROLE_MANAGER)
    requires !HasRole(carrier, ROLE_ADMIN) && (!HasRole(carrier, ROLE_MANAGER) || carrier.userId != caller.userId)
    ensures var c := CreateShipment(caller, store, res, freshId);
            && c.status == CREATED
            && GetShipmentById(caller, c.store, freshId).status == OK
            && freshId in GetShipmentsForManager(caller, c.store).ids
            && GetShipmentById(carrier, c.store, freshId).status == FORBIDDEN
  {
    var c := CreateShipment(caller, store, res, freshId);
    assert c.store[freshId].managerId == caller.userId;
    assert c.store[freshId].carrierId.None?;
  }

  /** The endpoints a manager uses keep every stored shipment coherent
      (status and recorded dates agree). */
  lemma {:induction false} ManagerEndpointsKeepCoherence(caller: Caller, store: ShipmentStore, id: Id,
                                                         cmd: UpdateShipmentCommand, c: Id, now: Instant)
    requires AllCoherent(store)
    ensures AllCoherent(UpdateShipment(caller, store, id, cmd).store)
    ensures AllCoherent(AssignCarrierToShipment(caller, store, id, c).store)
    ensures AllCoherent(CancelShipmentEndpoint(caller, store, id).store)
    ensures AllCoherent(DeleteShipment(caller, store, id).store)
  {
    if ManagerGate(caller, store, id).None? {
      HandlersKeepCoherence(store, id, cmd, c, now);
    }
  }

  /** So do the endpoints the assigned carrier uses. */
  lemma {:induction false} CarrierEndpointsKeepCoherence(caller: Caller, store: ShipmentStore, id: Id, now: Instant)
    requires AllCoherent(store)
    ensures AllCoherent(StartShipmentEndpoint(caller, store, id, now).store)
    ensures AllCoherent(CompleteShipmentEndpoint(caller, store, id, now).store)
  {
    if CarrierGate(caller, store, id).None? {
      HandlersKeepCoherence(store, id, UpdateShipmentCommand(None, None, None, None, None), 0, now);
    }
  }
}

=== FILE: subscription.dfy ===
/** The subscription aggregate: a user's subscription to a plan, its
    status, its current billing period and the count of failed payments
    that suspends it. Dates are calendar positions with month resolution
    (see `DateTime`); the clock is the parameter `now`. */
module Subscriptions {
  import opened Wrappers
  import opened SubscriptionPlans

  datatype SubscriptionStatus = Pending | Active | Suspended | Canceled | Expired

  /** A `LocalDateTime` as a month count and a position inside that
      month. Adding months moves the month count only: the clamping of the
      day to the length of the target month (Jan 31 plus one month is
      Feb 28) is not represented. */
  datatype DateTime = DateTime(month: int, withinMonth: nat)

  /** The `Integer` failure counter: 32 bits, two's complement. */
  newtype Int32 = x: int | -0x8000_0000 <= x <= 0x7fff_ffff

  /** `failureCount++` on an `Integer`: wraps to the smallest value past
      the largest one. */
  function Increment(n: Int32): (r: Int32)
    ensures n < 0x7fff_ffff ==> r as int == n as int + 1
    ensures n == 0x7fff_ffff ==> r == -0x8000_0000
  {
    if n == 0x7fff_ffff then -0x8000_0000 else n + 1
  }

  /** The number of failed payments after which a subscription is
      suspended. */
  const MAX_FAILURES: Int32 := 3

  datatype Subscription = Subscription(
    userId: Id,
    paypalSubscriptionId: Option<string>,
    plan: SubscriptionPlan,
    status: SubscriptionStatus,
    amountCents: int,
    currency: string,
    currentPeriodStart: Option<DateTime>,
    currentPeriodEnd: Option<DateTime>,
    nextBillingTime: Option<DateTime>,
    canceledAt: Option<DateTime>,
    failureCount: Int32)

  function PlusMonths(t: DateTime, n: nat): (r: DateTime)
    ensures r.month == t.month + n && r.withinMonth == t.withinMonth
  {
    DateTime(t.month + n, t.withinMonth)
  }

  function PlusYears(t: DateTime, n: nat): (r: DateTime)
    ensures r == PlusMonths(t, 12 * n)
  {
    DateTime(t.month + 12 * n, t.withinMonth)
  }

  /** `new Subscription(userId, plan, amount, currency)`: PENDING, no
      failures, no PayPal id and no dates. */
  function NewSubscription(userId: Id, plan: SubscriptionPlan, amountCents: int, currency: string): (s: Subscription)
    ensures s.status == Pending && s.failureCount == 0
    ensures s.userId == userId && s.plan == plan && s.amountCents == amountCents && s.currency == currency
    ensures s.paypalSubscriptionId.None? && s.currentPeriodStart.None? && s.currentPeriodEnd.None?
    ensures s.nextBillingTime.None? && s.canceledAt.None?
  {
    Subscription(userId, None, plan, Pending, amountCents, currency, None, None, None, None, 0)
  }

  /** `calculatePeriodEnd`: one month after `start` for a monthly plan,
      one year after it for a yearly one. */
  function PeriodEnd(plan: SubscriptionPlan, start: DateTime): (r: DateTime)
    ensures r == PlusMonths(start, BillingCycleMonths(plan))
  {
    match plan
    case BasicMonthly => PlusMonths(start, 1)
    case PremiumMonthly => PlusMonths(start, 1)
    case BasicYearly => PlusYears(start, 1)
    case PremiumYearly => PlusYears(start, 1)
  }

  /** `activate`: ACTIVE, with the PayPal id and next billing time given
      and a period starting now; the failure count is left as it was. */
  function Activate(s: Subscription, paypalId: Option<string>, nextBillingTime: Option<DateTime>, now: DateTime)
    : (r: Subscription)
    ensures r.status == Active && r.paypalSubscriptionId == paypalId && r.nextBillingTime == nextBillingTime
    ensures r.currentPeriodStart == Some(now)
    ensures r.currentPeriodEnd == Some(PlusMonths(now, BillingCycleMonths(s.plan)))
    ensures r.(status := s.status, paypalSubscriptionId := s.paypalSubscriptionId, nextBillingTime := s.nextBillingTime,
               currentPeriodStart := s.currentPeriodStart, currentPeriodEnd := s.currentPeriodEnd) == s
  {
    s.(paypalSubscriptionId := paypalId, status := Active, nextBillingTime := nextBillingTime,
       currentPeriodStart := Some(now), currentPeriodEnd := Some(PeriodEnd(s.plan, now)))
  }

  /** `suspend`: SUSPENDED, whatever the status was. */
  function Suspend(s: Subscription): (r: Subscription)
    ensures r.status == Suspended && r.(status := s.status) == s
  {
    s.(status := Suspended)
  }

  /** `cancel`: CANCELED, whatever the status was, stamped now. */
  function Cancel(s: Subscription, now: DateTime): (r: Subscription)
    ensures r.status == Canceled && r.canceledAt == Some(now)
    ensures r.(status := s.status, canceledAt := s.canceledAt) == s
  {
    s.(status := Canceled, canceledAt := Some(now))
  }

  /** `markPaymentFailed`: one more failure; once the count is 3 or more
      the subscription is SUSPENDED, below that its status is kept. */
  function MarkPaymentFailed(s: Subscription): (r: Subscription)
    ensures r.failureCount == Increment(s.failureCount)
    ensures r.failureCount >= MAX_FAILURES ==> r.status == Suspended
    ensures r.failureCount < MAX_FAILURES ==> r.status == s.status
    ensures r.(failureCount := s.failureCount, status := s.status) == s
  {
    var n := Increment(s.failureCount);
    s.(failureCount := n, status := if n >= MAX_FAILURES then Suspended else s.status)
  }

  /** `resetFailureCount`: back to zero, the status untouched. */
  function ResetFailureCount(s: Subscription): (r: Subscription)
    ensures r.failureCount == 0 && r.(failureCount := s.failureCount) == s
  {
    s.(failureCount := 0)
  }

  /** `updateBillingCycle`: the new period starts where the current one
      ends. A subscription that never had a period (never activated) has
      a null end, and `plusMonths` on it throws a `NullPointerException`,
      reported as `Failure`. */
  function UpdateBillingCycle(s: Subscription, nextBillingTime: Option<DateTime>): (r: Result<Subscription>)
    ensures r.Failure? <==> s.currentPeriodEnd.None?
    ensures r.Success? ==>
      && r.value.currentPeriodStart == s.currentPeriodEnd
      && r.value.currentPeriodEnd == Some(PlusMonths(s.currentPeriodEnd.value, BillingCycleMonths(s.plan)))
      && r.value.nextBillingTime == nextBillingTime
      && r.value.(currentPeriodStart := s.currentPeriodStart, currentPeriodEnd := s.currentPeriodEnd,
                  nextBillingTime := s.nextBillingTime) == s
  {
    match s.currentPeriodEnd
    case None => Failure("NullPointerException")
    case Some(end) =>
      Success(s.(nextBillingTime := nextBillingTime, currentPeriodStart := Some(end),
                 currentPeriodEnd := Some(PeriodEnd(s.plan, end))))
  }

  predicate IsActive(s: Subscription) {
    s.status == Active
  }

  predicate CanBeReactivated(s: Subscription) {
    s.status == Suspended || s.status == Canceled
  }

  /** `activateSubscription` in the subscription service: the next billing
      time is `serviceNow` plus the plan's billing cycle, then `activate`
      reads the clock again (`activateNow`). */
  function ActivateSubscription(s: Subscription, paypalId: Option<string>, serviceNow: DateTime, activateNow: DateTime)
    : (r: Subscription)
    ensures r.status == Active
    ensures r.nextBillingTime == Some(PlusMonths(serviceNow, BillingCycleMonths(s.plan)))
    ensures r.currentPeriodStart == Some(activateNow)
  {
    Activate(s, paypalId, Some(PlusMonths(serviceNow, BillingCycleMonths(s.plan))), activateNow)
  }

  /** `handle(CreateSubscriptionCommand)`: a new subscription charged at
      the plan's price and currency. */
  function CreateSubscription(userId: Id, plan: SubscriptionPlan): (s: Subscription)
    ensures s.status == Pending && s.failureCount == 0 && s.userId == userId && s.plan == plan
    ensures s.amountCents == PriceCents(plan) && s.currency == "USD"
  {
    NewSubscription(userId, plan, PriceCents(plan), Currency(plan))
  }

  // ---------------------------------------------------------------------
  // properties
  // ---------------------------------------------------------------------

  /** `k` failed payments in a row. */
  function FailRepeatedly(s: Subscription, k: nat): Subscription {
    if k == 0 then s else MarkPaymentFailed(FailRepeatedly(s, k - 1))
  }

  /** Starting from `c` failures, `k` more in a row (short of wrapping)
      leave `c + k`, and the subscription is suspended as soon as the
      count reaches 3; before that its status is untouched. */
  lemma {:induction false} FailuresAccumulate(s: Subscription, k: nat)
    requires s.failureCount >= 0 && s.failureCount as int + k <= 0x7fff_ffff
    ensures FailRepeatedly(s, k).failureCount as int == s.failureCount as int + k
    ensures k > 0 && s.failureCount as int + k >= 3 ==> FailRepeatedly(s, k).status == Suspended
    ensures s.failureCount as int + k < 3 ==> FailRepeatedly(s, k).status == s.status
  {
    if k > 0 {
      FailuresAccumulate(s, k - 1);
    }
  }

  /** A new subscription survives two failed payments and is suspended by
      the third; a successful payment in between starts the count over. */
  lemma {:induction false} ThirdFailureSuspends(userId: Id, plan: SubscriptionPlan)
    ensures var s := CreateSubscription(userId, plan);
            && FailRepeatedly(s, 2).status == Pending
            && FailRepeatedly(s, 3).status == Suspended
            && FailRepeatedly(ResetFailureCount(FailRepeatedly(s, 2)), 2).status == Pending
  {
    var s := CreateSubscription(userId, plan);
    FailuresAccumulate(s, 2);
    FailuresAccumulate(s, 3);
    FailuresAccumulate(ResetFailureCount(FailRepeatedly(s, 2)), 2);
  }

  /** Activation does not clear the failure count: a subscription
      reactivated after being suspended for failures is suspended again
      by the very next failure unless a success reset the count first. */
  lemma ReactivationKeepsFailures(s: Subscription, paypalId: Option<string>, next: Option<DateTime>, now: DateTime)
    requires 3 <= s.failureCount < 0x7fff_ffff
    ensures IsActive(Activate(s, paypalId, next, now))
    ensures MarkPaymentFailed(Activate(s, paypalId, next, now)).status == Suspended
    ensures MarkPaymentFailed(ResetFailureCount(Activate(s, paypalId, next, now))).status == Active
  {
  }

  /** The two status queries exclude each other, and each of suspend,
      cancel and activate decides them whatever the status was before. */
  lemma StatusQueries(s: Subscription, paypalId: Option<string>, next: Option<DateTime>, now: DateTime)
    ensures !(IsActive(s) && CanBeReactivated(s))
    ensures CanBeReactivated(Suspend(s)) && !IsActive(Suspend(s))
    ensures CanBeReactivated(Cancel(s, now)) && !IsActive(Cancel(s, now))
    ensures IsActive(Activate(s, paypalId, next, now)) && !CanBeReactivated(Activate(s, paypalId, next, now))
    ensures s.status == Pending || s.status == Expired ==> !IsActive(s) && !CanBeReactivated(s)
  {
  }

  /** `k` billing cycles rolled over in a row. */
  function RollOver(s: Subscription, k: nat, next: Option<DateTime>): Result<Subscription> {
    if k == 0 then Success(s)
    else match RollOver(s, k - 1, next)
      case Failure(e) => Failure(e)
      case Success(t) => UpdateBillingCycle(t, next)
  }

  /** Periods abut: after activation at `now` and `k` roll-overs, the
      current period runs from `k` cycles after `now` to `k + 1` cycles
      after it, in the month arithmetic of `DateTime` (without the day
      clamping, which can only pull a period's end earlier). */
  lemma {:induction false} PeriodsAbut(s: Subscription, paypalId: Option<string>, next: Option<DateTime>,
                                       now: DateTime, k: nat)
    ensures var r := RollOver(Activate(s, paypalId, next, now), k, next);
            && r.Success? && r.value.plan == s.plan
            && r.value.currentPeriodStart == Some(PlusMonths(now, k * BillingCycleMonths(s.plan)))
            && r.value.currentPeriodEnd == Some(PlusMonths(now, (k + 1) * BillingCycleMonths(s.plan)))
  {
    if k > 0 {
      PeriodsAbut(s, paypalId, next, now, k - 1);
    }
  }

  /** When the service and the aggregate read the clock at the same
      moment, the next billing time is exactly the end of the first
      period. */
  lemma NextBillingIsPeriodEnd(s: Subscription, paypalId: Option<string>, now: DateTime)
    ensures ActivateSubscription(s, paypalId, now, now).nextBillingTime ==
            ActivateSubscription(s, paypalId, now, now).currentPeriodEnd
  {
  }
}

=== FILE: subscription_plan.dfy ===
/** The subscription plans on offer, with the fixed price, currency and
    billing cycle of each, and `fromPlanId`, the lookup by plan id.
    Prices are whole cents. */
module SubscriptionPlans {
  import opened Wrappers

  datatype SubscriptionPlan = BasicMonthly | BasicYearly | PremiumMonthly | PremiumYearly

  /** The plans in declaration order, the order `values()` walks. */
  const PLANS: seq<SubscriptionPlan> := [BasicMonthly, BasicYearly, PremiumMonthly, PremiumYearly]

  const UNKNOWN_PLAN: string := "Unknown subscription plan: "

  function PlanId(p: SubscriptionPlan): string {
    match p
    case BasicMonthly => "basic-monthly"
    case BasicYearly => "basic-yearly"
    case PremiumMonthly => "premium-monthly"
    case PremiumYearly => "premium-yearly"
  }

  function DisplayName(p: SubscriptionPlan): string {
    match p
    case BasicMonthly => "Basic Monthly Plan"
    case BasicYearly => "Basic Yearly Plan"
    case PremiumMonthly => "Premium Monthly Plan"
    case PremiumYearly => "Premium Yearly Plan"
  }

  /** The price in cents: 29.99, 299.99, 59.99 and 599.99 dollars. */
  function PriceCents(p: SubscriptionPlan): nat {
    match p
    case BasicMonthly => 2999
    case BasicYearly => 29999
    case PremiumMonthly => 5999
    case PremiumYearly => 59999
  }

  function Currency(p: SubscriptionPlan): string {
    "USD"
  }

  function BillingCycleMonths(p: SubscriptionPlan): nat {
    match p
    case BasicMonthly => 1
    case BasicYearly => 12
    case PremiumMonthly => 1
    case PremiumYearly => 12
  }

  predicate IsYearly(p: SubscriptionPlan) {
    p == BasicYearly || p == PremiumYearly
  }

  /** The first plan of `plans` whose id equals `id`, scanning left to
      right as the loop of `fromPlanId` does. */
  function FindPlan(plans: seq<SubscriptionPlan>, id: string): (r: Option<SubscriptionPlan>)
    ensures r.Some? ==> r.value in plans && PlanId(r.value) == id
    ensures r.None? <==> forall i :: 0 <= i < |plans| ==> PlanId(plans[i]) != id
  {
    if |plans| == 0 then None
    else if PlanId(plans[0]) == id then Some(plans[0])
    else
      var r := FindPlan(plans[1..], id);
      assert forall i :: 1 <= i < |plans| ==> plans[i] == plans[1..][i - 1];
      r
  }

  /** `fromPlanId`: the plan with that id, or the message of the
      `IllegalArgumentException` for any other string, null included. */
  function FromPlanId(id: Option<string>): (r: Result<SubscriptionPlan>)
    ensures r.Success? ==> id == Some(PlanId(r.value))
    ensures r.Failure? <==> id.None? || forall p: SubscriptionPlan :: PlanId(p) != id.value
    ensures id.None? ==> r == Failure(UNKNOWN_PLAN + "null")
    ensures id.Some? && r.Failure? ==> r == Failure(UNKNOWN_PLAN + id.value)
  {
    if id.None? then Failure(UNKNOWN_PLAN + "null")
    else
      match FindPlan(PLANS, id.value)
      case Some(p) => Success(p)
      case None =>
        assert forall p: SubscriptionPlan :: PlanId(p) != id.value by {
          forall p: SubscriptionPlan ensures PlanId(p) != id.value {
            assert PLANS[PlanIndex(p)] == p;
          }
        }
        Failure(UNKNOWN_PLAN + id.value)
  }

  /** Where `p` sits in `PLANS`. */
  function PlanIndex(p: SubscriptionPlan): (i: nat)
    ensures i < |PLANS| && PLANS[i] == p
  {
    match p
    case BasicMonthly => 0
    case BasicYearly => 1
    case PremiumMonthly => 2
    case PremiumYearly => 3
  }

  // ---------------------------------------------------------------------
  // properties
  // ---------------------------------------------------------------------

  /** No two plans share an id, so looking a plan up by its own id gives
      it back. */
  lemma {:induction false} FromPlanIdRoundTrip(p: SubscriptionPlan, q: SubscriptionPlan)
    ensures PlanId(p) == PlanId(q) ==> p == q
    ensures FromPlanId(Some(PlanId(p))) == Success(p)
  {
    var r := FromPlanId(Some(PlanId(p)));
    assert r.Success? by {
      assert PlanId(PLANS[PlanIndex(p)]) == PlanId(p);
    }
    if PlanId(p) == PlanId(q) {
      assert PlanId(p)[0] == PlanId(q)[0] && |PlanId(p)| == |PlanId(q)|;
    }
    assert PlanId(r.value) == PlanId(p);
    assert PlanId(r.value)[0] == PlanId(p)[0] && |PlanId(r.value)| == |PlanId(p)|;
  }

  /** Monthly plans bill every month and yearly plans every twelve; all
      are priced in dollars, the yearly price below twelve monthly ones. */
  lemma PlanTable(p: SubscriptionPlan)
    ensures BillingCycleMonths(p) == (if IsYearly(p) then 12 else 1)
    ensures Currency(p) == "USD"
    ensures p == BasicYearly ==> PriceCents(p) < 12 * PriceCents(BasicMonthly)
    ensures p == PremiumYearly ==> PriceCents(p) < 12 * PriceCents(PremiumMonthly)
  {
  }
}

=== FILE: vehicle.dfy ===
/** The vehicle aggregate and the request record that creates one. */
module Vehicles {
  import opened Wrappers
  import opened JavaStrings
  import opened FleetEvents

  datatype Vehicle = Vehicle(
    licensePlate: string,
    brand: string,
    model: string,
    status: VehicleStatus,
    carrierId: Option<Id>,
    managerId: Option<Id>)

  datatype CreateVehicleCommand = CreateVehicleCommand(licensePlate: string, brand: string, model: string, managerId: Option<Id>)

  /** The body of `POST /api/v1/vehicles` once its checks passed. */
  datatype CreateVehicleResource = CreateVehicleResource(licensePlate: string, brand: string, model: string)

  /** A body the compact constructor accepted: only such a body reaches
      the controller, since a refused one is answered 400 while the
      request is read. */
  predicate ValidVehicleResource(res: CreateVehicleResource) {
    ValidateCreateVehicle(Some(res.licensePlate), Some(res.brand), Some(res.model)).Success?
  }

  /** The record's compact constructor: plate, brand and model are each
      refused when null or blank, checked in that order; anything else is
      taken unchanged. */
  function ValidateCreateVehicle(licensePlate: Option<string>, brand: Option<string>, model: Option<string>)
    : (r: Result<CreateVehicleResource>)
    ensures r.Success? <==> Filled(licensePlate) && Filled(brand) && Filled(model)
    ensures r.Success? ==> r.value == CreateVehicleResource(licensePlate.value, brand.value, model.value)
    ensures !Filled(licensePlate) ==> r == Failure("License plate cannot be null or blank")
    ensures Filled(licensePlate) && !Filled(brand) ==> r == Failure("Brand cannot be null or blank")
    ensures Filled(licensePlate) && Filled(brand) && !Filled(model) ==> r == Failure("Model cannot be null or blank")
  {
    if !Filled(licensePlate) then Failure("License plate cannot be null or blank")
    else if !Filled(brand) then Failure("Brand cannot be null or blank")
    else if !Filled(model) then Failure("Model cannot be null or blank")
    else Success(CreateVehicleResource(licensePlate.value, brand.value, model.value))
  }

  /** `new Vehicle(command)`: the command's fields, status ACTIVE, no
      carrier. */
  function FromCommand(cmd: CreateVehicleCommand): (v: Vehicle)
    ensures v.status == Active && v.carrierId.None?
    ensures v.licensePlate == cmd.licensePlate && v.brand == cmd.brand && v.model == cmd.model
    ensures v.managerId == cmd.managerId
  {
    Vehicle(cmd.licensePlate, cmd.brand, cmd.model, Active, None, cmd.managerId)
  }

  /** `assignCarrier`: sets the carrier, overwriting any previous one. */
  function AssignCarrier(v: Vehicle, carrier: Id): (r: Vehicle)
    ensures r.carrierId == Some(carrier)
    ensures r.(carrierId := v.carrierId) == v
  {
    v.(carrierId := Some(carrier))
  }

  /** `removeCarrier`: clears the carrier. */
  function RemoveCarrier(v: Vehicle): (r: Vehicle)
    ensures r.carrierId.None?
    ensures r.(carrierId := v.carrierId) == v
  {
    v.(carrierId := None)
  }

  /** `changeStatus`: any status is accepted, from any status. */
  function ChangeStatus(v: Vehicle, status: VehicleStatus): (r: Vehicle)
    ensures r.status == status
    ensures r.(status := v.status) == v
  {
    v.(status := status)
  }

  /** Assigning and then removing a carrier gives back a vehicle without
      carrier and otherwise as it was; removing after any assignment is
      the same as removing at once. */
  lemma AssignThenRemove(v: Vehicle, c: Id)
    ensures RemoveCarrier(AssignCarrier(v, c)) == RemoveCarrier(v)
    ensures v.carrierId.None? ==> RemoveCarrier(AssignCarrier(v, c)) == v
  {
  }

  /** The carrier and the status are independent: changing one never
      disturbs the other. */
  lemma CarrierAndStatusCommute(v: Vehicle, c: Id, s: VehicleStatus)
    ensures ChangeStatus(AssignCarrier(v, c), s) == AssignCarrier(ChangeStatus(v, s), c)
    ensures ChangeStatus(RemoveCarrier(v), s) == RemoveCarrier(ChangeStatus(v, s))
  {
  }

  /** A validated resource always yields a fresh vehicle with non-blank
      text fields. */
  lemma ValidatedVehicleIsWellFormed(plate: Option<string>, brand: Option<string>, model: Option<string>, manager: Id)
    requires ValidateCreateVehicle(plate, brand, model).Success?
    ensures var res := ValidateCreateVehicle(plate, brand, model).value;
            var v := FromCommand(CreateVehicleCommand(res.licensePlate, res.brand, res.model, Some(manager)));
            !IsBlank(v.licensePlate) && !IsBlank(v.brand) && !IsBlank(v.model) && v.managerId == Some(manager)
  {
  }
}

=== FILE: vehicle_service.dfy ===
/** The vehicle command service: the handlers behind the vehicle
    endpoints, each returning the new store, the vehicle (empty when the
    id is unknown or the request is refused) and the event it publishes.
    The store is a map from vehicle id to vehicle; the id the database
    gives a new vehicle is a parameter. */
module VehicleService {
  import opened Wrappers
  import opened FleetEvents
  import opened Vehicles

  type Fleet = map<Id, Vehicle>

  /** Vehicles a non-pro manager may own. */
  const NON_PRO_VEHICLE_LIMIT: nat := 10

  datatype UpdateVehicleCommand = UpdateVehicleCommand(brand: Option<string>, model: Option<string>)

  datatype Created = Created(fleet: Fleet, vehicleId: Id, vehicle: Vehicle, event: VehicleCreatedEvent)

  /** The outcome of a handler that takes an existing vehicle: the new
      store, the updated vehicle or empty, the event if one was
      published, and whether the handler threw instead of answering. */
  datatype Handled = Handled(fleet: Fleet, vehicle: Option<Vehicle>, event: Option<VehicleUpdatedEvent>,
                             thrown: bool := false)

  /** The event every successful update-style handler publishes: only the
      fields that operation touched are non-null. */
  function UpdatedEvent(id: Id, brand: Option<string>, model: Option<string>, status: Option<VehicleStatus>,
                        carrier: Option<Id>): VehicleUpdatedEvent {
    VehicleUpdatedEvent(Some(id), None, brand, model, status, carrier)
  }

  /** No carrier is assigned to two vehicles at once. */
  predicate OneVehiclePerCarrier(fleet: Fleet) {
    forall a, b :: a in fleet && b in fleet && fleet[a].carrierId.Some? && fleet[a].carrierId == fleet[b].carrierId ==> a == b
  }

  /** The vehicles whose carrier is `carrier` (`findByCarrierId`). */
  function HeldBy(fleet: Fleet, carrier: Id): set<Id> {
    set id | id in fleet && fleet[id].carrierId == Some(carrier)
  }

  /** The vehicles owned by `manager` (`countByManagerId`). */
  function OwnedBy(fleet: Fleet, manager: Id): set<Id> {
    set id | id in fleet && fleet[id].managerId == Some(manager)
  }

  /** The licence plate column is unique: whether some vehicle of the
      fleet already carries `plate`. */
  predicate PlateTaken(fleet: Fleet, plate: string) {
    exists id :: id in fleet && fleet[id].licensePlate == plate
  }

  /** No two vehicles share a licence plate, as the unique column keeps it. */
  predicate UniquePlates(fleet: Fleet) {
    forall a, b :: a in fleet && b in fleet && fleet[a].licensePlate == fleet[b].licensePlate ==> a == b
  }

  /** `handle(CreateVehicleCommand)`: store the new vehicle under the id
      the database assigns and announce it. A plate already in the fleet
      violates the unique column, so `save` throws: nothing is stored and
      nothing is published. */
  function Create(fleet: Fleet, cmd: CreateVehicleCommand, freshId: Id): (r: Result<Created>)
    requires freshId !in fleet
    ensures r.Failure? <==> PlateTaken(fleet, cmd.licensePlate)
    ensures r.Success? ==>
      var c := r.value;
      && c.fleet == fleet[freshId := c.vehicle] && c.vehicleId == freshId
      && c.vehicle.status == Active && c.vehicle.carrierId.None? && c.vehicle.managerId == cmd.managerId
      && c.vehicle.licensePlate == cmd.licensePlate
      && c.event.vehicleId == Some(freshId) && c.event.managerId == cmd.managerId
      && c.event == VehicleCreatedEvent(Some(freshId), Some(cmd.licensePlate), Some(cmd.brand), Some(cmd.model),
                                        Some(Active), cmd.managerId)
  {
    if PlateTaken(fleet, cmd.licensePlate) then Failure("could not execute statement: duplicate licence plate")
    else
      var v := FromCommand(cmd);
      Success(Created(fleet[freshId := v], freshId, v,
                      VehicleCreatedEvent(Some(freshId), Some(v.licensePlate), Some(v.brand), Some(v.model), Some(v.status),
                                          v.managerId)))
  }

  /** `handle(vehicleId, UpdateVehicleCommand)`: a non-null brand or
      model replaces the stored one. The event repeats the command's
      brand and model and has no carrier. */
  function Update(fleet: Fleet, id: Id, cmd: UpdateVehicleCommand): (r: Handled)
    ensures id !in fleet ==> r == Handled(fleet, None, None)
    ensures id in fleet ==>
      var v := fleet[id];
      && r.vehicle.Some?
      && r.vehicle.value.brand == cmd.brand.GetOr(v.brand)
      && r.vehicle.value.model == cmd.model.GetOr(v.model)
      && r.vehicle.value.(brand := v.brand, model := v.model) == v
      && r.fleet == fleet[id := r.vehicle.value]
      && r.event == Some(UpdatedEvent(id, cmd.brand, cmd.model, None, None))
  {
    if id !in fleet then Handled(fleet, None, None)
    else
      var v := fleet[id];
      var v1 := if cmd.brand.Some? then v.(brand := cmd.brand.value) else v;
      var v2 := if cmd.model.Some? then v1.(model := cmd.model.value) else v1;
      Handled(fleet[id := v2], Some(v2), Some(UpdatedEvent(id, cmd.brand, cmd.model, None, None)))
  }

  /** `handle(vehicleId, carrierId)`: refused when the carrier already
      drives a vehicle; otherwise the carrier is set (replacing the
      vehicle's previous carrier, if any) and announced. The lookup of the
      carrier's vehicle expects at most one result, so a carrier found on
      two or more vehicles makes it throw. */
  function Assign(fleet: Fleet, id: Id, carrier: Id): (r: Handled)
    ensures |HeldBy(fleet, carrier)| > 1 ==> r == Handled(fleet, None, None, true)
    ensures |HeldBy(fleet, carrier)| == 1 ==> r == Handled(fleet, None, None)
    ensures r.thrown <==> |HeldBy(fleet, carrier)| > 1
    ensures HeldBy(fleet, carrier) == {} && id !in fleet ==> r == Handled(fleet, None, None)
    ensures HeldBy(fleet, carrier) == {} && id in fleet ==>
      && r.vehicle == Some(AssignCarrier(fleet[id], carrier))
      && r.fleet == fleet[id := r.vehicle.value]
      && r.event == Some(UpdatedEvent(id, None, None, None, Some(carrier)))
  {
    if |HeldBy(fleet, carrier)| > 1 then Handled(fleet, None, None, true)
    else if HeldBy(fleet, carrier) != {} || id !in fleet then Handled(fleet, None, None)
    else
      var v := AssignCarrier(fleet[id], carrier);
      Handled(fleet[id := v], Some(v), Some(UpdatedEvent(id, None, None, None, Some(carrier))))
  }

  /** `handle(vehicleId, status)`: any status, announced with no carrier. */
  function SetStatus(fleet: Fleet, id: Id, status: VehicleStatus): (r: Handled)
    ensures id !in fleet ==> r == Handled(fleet, None, None)
    ensures id in fleet ==>
      && r.vehicle == Some(ChangeStatus(fleet[id], status))
      && r.fleet == fleet[id := r.vehicle.value]
      && r.event == Some(UpdatedEvent(id, None, None, Some(status), None))
  {
    if id !in fleet then Handled(fleet, None, None)
    else
      var v := ChangeStatus(fleet[id], status);
      Handled(fleet[id := v], Some(v), Some(UpdatedEvent(id, None, None, Some(status), None)))
  }

  /** `handle(vehicleId)`: the carrier is cleared and the removal
      announced with no carrier. */
  function Unassign(fleet: Fleet, id: Id): (r: Handled)
    ensures id !in fleet ==> r == Handled(fleet, None, None)
    ensures id in fleet ==>
      && r.vehicle == Some(RemoveCarrier(fleet[id]))
      && r.fleet == fleet[id := r.vehicle.value]
      && r.event == Some(UpdatedEvent(id, None, None, None, None))
  {
    if id !in fleet then Handled(fleet, None, None)
    else
      var v := RemoveCarrier(fleet[id]);
      Handled(fleet[id := v], Some(v), Some(UpdatedEvent(id, None, None, None, None)))
  }

  /** `hasReachedVehicleLimit`: never for a pro manager; otherwise once
      the manager owns ten vehicles or more. */
  function HasReachedVehicleLimit(fleet: Fleet, manager: Id, isPro: bool): (r: bool)
    ensures isPro ==> !r
    ensures !isPro ==> (r <==> |OwnedBy(fleet, manager)| >= NON_PRO_VEHICLE_LIMIT)
  {
    !isPro && |OwnedBy(fleet, manager)| >= NON_PRO_VEHICLE_LIMIT
  }

  // ---------------------------------------------------------------------
  // properties
  // ---------------------------------------------------------------------

  /** Every handler that takes an existing vehicle changes that vehicle
      only and publishes exactly when it found (and did not refuse) it. */
  lemma HandlersTouchOneVehicle(fleet: Fleet, id: Id, cmd: UpdateVehicleCommand, carrier: Id, status: VehicleStatus)
    ensures forall r :: r in [Update(fleet, id, cmd), Assign(fleet, id, carrier), SetStatus(fleet, id, status), Unassign(fleet, id)] ==>
      && r.fleet.Keys == fleet.Keys
      && (forall other :: other in fleet && other != id ==> r.fleet[other] == fleet[other])
      && (r.event.Some? <==> r.vehicle.Some?)
      && (r.event.Some? ==> r.event.value.vehicleId == Some(id) && r.fleet[id] == r.vehicle.value)
  {
  }

  /** Only assignment ever publishes a carrier: brand/model updates,
      status changes and carrier removal all publish a null carrier. */
  lemma OnlyAssignPublishesACarrier(fleet: Fleet, id: Id, cmd: UpdateVehicleCommand, status: VehicleStatus)
    requires id in fleet
    ensures Update(fleet, id, cmd).event.value.carrierId.None?
    ensures SetStatus(fleet, id, status).event.value.carrierId.None?
    ensures Unassign(fleet, id).event.value.carrierId.None?
  {
  }

  /** Status and brand/model changes keep the vehicle's carrier: the
      null carrier in their events does not mean the carrier left. */
  lemma UpdatesKeepTheCarrier(fleet: Fleet, id: Id, cmd: UpdateVehicleCommand, status: VehicleStatus)
    requires id in fleet
    ensures Update(fleet, id, cmd).fleet[id].carrierId == fleet[id].carrierId
    ensures SetStatus(fleet, id, status).fleet[id].carrierId == fleet[id].carrierId
  {
  }

  /** Assignment keeps every carrier on at most one vehicle, because it
      refuses a carrier who already drives one. */
  lemma {:induction false} AssignKeepsOneVehiclePerCarrier(fleet: Fleet, id: Id, carrier: Id)
    requires OneVehiclePerCarrier(fleet)
    ensures OneVehiclePerCarrier(Assign(fleet, id, carrier).fleet)
  {
    var r := Assign(fleet, id, carrier);
    if HeldBy(fleet, carrier) == {} && id in fleet {
      forall x | x in fleet
        ensures fleet[x].carrierId != Some(carrier)
      {
        assert x !in HeldBy(fleet, carrier);
      }
    }
  }

  /** While every carrier drives at most one vehicle, the carrier lookup
      in assignment finds at most one, so the handler never throws. */
  lemma {:induction false} OneVehiclePerCarrierPreventsTheFault(fleet: Fleet, id: Id, carrier: Id)
    requires OneVehiclePerCarrier(fleet)
    ensures |HeldBy(fleet, carrier)| <= 1
    ensures !Assign(fleet, id, carrier).thrown
  {
    var held := HeldBy(fleet, carrier);
    if exists a :: a in held {
      var a :| a in held;
      assert held == {a} by {
        forall b | b in held
          ensures b == a
        {
          assert fleet[a].carrierId == fleet[b].carrierId == Some(carrier);
        }
      }
    } else {
      assert held == {};
    }
  }

  /** The other handlers keep the invariant too. */
  lemma OtherHandlersKeepOneVehiclePerCarrier(fleet: Fleet, id: Id, cmd: UpdateVehicleCommand, status: VehicleStatus,
                                              c: CreateVehicleCommand, freshId: Id)
    requires OneVehiclePerCarrier(fleet)
    requires freshId !in fleet
    ensures OneVehiclePerCarrier(Update(fleet, id, cmd).fleet)
    ensures OneVehiclePerCarrier(SetStatus(fleet, id, status).fleet)
    ensures OneVehiclePerCarrier(Unassign(fleet, id).fleet)
    ensures Create(fleet, c, freshId).Success? ==> OneVehiclePerCarrier(Create(fleet, c, freshId).value.fleet)
  {
  }

  /** Every handler keeps licence plates unique: creation refuses a taken
      plate, and no other handler changes a plate. */
  lemma {:induction false} HandlersKeepPlatesUnique(fleet: Fleet, id: Id, cmd: UpdateVehicleCommand, carrier: Id,
                                                     status: VehicleStatus, c: CreateVehicleCommand, freshId: Id)
    requires UniquePlates(fleet)
    requires freshId !in fleet
    ensures Create(fleet, c, freshId).Success? ==> UniquePlates(Create(fleet, c, freshId).value.fleet)
    ensures forall r :: r in [Update(fleet, id, cmd), Assign(fleet, id, carrier), SetStatus(fleet, id, status),
                              Unassign(fleet, id)]
                       ==> UniquePlates(r.fleet)
  {
    var r := Create(fleet, c, freshId);
    if r.Success? {
      assert !PlateTaken(fleet, c.licensePlate);
      assert forall x :: x in fleet ==> fleet[x].licensePlate != c.licensePlate;
    }
  }

  /** Creating a vehicle adds one to its manager's count, so ten
      creations from an empty fleet reach the non-pro limit. */
  lemma {:induction false} CreateCountsTowardsLimit(fleet: Fleet, c: CreateVehicleCommand, freshId: Id, manager: Id)
    requires freshId !in fleet
    ensures var r := Create(fleet, c, freshId);
            r.Success? && c.managerId == Some(manager) ==>
              OwnedBy(r.value.fleet, manager) == OwnedBy(fleet, manager) + {freshId}
    ensures var r := Create(fleet, c, freshId);
            r.Success? && c.managerId != Some(manager) ==>
              OwnedBy(r.value.fleet, manager) == OwnedBy(fleet, manager)
  {
    var r := Create(fleet, c, freshId);
    if r.Failure? {
      return;
    }
    var f := r.value.fleet;
    assert f == fleet[freshId := FromCommand(c)];
    if c.managerId == Some(manager) {
      assert forall id :: id in OwnedBy(f, manager) <==> id in OwnedBy(fleet, manager) || id == freshId;
    } else {
      assert forall id :: id in OwnedBy(f, manager) <==> id in OwnedBy(fleet, manager);
    }
  }
}

=== FILE: vehicles_controller.dfy ===
/** The vehicle endpoints' authorisation: who may create a vehicle, who may
    see or change one, and the lookup of a carrier's vehicle. Each
    endpoint is a function from the request headers and the store to the
    HTTP status, the vehicle it answers with, and what the command
    service did. */
module VehiclesController {
  import opened Wrappers
  import opened ServiceHeaders
  import opened FleetEvents
  import opened Vehicles
  import opened VehicleService
  import opened Http

  datatype Reply = Reply(status: int, fleet: Fleet, vehicle: Option<Vehicle>, event: Option<VehicleUpdatedEvent>)

  datatype CreateReply = CreateReply(status: int, fleet: Fleet, vehicle: Option<Vehicle>, event: Option<VehicleCreatedEvent>)

  /** `canAccessVehicle`: an identified caller who is an admin, the
      vehicle's manager, or its carrier. */
  function CanAccessVehicle(req: Request, managerId: Option<Id>, carrierId: Option<Id>): (r: bool)
    ensures UserId(req).None? ==> !r
    ensures UserId(req).Some? && Has(req, ADMIN) ==> r
    ensures !Has(req, ADMIN) && !Has(req, MANAGER) && !Has(req, CARRIER) ==> !r
    ensures UserId(req).Some? && Has(req, MANAGER) && Is(managerId, UserId(req).value) ==> r
    ensures UserId(req).Some? && Has(req, CARRIER) && Is(carrierId, UserId(req).value) ==> r
    ensures !Has(req, ADMIN) ==>
              (r <==> UserId(req).Some? && ((Has(req, MANAGER) && Is(managerId, UserId(req).value)) ||
                                           (Has(req, CARRIER) && Is(carrierId, UserId(req).value))))
  {
    match UserId(req)
    case None => false
    case Some(user) =>
      || Has(req, ADMIN)
      || (Has(req, MANAGER) && Is(managerId, user))
      || (Has(req, CARRIER) && Is(carrierId, user))
  }

  /** The guard of the update, assign, status and remove endpoints: the
      vehicle's carrier is never passed, so only its carrier role could
      not help. */
  predicate MayModify(req: Request, v: Vehicle) {
    CanAccessVehicle(req, v.managerId, None)
  }

  /** `createVehicle`: 401 without a user, 403 without the manager role,
      403 once the (never pro) manager owns ten vehicles, 500 when the
      handler's save throws on a licence plate already in the fleet, else
      201 with a vehicle owned by the caller. */
  function CreateVehicle(req: Request, fleet: Fleet, res: CreateVehicleResource, freshId: Id): (r: CreateReply)
    requires freshId !in fleet && ValidVehicleResource(res)
    ensures UserId(req).None? ==> r.status == UNAUTHORIZED
    ensures UserId(req).Some? && !Has(req, MANAGER) ==> r.status == FORBIDDEN
    ensures UserId(req).Some? && Has(req, MANAGER) && HasReachedVehicleLimit(fleet, UserId(req).value, false)
            ==> r.status == FORBIDDEN
    ensures r.status != CREATED ==> r.fleet == fleet && r.vehicle.None? && r.event.None?
    ensures (UserId(req).Some? && Has(req, MANAGER) && !HasReachedVehicleLimit(fleet, UserId(req).value, false) &&
             PlateTaken(fleet, res.licensePlate)) ==> r.status == INTERNAL_SERVER_ERROR
    ensures r.status == CREATED <==>
            UserId(req).Some? && Has(req, MANAGER) && |OwnedBy(fleet, UserId(req).value)| < NON_PRO_VEHICLE_LIMIT &&
            !PlateTaken(fleet, res.licensePlate)
    ensures r.status == CREATED ==>
      && r.vehicle.Some? && r.vehicle.value.managerId == UserId(req)
      && r.vehicle.value.licensePlate == res.licensePlate
      && r.fleet == fleet[freshId := r.vehicle.value]
      && r.event.Some? && r.event.value.managerId == UserId(req)
  {
    match UserId(req)
    case None => CreateReply(UNAUTHORIZED, fleet, None, None)
    case Some(user) =>
      if !Has(req, MANAGER) then CreateReply(FORBIDDEN, fleet, None, None)
      else if HasReachedVehicleLimit(fleet, user, false) then CreateReply(FORBIDDEN, fleet, None, None)
      else
        match Create(fleet, CreateVehicleCommand(res.licensePlate, res.brand, res.model, Some(user)), freshId)
        case Failure(_) => CreateReply(INTERNAL_SERVER_ERROR, fleet, None, None)
        case Success(c) => CreateReply(CREATED, c.fleet, Some(c.vehicle), Some(c.event))
  }

  /** `getVehicleById`: 404 when unknown, 403 unless the caller may access
      it (its carrier included), else 200. */
  function GetVehicleById(req: Request, fleet: Fleet, id: Id): (r: Reply)
    ensures r.fleet == fleet && r.event.None?
    ensures id !in fleet ==> r.status == NOT_FOUND
    ensures r.status == OK <==> id in fleet && CanAccessVehicle(req, fleet[id].managerId, fleet[id].carrierId)
    ensures r.status == OK ==> r.vehicle == Some(fleet[id])
    ensures r.status != OK ==> r.vehicle.None?
  {
    if id !in fleet then Reply(NOT_FOUND, fleet, None, None)
    else if !CanAccessVehicle(req, fleet[id].managerId, fleet[id].carrierId) then Reply(FORBIDDEN, fleet, None, None)
    else Reply(OK, fleet, Some(fleet[id]), None)
  }

  /** The shape all four modifying endpoints share: 404 when the vehicle
      is unknown, 403 when the guard fails, then the handler, whose empty
      answer is also a 404 and whose exception is a 500. */
  function Modify(req: Request, fleet: Fleet, id: Id, handled: Handled): (r: Reply)
    ensures id !in fleet ==> r == Reply(NOT_FOUND, fleet, None, None)
    ensures id in fleet && !MayModify(req, fleet[id]) ==> r == Reply(FORBIDDEN, fleet, None, None)
    ensures id in fleet && MayModify(req, fleet[id]) && handled.thrown ==>
      r == Reply(INTERNAL_SERVER_ERROR, fleet, None, None)
    ensures id in fleet && MayModify(req, fleet[id]) && !handled.thrown ==>
      r == Reply(if handled.vehicle.Some? then OK else NOT_FOUND, handled.fleet, handled.vehicle, handled.event)
  {
    if id !in fleet then Reply(NOT_FOUND, fleet, None, None)
    else if !MayModify(req, fleet[id]) then Reply(FORBIDDEN, fleet, None, None)
    else if handled.thrown then Reply(INTERNAL_SERVER_ERROR, fleet, None, None)
    else Reply(if handled.vehicle.Some? then OK else NOT_FOUND, handled.fleet, handled.vehicle, handled.event)
  }

  /** `updateVehicle`. */
  function UpdateVehicle(req: Request, fleet: Fleet, id: Id, cmd: UpdateVehicleCommand): (r: Reply)
    ensures r.status == OK <==> id in fleet && MayModify(req, fleet[id])
    ensures r.status != OK ==> r.fleet == fleet && r.event.None?
    ensures r.status == OK ==> r.fleet == Update(fleet, id, cmd).fleet && r.event == Update(fleet, id, cmd).event
  {
    Modify(req, fleet, id, Update(fleet, id, cmd))
  }

  /** `assignCarrierToVehicle`: a carrier who already drives a vehicle
      is refused by the handler, which the endpoint answers with 404; a
      carrier found on several vehicles makes the handler throw, a 500. */
  function AssignCarrierToVehicle(req: Request, fleet: Fleet, id: Id, carrier: Id): (r: Reply)
    ensures r.status == OK <==> id in fleet && MayModify(req, fleet[id]) && HeldBy(fleet, carrier) == {}
    ensures id in fleet && MayModify(req, fleet[id]) && |HeldBy(fleet, carrier)| == 1 ==> r.status == NOT_FOUND
    ensures id in fleet && MayModify(req, fleet[id]) && |HeldBy(fleet, carrier)| > 1 ==> r.status == INTERNAL_SERVER_ERROR
    ensures r.status != OK ==> r.fleet == fleet && r.event.None?
    ensures r.status == OK ==> r.fleet == fleet[id := AssignCarrier(fleet[id], carrier)]
  {
    Modify(req, fleet, id, Assign(fleet, id, carrier))
  }

  /** `changeVehicleStatus`. */
  function ChangeVehicleStatus(req: Request, fleet: Fleet, id: Id, status: VehicleStatus): (r: Reply)
    ensures r.status == OK <==> id in fleet && MayModify(req, fleet[id])
    ensures r.status != OK ==> r.fleet == fleet && r.event.None?
    ensures r.status == OK ==> r.fleet == fleet[id := ChangeStatus(fleet[id], status)]
  {
    Modify(req, fleet, id, SetStatus(fleet, id, status))
  }

  /** `removeCarrierFromVehicle`. */
  function RemoveCarrierFromVehicle(req: Request, fleet: Fleet, id: Id): (r: Reply)
    ensures r.status == OK <==> id in fleet && MayModify(req, fleet[id])
    ensures r.status != OK ==> r.fleet == fleet && r.event.None?
    ensures r.status == OK ==> r.fleet == fleet[id := RemoveCarrier(fleet[id])]
  {
    Modify(req, fleet, id, VehicleService.Unassign(fleet, id))
  }

  /** The only element of a one-element set. */
  function TheOne(s: set<Id>): (x: Id)
    requires |s| == 1
    ensures s == {x}
  {
    if forall y :: y !in s then
      assert false; 0
    else
      var x :| x in s;
      assert s - {x} == {} by {
        assert |s - {x}| == 0;
      }
      x
  }

  /** `getVehicleByCarrierId`: 404 when the carrier drives nothing; 500
      when two vehicles hold the carrier (the single-result query throws);
      otherwise allowed to an admin, or to a manager who owns the
      vehicle. The ownership test calls `equals` on the vehicle's manager
      id, so a vehicle without manager throws (500) for a caller who is a
      manager but not an admin. The caller's id is not checked first; a
      missing one simply never equals. */
  function GetVehicleByCarrierId(req: Request, fleet: Fleet, carrier: Id): (r: Reply)
    ensures r.fleet == fleet && r.event.None?
    ensures HeldBy(fleet, carrier) == {} ==> r.status == NOT_FOUND
    ensures |HeldBy(fleet, carrier)| > 1 ==> r.status == INTERNAL_SERVER_ERROR
    ensures r.status == OK ==>
      && r.vehicle.Some? && r.vehicle.value.carrierId == Some(carrier)
      && (Has(req, ADMIN) || (Has(req, MANAGER) && UserId(req).Some? && r.vehicle.value.managerId == UserId(req)))
    ensures |HeldBy(fleet, carrier)| == 1 && Has(req, ADMIN) ==> r.status == OK
    ensures |HeldBy(fleet, carrier)| == 1 && !Has(req, ADMIN) && !Has(req, MANAGER) ==> r.status == FORBIDDEN
    // a manager: 500 when the vehicle has no manager, 200 when it is theirs, 403 otherwise
    ensures |HeldBy(fleet, carrier)| == 1 && !Has(req, ADMIN) && Has(req, MANAGER) ==>
              var v := fleet[TheOne(HeldBy(fleet, carrier))];
              r.status == (if v.managerId.None? then INTERNAL_SERVER_ERROR
                           else if Is(UserId(req), v.managerId.value) then OK
                           else FORBIDDEN)
  {
    var held := HeldBy(fleet, carrier);
    if |held| == 0 then Reply(NOT_FOUND, fleet, None, None)
    else if |held| > 1 then Reply(INTERNAL_SERVER_ERROR, fleet, None, None)
    else
      var id := TheOne(held);
      assert id in held;
      var v := fleet[id];
      if Has(req, ADMIN) then Reply(OK, fleet, Some(v), None)
      else if !Has(req, MANAGER) then Reply(FORBIDDEN, fleet, None, None)
      else if v.managerId.None? then Reply(INTERNAL_SERVER_ERROR, fleet, None, None)
      else if Is(UserId(req), v.managerId.value) then Reply(OK, fleet, Some(v), None)
      else Reply(FORBIDDEN, fleet, None, None)
  }

  // ---------------------------------------------------------------------
  // properties
  // ---------------------------------------------------------------------

  /** A caller who is neither admin nor manager (a carrier, say) can
      never modify a vehicle, not even the one assigned to them: every
      modifying endpoint answers 403 or 404 and leaves the store as it
      was. */
  lemma CarrierOnlyCannotModify(req: Request, fleet: Fleet, id: Id, cmd: UpdateVehicleCommand, c: Id, s: VehicleStatus)
    requires !Has(req, ADMIN) && !Has(req, MANAGER)
    ensures forall r :: r in [UpdateVehicle(req, fleet, id, cmd), AssignCarrierToVehicle(req, fleet, id, c),
                              ChangeVehicleStatus(req, fleet, id, s), RemoveCarrierFromVehicle(req, fleet, id)] ==>
              r.status in {FORBIDDEN, NOT_FOUND} && r.fleet == fleet && r.event.None?
  {
  }

  /** The same carrier may read the vehicle assigned to them: reading
      passes the carrier, modifying does not. */
  lemma CarrierReadsButCannotModify(req: Request, fleet: Fleet, id: Id)
    requires id in fleet && UserId(req).Some? && fleet[id].carrierId == UserId(req)
    requires Has(req, CARRIER) && !Has(req, ADMIN) && !Has(req, MANAGER)
    ensures GetVehicleById(req, fleet, id).status == OK
    ensures !MayModify(req, fleet[id])
  {
  }

  /** A manager may modify exactly the vehicles they own. */
  lemma ManagerModifiesOwnVehicles(req: Request, v: Vehicle)
    requires UserId(req).Some? && Has(req, MANAGER) && !Has(req, ADMIN)
    ensures MayModify(req, v) <==> v.managerId == UserId(req)
  {
  }

  /** A manager's tenth vehicle is the last: once ten are owned, creating
      another is refused whatever else the request says. */
  lemma TenthVehicleIsTheLast(req: Request, fleet: Fleet, res: CreateVehicleResource, freshId: Id)
    requires freshId !in fleet && ValidVehicleResource(res)
    requires UserId(req).Some? && |OwnedBy(fleet, UserId(req).value)| >= 10
    ensures CreateVehicle(req, fleet, res, freshId).status != CREATED
    ensures CreateVehicle(req, fleet, res, freshId).fleet == fleet
  {
  }

  /** The carrier lookup fails with 500, instead of 403, for a manager who
      is not admin when the carrier's vehicle has no manager. */
  lemma CarrierLookupFaultsOnOwnerlessVehicle(req: Request, fleet: Fleet, carrier: Id, id: Id)
    requires HeldBy(fleet, carrier) == {id}
    requires fleet[id].managerId.None?
    requires Has(req, MANAGER) && !Has(req, ADMIN)
    ensures GetVehicleByCarrierId(req, fleet, carrier).status == INTERNAL_SERVER_ERROR
  {
    assert id in HeldBy(fleet, carrier);
  }
}

=== FILE: wrappers.dfy ===
/** Optional values: the model's stand-in for Java's nullable references
    and `java.util.Optional`. */
module Wrappers {

  /** Entity and user identifiers: Java `Long` values. */
  type Id = int

  /** A `LocalDateTime`/`Instant` as an ordered count of clock ticks. The
      clock itself (`now()`) is never read by the model: callers pass the
      time in. */
  type Instant = int

  /** `None` plays the role of Java's `null` / `Optional.empty()`. */
  datatype Option<+T> = None | Some(value: T) {

    /** The value, or `default` when absent. */
    function GetOr(default: T): T {
      match this
      case Some(v) => v
      case None => default
    }
  }

  /** Java's `a.equals(b)` where `a` may be null and `b` is a plain value:
      a null receiver never equals anything. */
  predicate Is<T(==)>(o: Option<T>, v: T) {
    o.Some? && o.value == v
  }

  /** The outcome of a check that can refuse its input, as Java's
      `IllegalArgumentException` from a record's compact constructor does;
      `error` is the exception message. */
  datatype Result<+T> = Success(value: T) | Failure(error: string)
}
